=== FILE: README.md ===
# Classroom app core, modelled in Dafny

This project models the logic of a React Native classroom application for
students, teachers and a director. It covers:

- the three Redux slices that hold the session (`auth`), the assignments and
  submissions (`assignments`), and the user lists (`users`);
- the pure helpers that derive statuses, colours, rates and validations;
- the assignment store that the single-file app in `mainapp.js` keeps in
  component state: demo sign-in, create, submit, grade, the "to grade" list, and
  the statistics summary;
- the two forms, for creating an assignment and handing one in;
- the teacher's grading screen, the teacher dashboard's figures, and the
  student's assignment card;
- the root navigator's choice of screens;
- the responsive width classes.

JavaScript values are modelled by a small dynamic value type (`Js.Value`).
Objects are maps from field names to values. Reducers are pure functions from
state and payload to the next state. A reducer that throws is a `Result`
failure that leaves the store unchanged, as Redux Toolkit's immer draft does.
The number parsers that the application calls (`Number`, `parseFloat`,
`parseInt`) are written out in `JsNumber`, with `None` standing for NaN.
Clocks, date parsing, ISO formatting, the document picker and the network
services are parameters of the functions that use them.

Files, one module each:

- `wrappers.dfy`: `Option` and `Result`.
- `js.dfy`: JavaScript values, truthiness and `trim`.
- `js_number.dfy`: `Number`, `parseFloat`, `parseInt` and `Math.round`.
- `constants.dfy`: roles and statuses.
- `helpers.dfy`: src/utils/helpers.js.
- `id_lists.dfy`: the find/replace/filter-by-`_id` list operations shared by the slices.
- `auth_slice.dfy`, `assignment_slice.dfy`, `user_slice.dfy`: the slices.
- `demo_login.dfy`: demo credentials and the sign-in handler.
- `local_store.dfy`: the assignment store and its statistics.
- `assignment_form.dfy`, `submission_form.dfy`: the two forms.
- `grade_screen.dfy`, `teacher_dashboard.dfy`, `student_assignments.dfy`: the screens.
- `app_navigator.dfy`: the root navigator.
- `seqs.dfy`: sequence facts shared by the folds.
- `responsive.dfy`: the width classes.

## Model

| member | source | states |
|---|---|---|
| Constants.RoleOf | src/utils/constants.js:5-9 | a stored value names a role exactly when it is one of the three role strings, and then it is that role's string |
| Constants.RoleRoundTrip | src/utils/constants.js:5-9 | reading back a role's stored string gives the role |
| Constants.StatusOf | src/utils/constants.js:12-17 | a string names a status exactly when it is one of the four status strings |
| Constants.StatusRoundTrip | src/utils/constants.js:12-17 | reading back a status's stored string gives the status |
| Helpers.IsOverdue | src/utils/helpers.js:47-55 | a missing date is never overdue; otherwise overdue exactly when the due instant is strictly before now |
| Helpers.OverdueIsMonotone | src/utils/helpers.js:47-55 | once overdue, an assignment stays overdue at every later instant |
| Helpers.AssignmentStatus | src/utils/helpers.js:60-84 | each of graded, late, submitted and pending holds exactly under its own condition: a grade beats lateness, and a late hand-in beats the clock |
| Helpers.GradeWinsOverDates | src/utils/helpers.js:60-84 | any grade other than null/undefined, 0 and '' included, gives "graded" whatever the dates |
| Helpers.StatusColor | src/utils/helpers.js:89-102 | the colour is grey exactly for an unknown status |
| Helpers.StatusText | src/utils/helpers.js:107-120 | the label is "Desconocido" exactly for an unknown status |
| Helpers.StatusPresentationInjective | src/utils/helpers.js:89-120 | two different statuses never share a label or a colour |
| Helpers.ValidateEmail | src/utils/helpers.js:125-130 | accepts exactly the present strings without white space that have one `@` with text before it, and a dot after it with text on both sides, as the regular expression demands |
| Helpers.EmailCheckMatches | src/utils/helpers.js:125-130 | the scan around the first `@` decides the pattern in both directions |
| Helpers.EmailCheckSound | src/utils/helpers.js:125-130 | a string with one `@`, text before it and a dot in a non-empty domain part matches the pattern |
| Helpers.IndexOf | src/utils/helpers.js:125-130 | the first position of a character, or -1 exactly when it does not occur |
| Helpers.TruncateText | src/utils/helpers.js:135-140 | empty or missing text gives ''; text within the limit is kept; longer text is its first `maxLength` characters followed by "..."; a missing limit means 100 |
| Helpers.DefaultLimitIsHundred | src/utils/helpers.js:135-140 | without a limit, text longer than 100 characters becomes its first 100 characters and "..." |
| Helpers.TruncateShortensOnce | src/utils/helpers.js:135-140 | a truncated text is `maxLength + 3` long, and truncating it again at that length leaves it as it is |
| Helpers.CompletionRate | src/utils/helpers.js:161-164 | 0 for a missing or zero total; otherwise `Math.round` of the exact percentage, that is, within half a point of it, halves rounding up |
| Helpers.CompletionRateBounds | src/utils/helpers.js:161-164 | a completed count between 0 and the total gives a rate between 0 and 100 |
| Helpers.CapitalizeFirst | src/utils/helpers.js:192-195 | same length as the input, first letter upper-cased and the rest lower-cased; '' for a missing string |
| Helpers.CapitalizeFirstIdempotent | src/utils/helpers.js:192-195 | capitalising twice is capitalising once |
| Helpers.ValidatePassword | src/utils/helpers.js:200-203 | accepts exactly the present passwords of at least 6 characters |
| IdLists.FindIndex | src/store/slices/assignmentSlice.js:68-70 | the first position whose `_id` matches, or -1 exactly when none matches |
| IdLists.FindIndexUnique | src/store/slices/assignmentSlice.js:68-70 | the first match is the only position that matches with no match before it |
| IdLists.ReplaceFirst | src/store/slices/assignmentSlice.js:66-75 | same length; the first match becomes the payload and everything else stays; no match leaves the list unchanged |
| IdLists.RemoveAll | src/store/slices/assignmentSlice.js:86-92 | an element survives exactly when it was in the list and does not carry the id |
| IdLists.RemoveAllAppend | src/store/slices/assignmentSlice.js:86-92 | filtering a concatenation filters each part, so the survivors keep their order |
| IdLists.RemoveAllIdempotent | src/store/slices/assignmentSlice.js:86-92 | filtering twice removes nothing more |
| IdLists.RemoveAllNoMatch | src/store/slices/assignmentSlice.js:86-92 | a list with no matching element comes back unchanged |
| IdLists.FindFirst | src/store/slices/userSlice.js:174-177 | `undefined` exactly when nothing matches; otherwise the first element that matches |
| IdLists.FindFirstAppend | src/store/slices/userSlice.js:174-177 | searching a concatenation searches the first part, then the second |
| IdLists.ReplacedIsFound | src/store/slices/userSlice.js:174-177 | once the first match is replaced by a record carrying the same `_id`, a search for that `_id` finds the new record |
| AuthSlice.LoginStart | src/store/slices/authSlice.js:15-18 | sets loading and clears the error; the session fields stay |
| AuthSlice.LoginSuccess | src/store/slices/authSlice.js:19-26 | throws exactly when the payload or its `user` is null/undefined; otherwise opens a session with that user, token and the user's role |
| AuthSlice.LoginFailure | src/store/slices/authSlice.js:27-34 | closes any session and records the error |
| AuthSlice.Logout | src/store/slices/authSlice.js:37-44 | the result is the initial state, whatever came before |
| AuthSlice.UpdateProfile | src/store/slices/authSlice.js:47-49 | the user becomes an object holding the payload's fields over the old user's, with nothing else; every other field stays |
| AuthSlice.ClearError | src/store/slices/authSlice.js:52-54 | clears the error and nothing else |
| AuthSlice.SetLoading | src/store/slices/authSlice.js:57-59 | stores the payload as the loading flag and nothing else |
| AuthSlice.RefreshToken | src/store/slices/authSlice.js:62-64 | replaces the token and nothing else |
| AuthSlice.InitialConsistent | src/store/slices/authSlice.js:5-12 | the initial state has no session and no user |
| AuthSlice.LifecycleEstablishesConsistency | src/store/slices/authSlice.js:19-44 | after login success, login failure or logout, a session is open exactly when a user is present, and its role is the user's role |
| AuthSlice.FieldReducersPreserveConsistency | src/store/slices/authSlice.js:15-64 | loginStart, clearError, setLoading and refreshToken keep a consistent session consistent |
| AuthSlice.UpdateProfileBreaksConsistency | src/store/slices/authSlice.js:47-49 | updateProfile on a closed session creates a user without a session, and on an open one it can change the user's role without changing the session's role |
| AuthSlice.LogoutIdempotent | src/store/slices/authSlice.js:37-44 | logging out twice is logging out once |
| AuthSlice.ThrowingLoginKeepsState | src/store/slices/authSlice.js:19-26 | a loginSuccess whose payload has no user leaves the store as it was |
| AuthSlice.Committed | src/store/slices/authSlice.js:19-26 | a reducer that throws commits nothing: the store keeps the state it had; otherwise the store takes the reducer's result |
| AssignmentSlice.CreateSuccess | src/store/slices/assignmentSlice.js:51-55 | the teacher list gains the payload at its end, and the other lists stay |
| AssignmentSlice.UpdateSuccess | src/store/slices/assignmentSlice.js:66-75 | the first teacher assignment with the payload's `_id` becomes the payload; with no match the teacher list is unchanged; the other lists stay |
| AssignmentSlice.UpdateReplacesFirstMatch | src/store/slices/assignmentSlice.js:66-75 | the first teacher assignment with the payload's `_id`, and only that one, becomes the payload |
| AssignmentSlice.DeleteSuccess | src/store/slices/assignmentSlice.js:86-92 | a teacher assignment survives exactly when its `_id` is not the payload |
| AssignmentSlice.DeleteIdempotent | src/store/slices/assignmentSlice.js:86-92 | deleting twice deletes nothing more, and the survivors keep their order |
| AssignmentSlice.MarkSubmitted | src/store/slices/assignmentSlice.js:135-138 | the assignment shows `submitted: true` and the submission, and keeps every other field |
| AssignmentSlice.SubmitSuccess | src/store/slices/assignmentSlice.js:128-140 | appends the submission, and marks the first assignment whose `_id` is the submission's `assignment` as submitted, or none |
| AssignmentSlice.GradeSuccess | src/store/slices/assignmentSlice.js:151-160 | the first submission with the payload's `_id` becomes the payload; with no match the submissions are unchanged; the other lists stay |
| AssignmentSlice.GradeReplacesFirstMatch | src/store/slices/assignmentSlice.js:151-160 | the first submission with the payload's `_id`, and only that one, becomes the payload |
| AssignmentSlice.StartReducers | src/store/slices/assignmentSlice.js:17-20 | every start reducer sets loading, clears the error and touches no collection |
| AssignmentSlice.FailureReducers | src/store/slices/assignmentSlice.js:26-29 | every failure reducer clears loading, records the payload and touches no collection |
| AssignmentSlice.FetchSubmissionsReplacesList | src/store/slices/assignmentSlice.js:113-117 | the submissions become the payload, loading and the error are cleared, and nothing else changes |
| AssignmentSlice.FetchSuccessesReplaceOwnList | src/store/slices/assignmentSlice.js:21-40 | fetching the student's or the teacher's assignments replaces that list and clears loading and the error; nothing else changes, and fetching the same list again is a no-op |
| AssignmentSlice.SetThenClearCurrent | src/store/slices/assignmentSlice.js:99-104 | setting stores the payload as the current assignment and nothing else; clearing afterwards leaves it null and nothing else changed |
| AssignmentSlice.ClearErrorOnly | src/store/slices/assignmentSlice.js:167-169 | clears the error and nothing else |
| AssignmentSlice.ResetIsInitial | src/store/slices/assignmentSlice.js:172-179 | resetting gives the initial state from anywhere |
| AssignmentSlice.Reduce | src/store/slices/assignmentSlice.js:13-180 | every action other than setting, clearing or resetting leaves the current assignment as it was, and resetting gives the initial state |
| UserSlice.Begin | src/store/slices/userSlice.js:16-19 | sets loading, clears the error, and leaves the lists and current user |
| UserSlice.Fail | src/store/slices/userSlice.js:30-33 | clears loading, records the error, and leaves the lists and current user |
| UserSlice.FetchTeachersSuccess | src/store/slices/userSlice.js:20-24 | the teachers become the payload, loading and the error are cleared, and the students and current user stay |
| UserSlice.FetchStudentsSuccess | src/store/slices/userSlice.js:25-29 | the students become the payload, loading and the error are cleared, and the teachers and current user stay |
| UserSlice.FetchesReplaceOwnList | src/store/slices/userSlice.js:20-29 | after fetching teachers (students), selecting by that role gives exactly the fetched list, and the other role's selection is unchanged |
| UserSlice.SetCurrentUser | src/store/slices/userSlice.js:36-38 | the current user becomes the payload and nothing else changes |
| UserSlice.ClearCurrentUser | src/store/slices/userSlice.js:39-41 | the current user becomes null and nothing else changes |
| UserSlice.ClearUndoesSet | src/store/slices/userSlice.js:36-41 | clearing after setting is clearing alone, and setting the current user to itself changes nothing |
| UserSlice.ClearError | src/store/slices/userSlice.js:122-124 | clears the error and nothing else |
| UserSlice.UpdateUserSuccess | src/store/slices/userSlice.js:48-74 | the first teacher and the first student with the payload's `_id` become the payload, the lists keep their length and are untouched without a match, and the current user is replaced exactly when it has that `_id` |
| UserSlice.UpdateReplacesFirstMatches | src/store/slices/userSlice.js:48-74 | given the first matching positions in both lists, exactly those two entries become the payload |
| UserSlice.UpdatedTeacherIsSelected | src/store/slices/userSlice.js:48-74 | after updating a listed teacher, selecting by that `_id` returns the new record |
| UserSlice.UpdatedStudentIsSelected | src/store/slices/userSlice.js:48-74 | after updating a listed student that no teacher shares an `_id` with, selecting by that `_id` returns the new record |
| UserSlice.DeactivateUserSuccess | src/store/slices/userSlice.js:85-105 | each list is filtered by the `_id`: a user survives exactly when its `_id` differs, in its place and as often as before; the current user is cleared exactly when it has that `_id`; loading and the error are cleared |
| UserSlice.DeactivateKeepsOrder | src/store/slices/userSlice.js:85-105 | the survivors of a split list are the survivors of each part in order, and deactivating the same `_id` twice removes nothing more |
| UserSlice.DeactivatedIsGone | src/store/slices/userSlice.js:85-105 | afterwards the user cannot be selected and is not the current user |
| UserSlice.DeactivateAbsentIsNoop | src/store/slices/userSlice.js:85-105 | deactivating an id no one has changes only the loading flag and the error |
| UserSlice.AddUser | src/store/slices/userSlice.js:112-119 | a teacher joins the teachers, a student the students, and any other role changes nothing |
| UserSlice.AddedUserIsSelectable | src/store/slices/userSlice.js:112-119 | a user that addUser accepts can then be selected by its `_id` |
| UserSlice.ResetUsers | src/store/slices/userSlice.js:127-133 | resetting gives the initial state |
| UserSlice.SelectUserById | src/store/slices/userSlice.js:174-177 | nothing exactly when no teacher or student has the id; otherwise a listed user with that id |
| UserSlice.SelectPrefersTeachers | src/store/slices/userSlice.js:174-177 | a teacher wins over a student with the same `_id` |
| UserSlice.SelectUsersByRole | src/store/slices/userSlice.js:179-186 | the teachers for "teacher", the students for "student", and nothing for any other role |
| DemoLogin.LoginUserAsWritten | mainapp.js:71-83 | succeeds exactly when the e-mail is a demo account or an inherited object member, and the password is the demo password |
| DemoLogin.WrittenUserIsBare | mainapp.js:71-77 | what a successful lookup resolves with is the user itself, which has no `user` member of its own |
| DemoLogin.LoginUser | mainapp.js:71-83 | succeeds exactly for a demo account with the demo password, and returns that account |
| DemoLogin.LoginUserCarriesRole | mainapp.js:46-69 | the user a successful login returns carries the account's e-mail and role |
| DemoLogin.LookupsAgreeOnOwnKeys | mainapp.js:71-83 | away from inherited member names the written and the corrected lookups agree |
| DemoLogin.InheritedNameLogsIn | mainapp.js:71-83 | "constructor" with the demo password passes the written check and is refused by the corrected one |
| DemoLogin.HandleLoginAsWritten | mainapp.js:1053-1125 | blank fields change nothing; otherwise no session is ever opened and loading ends false; a successful lookup ends with the thrown message as the error, and rejected credentials with "Credenciales inválidas" |
| DemoLogin.DemoAccountCannotSignIn | mainapp.js:1090 | the teacher demo account's own credentials leave the session closed, with the exception's message as the error |
| DemoLogin.HandleLogin | mainapp.js:1053-1125 | blank fields change nothing; otherwise loading ends false, the session is consistent and open exactly when the credentials are accepted, and is otherwise closed with "Credenciales inválidas" |
| DemoLogin.DemoAccountSignsIn | mainapp.js:1053-1125 | with the corrected handler every demo account signs in, with its own user and role and no error |
| LocalStore.CreateAssignment | mainapp.js:1128-1138 | appends one assignment under the new id, with the draft's fields and no submissions |
| LocalStore.CreateKeepsCounts | mainapp.js:1128-1138 | creating adds no submission and no grade |
| LocalStore.AppendSubmission | mainapp.js:1151-1157 | every assignment with the id gains the submission at its end, and every other assignment stays |
| LocalStore.SubmitAssignment | mainapp.js:1140-1161 | throws exactly when no user is signed in; otherwise appends the new submission to the assignments with the draft's id |
| LocalStore.SubmitAddsOnePerMatch | mainapp.js:1140-1161 | the submission count grows by the number of assignments that carry the id |
| LocalStore.SubmitUnknownIdIsNoop | mainapp.js:1140-1161 | an id that no assignment has leaves the store as it was |
| LocalStore.SubmittedIsToGrade | mainapp.js:1140-1161 | after a submission its assignment is in the "to grade" list |
| LocalStore.GradeAll | mainapp.js:1169-1178 | every submission of the student is graded and every other one stays |
| LocalStore.GradeOne | mainapp.js:1169-1178 | a submission of the student takes the grade, the feedback and status "graded"; any other submission is unchanged; the student and the hand-in stay |
| LocalStore.GradeAssignment | mainapp.js:1163-1186 | only the assignments with the id change, and only in their submissions |
| LocalStore.GradeKeepsCounts | mainapp.js:1163-1186 | grading never changes the number of submissions and never lowers the number graded |
| LocalStore.GradeThenRead | mainapp.js:1163-1186 | a graded submission shows the grade and feedback as entered and status "graded" |
| LocalStore.AssignmentModalSubmit | mainapp.js:124-131 | refused exactly when the title or subject is empty; otherwise creates the assignment |
| LocalStore.SubmissionModalSubmit | mainapp.js:284-291 | refused exactly when no assignment is chosen; otherwise submits |
| LocalStore.GradesModalSubmit | mainapp.js:419-426 | refused exactly when the grade is empty; otherwise grades |
| LocalStore.AssignmentsToGrade | mainapp.js:1221-1225 | an assignment is listed exactly when one of its submissions has status "submitted" |
| LocalStore.AssignmentsToGradeAppend | mainapp.js:1221-1225 | the selection acts on each part of a list separately, so it keeps the order |
| LocalStore.NoSubmissionsIffZero | mainapp.js:962-964 | the submission count is zero exactly when no assignment has a submission |
| LocalStore.SubmissionCount | mainapp.js:962-964 | the reduce over the assignments, adding each one's number of submissions |
| LocalStore.CountStatus | mainapp.js:987-989 | at most the number of submissions, and zero exactly when none has the status |
| LocalStore.NoneGradedIffZero | mainapp.js:987-989 | the graded count is zero exactly when no submission of any assignment has status "graded" |
| LocalStore.GradedCount | mainapp.js:987-989 | the number of graded submissions, counted assignment by assignment |
| LocalStore.GradedAtMostTotal | mainapp.js:987-992 | no more submissions are graded than exist |
| LocalStore.SlashParts | mainapp.js:973-974 | there is a split exactly when the grade has a slash; the first part is the text before the first slash, and the second is the text after it up to the next slash or the end |
| LocalStore.GradeValue | mainapp.js:975-977 | a value is kept exactly when both sides are numbers above zero, and it is then o/t·10, so above zero |
| LocalStore.NumericGrade | mainapp.js:972-979 | a grade contributes only when it has a slash, and what it contributes is above zero |
| LocalStore.FractionGrade | mainapp.js:972-979 | "o/t" with whole numbers contributes exactly when both are positive, and then o/t·10 |
| LocalStore.NineOfTen | mainapp.js:972-979 | "9/10" contributes exactly 9 |
| LocalStore.GradedOutOfTen | mainapp.js:972-979 | a graded submission whose grade is "d/10" for a digit d from 1 to 9 is counted and contributes d |
| LocalStore.ZeroOfTen | mainapp.js:972-979 | "0/10" is left out of the average rather than counted as 0 |
| LocalStore.GradesByAppend | mainapp.js:969-982 | the grades of a concatenation are the grades of each part, in order |
| LocalStore.GradesByPositive | mainapp.js:969-982 | every kept grade is above zero |
| LocalStore.AllGrades | mainapp.js:969-982 | at most one grade per submission over all assignments |
| LocalStore.AverageGrade | mainapp.js:984-985 | 0 with no grades; otherwise a whole number of tenths within 0.05 of the mean, which is what rounding the mean times ten and dividing by ten gives; never negative for positive grades |
| LocalStore.SubmissionRate | mainapp.js:966-967 | 0 without assignments; otherwise `Math.round` of 100·S/(3n), that is, within half a point of it, halves rounding up |
| LocalStore.SubmissionRateUncapped | mainapp.js:966-967 | more than three submissions per assignment push the rate past 100 |
| LocalStore.GradedShare | mainapp.js:991-992 | 0 without submissions; otherwise `Math.round` of 100·graded/total, within half a point of it; between 0 and 100 when the graded count is at most the total |
| LocalStore.UpdateStats | mainapp.js:960-1001 | counts the assignments and submissions; the submission rate rounds 100·S/(3n); the graded share is 0 without submissions and otherwise rounds 100·graded/S; the average is 0 without grades and otherwise a whole number of tenths within 0.05 of the mean of the kept grades |
| LocalStore.SeedStats | mainapp.js:898-939 | the seed assignments give 2 assignments, 2 submissions, rate 33, average 8.0 and 50% graded |
| LocalStore.MixedExample | mainapp.js:960-1001 | an assignment with "9/10", "7/10" and a waiting submission, next to one without submissions, gives 3 submissions, rate 50, average 8.0 and 67% graded |
| LocalStore.CreateSubmitGrade | mainapp.js:1128-1186 | create, submit and grade "8/10": the submission goes from absent to "submitted" to "graded", and 8 is the one grade the average is taken over |
| AssignmentForm.StartingValues | src/components/forms/AssignmentForm.js:32-39 | the given values win, the defaults fill the rest, and nothing else appears |
| AssignmentForm.NumberCast | src/components/forms/AssignmentForm.js:20-23 | a number is kept; a string reads as `Number` of its text with every white-space character removed, and a string of spaces only is NaN; any other value is NaN |
| AssignmentForm.NumberCastIgnoresSpaces | src/components/forms/AssignmentForm.js:20-23 | removing white space from a string does not change what it casts to |
| AssignmentForm.SpacedTen | src/components/forms/AssignmentForm.js:20-23 | " 1 0 " casts to 10, because inner white space is dropped too |
| AssignmentForm.TitleValid | src/components/forms/AssignmentForm.js:10-13 | a title is valid when it is a string of 5 to 200 characters |
| AssignmentForm.DescriptionValid | src/components/forms/AssignmentForm.js:14-16 | a description is valid when it is a string of at least 10 characters |
| AssignmentForm.DueDateValid | src/components/forms/AssignmentForm.js:17-19 | a due date is valid when it is present, reads as a date, and is not before the moment the schema was built |
| AssignmentForm.MaxPointsValid | src/components/forms/AssignmentForm.js:20-23 | the points are valid when present and cast to a number from 1 to 100 |
| AssignmentForm.SchemaValid | src/components/forms/AssignmentForm.js:9-24 | the schema accepts exactly when all four field rules hold |
| AssignmentForm.InstructionsUnchecked | src/components/forms/AssignmentForm.js:9-24 | the schema never looks at the instructions |
| AssignmentForm.DefaultsRefused | src/components/forms/AssignmentForm.js:9-39 | the empty starting values are refused, whatever the date readers answer |
| AssignmentForm.DueDateBoundary | src/components/forms/AssignmentForm.js:17-19 | a due date equal to the moment the schema was built is accepted, and one instant before it is not |
| AssignmentForm.WholeMaxPointsValid | src/components/forms/AssignmentForm.js:20-23 | every whole number from 1 to 100 typed as text is accepted as that number |
| AssignmentForm.SubmitAsWritten | src/components/forms/AssignmentForm.js:47-58 | refused exactly when the schema rejects; when the handler's own `new Date` cannot read the accepted due date, `toISOString` throws and the catch alerts; otherwise sends the other values, the ISO text of the handler's date and `parseInt(maxPoints, 10)` |
| AssignmentForm.ParseIntValue | src/components/forms/AssignmentForm.js:52 | a string reads as `parseInt` of its text; a number written in plain decimal notation is truncated toward zero; anything else is NaN |
| AssignmentForm.FractionalPointsTruncated | src/components/forms/AssignmentForm.js:20-52 | a fractional number of points from 1 to 100 passes the schema and is sent truncated, still between 1 and 100 |
| AssignmentForm.SentDateWasChecked | src/components/forms/AssignmentForm.js:17-51 | when the handler reads dates as the schema does, the sent due date is the ISO text of an instant not before the schema was built |
| AssignmentForm.HexMaxPointsSendsZero | src/components/forms/AssignmentForm.js:20-53 | "0x10" passes the schema as 16; when the due date reads, the written handler sends 0 points and the corrected one sends 16 |
| AssignmentForm.Submit | src/components/forms/AssignmentForm.js:47-58 | refused exactly when the schema rejects, alerts exactly when the handler cannot read the due date, and otherwise sends the points the schema checked, always between 1 and 100 |
| SubmissionForm.PickAppend | src/components/forms/SubmissionForm.js:12-25 | a successful pick with an output list appends its files after the picked ones; a successful pick without one fails uncaught, because the spread runs in the state updater during render; any other answer leaves the list |
| SubmissionForm.RemoveFile | src/components/forms/SubmissionForm.js:27-29 | an index in range drops exactly that file and keeps the order; any other index changes nothing |
| SubmissionForm.RemoveUndoesPick | src/components/forms/SubmissionForm.js:12-29 | a successful pick does not fail, and removing the file just picked restores the list from before |
| SubmissionForm.RemoveOutOfRangeIsNoop | src/components/forms/SubmissionForm.js:27-29 | removing an index outside the list changes nothing, however often |
| SubmissionForm.HandleSubmit | src/components/forms/SubmissionForm.js:31-42 | refused with its message exactly when there are no files and the comment is blank; otherwise sends the assignment's `_id`, the trimmed comment and the files, never both empty |
| SubmissionForm.DisabledIffRefused | src/components/forms/SubmissionForm.js:89 | the send button is disabled exactly when sending would be refused |
| SubmissionForm.SendDisabled | src/components/forms/SubmissionForm.js:89 | the send button is disabled when there is no file and the comment is blank |
| SubmissionForm.BlankCommentIsNoComment | src/components/forms/SubmissionForm.js:31-35 | a comment of white space alone, with no file, is refused |
| GradeScreen.OpenGradeModal | src/screens/teacher/GradeSubmissionsScreen.js:58-63 | shows the dialog for the submission, with its grade as text ('' when missing) and its feedback |
| GradeScreen.TextOf | src/screens/teacher/GradeSubmissionsScreen.js:60 | a missing grade shows as '' and a string grade as itself |
| GradeScreen.OpenShowsStoredText | src/screens/teacher/GradeSubmissionsScreen.js:58-63 | a submission's text grade and feedback appear in the dialog as stored |
| GradeScreen.CloseGradeModal | src/screens/teacher/GradeSubmissionsScreen.js:65-70 | hides the dialog and forgets the selection and both fields |
| GradeScreen.CloseForgetsEverything | src/screens/teacher/GradeSubmissionsScreen.js:58-70 | closing gives the same closed dialog whatever was open |
| GradeScreen.Limit | src/screens/teacher/GradeSubmissionsScreen.js:79 | the assignment's `maxPoints` when truthy, 10 otherwise |
| GradeScreen.FallbackLimit | src/screens/teacher/GradeSubmissionsScreen.js:79 | a missing, zero or empty `maxPoints` bounds grades at 10 |
| GradeScreen.ToNumber | src/screens/teacher/GradeSubmissionsScreen.js:78-82 | how `>` reads the limit: null as 0, booleans as 0 and 1, numbers as themselves, strings by `Number`, and undefined and objects as NaN |
| GradeScreen.CheckedGrade | src/screens/teacher/GradeSubmissionsScreen.js:72-82 | a blank grade is refused as blank; a grade is accepted exactly when it reads as a number from 0 to the limit, and the accepted value is what `parseFloat` reads |
| GradeScreen.WholeGradeChecked | src/screens/teacher/GradeSubmissionsScreen.js:78-82 | a grade that reads as x is accepted exactly when 0 ≤ x ≤ limit, or x ≤ 10 when the limit is 0 |
| GradeScreen.BoundsInclusive | src/screens/teacher/GradeSubmissionsScreen.js:78-82 | 0 and the limit itself are both accepted |
| GradeScreen.OutsideRefused | src/screens/teacher/GradeSubmissionsScreen.js:78-82 | one above the limit, and any negative grade, are refused |
| GradeScreen.GradeMatching | src/screens/teacher/GradeSubmissionsScreen.js:92-102 | every submission with the selected `_id` is graded and every other one stays, in place |
| GradeScreen.GradedFields | src/screens/teacher/GradeSubmissionsScreen.js:94-100 | a graded submission shows the grade, the trimmed feedback, the time and "graded", and keeps every other field |
| GradeScreen.Graded | src/screens/teacher/GradeSubmissionsScreen.js:94-100 | the graded submission carries the grade and status "graded" and keeps every field it had |
| GradeScreen.GradedTwice | src/screens/teacher/GradeSubmissionsScreen.js:94-100 | grading a submission twice with the same values is grading it once |
| GradeScreen.GradeMatchingIdempotent | src/screens/teacher/GradeSubmissionsScreen.js:92-102 | applying the same grading to the list twice is applying it once |
| GradeScreen.GradeMatchingAbsent | src/screens/teacher/GradeSubmissionsScreen.js:92-102 | an `_id` that no submission has leaves the list unchanged |
| GradeScreen.HandleGradeSubmission | src/screens/teacher/GradeSubmissionsScreen.js:72-112 | refused with the check's reason, or for lack of a selection; otherwise the matching submissions are graded and the dialog is closed |
| TeacherDashboard.AlertText | src/screens/teacher/TeacherDashboard.js:69-71 | the alert always has text: the error's `response.data.message` when truthy, and "Error al cargar el dashboard" otherwise |
| TeacherDashboard.ServiceAnswer | src/services/assignmentService.js:15-22 | `getTeacherAssignments` always resolves: with the response's `assignments` on success, and with no `assignments` on any error |
| TeacherDashboard.FailedRequestShowsNothing | src/screens/teacher/TeacherDashboard.js:35-75 | a failed request shows zero totals, an empty recent list and no new alert, because the service resolves instead of rejecting |
| TeacherDashboard.Recent | src/screens/teacher/TeacherDashboard.js:67 | the start of the list, five long once there are five |
| TeacherDashboard.LoadDashboardData | src/screens/teacher/TeacherDashboard.js:35-75 | on the service's answer the totals equal the sums of the counters (missing ones count 0) over the list (a missing list is empty), the average is taken over every submission in order, and the alert stays; when something inside the `try` throws, the figures stay and an alert is shown |
| TeacherDashboard.TotalsOfAppend | src/screens/teacher/TeacherDashboard.js:46-55 | one more assignment adds its counters to the totals and its submissions at the end |
| TeacherDashboard.TotalSubmissions | src/screens/teacher/TeacherDashboard.js:46-55 | reference sum of every assignment's submissions counter, a missing one counting 0 |
| TeacherDashboard.PendingGrading | src/screens/teacher/TeacherDashboard.js:46-55 | reference sum of every assignment's pending counter, a missing one counting 0 |
| TeacherDashboard.AllSubmissions | src/screens/teacher/TeacherDashboard.js:46-55 | reference concatenation of every assignment's submission list, a missing one counting as empty |
| TeacherDashboard.GatheredIffListed | src/screens/teacher/TeacherDashboard.js:52-54 | a submission is gathered exactly when some assignment's list holds it |
| TeacherDashboard.PendingWithinSubmissions | src/screens/teacher/TeacherDashboard.js:46-48 | when each assignment's counters are sane, the pending total is not negative and never exceeds the submissions total |
| StudentAssignments.CardStatus | src/screens/student/AssignmentsScreen.js:55 | "submitted" exactly when handed in, even when overdue; otherwise "late" exactly when overdue and "pending" exactly when not |
| StudentAssignments.CanSubmitIffPending | src/screens/student/AssignmentsScreen.js:55-57 | the submit button is offered exactly on the cards that read "pending" |
| StudentAssignments.CanSubmit | src/screens/student/AssignmentsScreen.js:57 | the submit button is offered when the assignment is not handed in and not overdue |
| StudentAssignments.CardPresentationKnown | src/screens/student/AssignmentsScreen.js:55-56 | every card status has a known label and colour |
| StudentAssignments.CardAgreesWithHelper | src/screens/student/AssignmentsScreen.js:55 | before a hand-in the card agrees with `getAssignmentStatus` for an assignment without a submission |
| StudentAssignments.SubmitWindowCloses | src/screens/student/AssignmentsScreen.js:57 | once the button is withdrawn it stays withdrawn as time moves on |
| AppNavigator.Screens | src/navigation/AppNavigator.js:15-43 | outside a session only Login; in a session one Main screen bound to the role's navigator, and nothing for any other role, null included |
| AppNavigator.NavigatorRoundTrip | src/navigation/AppNavigator.js:22-30 | each role's navigator serves that role and no other |
| AppNavigator.MainMeansRole | src/navigation/AppNavigator.js:20-31 | a Main screen is registered only in a session, and its navigator is the stored role's |
| AppNavigator.LogoutShowsLogin | src/navigation/AppNavigator.js:16-40 | after logout only the login screen is left |
| AppNavigator.DemoSignInShowsRoleNavigator | src/navigation/AppNavigator.js:16-40 | after a demo account signs in through the corrected handler, its role's navigator is the one screen |
| AppNavigator.WrittenSignInShowsLogin | src/navigation/AppNavigator.js:16-40 | after a sign-in through the handler as written, the login screen stays |
| Responsive.UseResponsive | mainapp.js:22-40 | exactly one of small, medium and large holds; tablet means large |
| Responsive.ModalWidthByWindow | mainapp.js:138 | the create modal is 95% wide below 375, 85% up to 768, and 60% from 768 |
| Responsive.RotationFlipsLandscape | mainapp.js:29 | rotating a window that is not square swaps portrait and landscape |

## Left out

- Strings are sequences of code points, not UTF-16 units. So `length`, `truncateText` and the title limits count an astral character once rather than twice.
- Case mapping in `capitalizeFirst` covers ASCII letters only. Other letters are left as they are.
- Numbers are exact rationals, not binary floating point. `NaN` is `None`. The text "Infinity" reads as NaN rather than as the infinite number.
- Strict equality on objects compares contents; object identity is not modelled. The application compares only ids and strings with `===`.
- A slice payload that is not a list, such as `undefined` from a failed service response, is not modelled. Slice collections are lists of records.
- Date parsing, `toISOString`, `Date.now()`, the current instant, and number-to-text conversion are parameters. Dates are whole milliseconds, and a missing or unparseable date is `None`.
- `registerUser`, the OAuth/Discord sign-in, the API services, storage, `calculateAverageGrade`, `formatDate`, `getTimeAgo`, `generateId` and `debounce` are not part of this model. They are I/O or time formatting, or they sit outside the modelled screens.
- The modal and dialog visibility flags of mainapp.js and the `Alert` pop-ups are not modelled, except where a refusal's message is part of the result.
- AssignmentForm.NumberCast: follows the number cast of Yup 0.32 and 1.x, where white space is removed and an empty string is NaN. Other Yup versions differ.
- AssignmentForm.TitleValid and AssignmentForm.DescriptionValid treat a non-string value as invalid, where Yup would first convert it to a string.
- SubmissionForm.PickAppend: the picker's answer is reduced to its `type` and an `output` list. A picker that throws is caught and alerted, which leaves the list as a failed pick does, so it is not a separate case.
- AssignmentForm.ParseIntValue: a number that JavaScript writes with an exponent (magnitude below 10^-6 or from 10^21) reads as NaN here; `parseInt` of its exponent text is not modelled.
- AssignmentForm.SubmitAsWritten: `onSubmit` and `resetForm` are not modelled; the result is the payload handed to `onSubmit`, and a rejection from it, which the same catch would alert, is not a case here.
- AssignmentForm.SubmitAsWritten: the handler's `new Date` and Yup's date cast are separate parameters, so the model does not assume they read a date the same way.
- Js.Spread: spreading a string, which gives its indexed characters, is not modelled; the application spreads objects only.
- GradeScreen.OpenGradeModal: a feedback value that is truthy but not a string is shown as ''. The source would show the value itself.
- GradeScreen.HandleGradeSubmission: the call to the grading service is not modelled. It is awaited without its answer being read, so the local update always follows the check.
- GradeScreen.HandleGradeSubmission: the route parameter `assignment` is assumed present. Reading `maxPoints` from a missing assignment would throw.
- TeacherDashboard.LoadDashboardData: the counters are numbers or missing. A counter held as a string would make `+=` concatenate text. `calculateAverageGrade` is a parameter. A `null` entry in the list, on which reading `stats` would throw, is not modelled.
- LocalStore.NumericGrade: the source also requires a truthy grade. That condition is implied, because an empty grade has no slash.
- DemoLogin.LookupAsWritten: an inherited member such as `constructor` is a function in JavaScript. It is modelled as an object with no fields.

## Findings

| source | as written | input that shows it | evidently intended | confidence | as-written member | corrected member |
|---|---|---|---|---|---|---|
| mainapp.js:1090 | `loginSuccess` is dispatched with the bare user object. The reducer reads `payload.user.role` (src/store/slices/authSlice.js:22-24) and throws. The catch then dispatches `loginFailure` with the exception's message. | e-mail `profesor@demo.com`, password `123456` | the payload is `{user}`, and the demo account signs in with its role | not executed | DemoLogin.DemoAccountCannotSignIn | DemoLogin.DemoAccountSignsIn |
| mainapp.js:71-73 | `demoUsers[email]` also finds the members every object inherits, so the truthiness test lets them through | e-mail `constructor`, password `123456` | only the three demo accounts are looked up | not executed | DemoLogin.InheritedNameLogsIn | DemoLogin.LoginUser |
| src/components/forms/AssignmentForm.js:52 | the schema (lines 20-23) casts `maxPoints` with `Number`, but the handler sends `parseInt(maxPoints, 10)` | `maxPoints` = `"0x10"`: the schema reads 16 and accepts it; 0 is sent | the points the schema checked are sent | not executed | AssignmentForm.HexMaxPointsSendsZero | AssignmentForm.Submit |

=== FILE: app_navigator.dfy ===
/**
  The root navigator (src/navigation/AppNavigator.js): which screens are
  registered for the session's `isAuthenticated` flag and role.
 */
module AppNavigator {
  import opened Wrappers
  import opened Js
  import opened Constants
  import opened AuthSlice
  import opened DemoLogin

  datatype Navigator = StudentNavigator | TeacherNavigator | DirectorNavigator

  datatype Screen = Login | Main(navigator: Navigator)

  /** The navigator each role is bound to. */
  function NavigatorFor(role: Role): Navigator {
    match role
    case Student => StudentNavigator
    case Teacher => TeacherNavigator
    case Director => DirectorNavigator
  }

  /** The role whose navigator this is. */
  function RoleServed(n: Navigator): Role {
    match n
    case StudentNavigator => Student
    case TeacherNavigator => Teacher
    case DirectorNavigator => Director
  }

  /** The screens registered: one guarded `Main` per role inside an open session,
      `Login` outside one. A session whose role is none of the three registers nothing. */
  function Screens(isAuthenticated: bool, role: Value): (r: seq<Screen>)
    ensures !isAuthenticated ==> r == [Login]
    ensures isAuthenticated && RoleOf(role).None? ==> r == []
    ensures isAuthenticated && RoleOf(role).Some? ==> r == [Main(NavigatorFor(RoleOf(role).value))]
  {
    if isAuthenticated then
      (if role == Str("student") then [Main(StudentNavigator)] else []) +
      (if role == Str("teacher") then [Main(TeacherNavigator)] else []) +
      (if role == Str("director") then [Main(DirectorNavigator)] else [])
    else [Login]
  }

  /** Each role's navigator serves that role and no other. */
  lemma NavigatorRoundTrip(role: Role, n: Navigator)
    ensures RoleServed(NavigatorFor(role)) == role
    ensures NavigatorFor(RoleServed(n)) == n
  {
  }

  /** A `Main` screen is registered only in an open session, and its navigator is the
      one of the stored role. */
  lemma MainMeansRole(isAuthenticated: bool, role: Value, n: Navigator)
    requires Main(n) in Screens(isAuthenticated, role)
    ensures isAuthenticated
    ensures role == Str(RoleName(RoleServed(n)))
  {
  }

  /** The screens for an auth state. */
  function ScreensOf(s: AuthState): seq<Screen> {
    Screens(s.isAuthenticated, s.role)
  }

  /** After `logout` only the login screen is left, whatever came before. */
  lemma LogoutShowsLogin(s: AuthState)
    ensures ScreensOf(Logout(s)) == [Login]
  {
  }

  /** After a demo account signs in through the corrected handler, its role's
      navigator is the one screen registered. */
  lemma DemoSignInShowsRoleNavigator(s: AuthState, email: string)
    requires email in DemoUsers
    ensures DemoRole(email).Some?
    ensures ScreensOf(HandleLogin(s, email, DemoPassword)) == [Main(NavigatorFor(DemoRole(email).value))]
  {
    DemoAccountSignsIn(s, email);
  }

  /** A sign-in through the handler as written leaves the login screen in place. */
  lemma WrittenSignInShowsLogin(s: AuthState, thrownMessage: string)
    ensures ScreensOf(HandleLoginAsWritten(s, "profesor@demo.com", DemoPassword, thrownMessage)) == [Login]
  {
    DemoAccountCannotSignIn(s, thrownMessage);
  }
}

=== FILE: assignment_form.dfy ===
/**
  The assignment form (src/components/forms/AssignmentForm.js): its starting
  values, the Yup schema Formik checks before submitting, and the payload the
  submit handler hands on. Form values are a plain record, as Formik keeps them.
  Reading a date and writing it back as ISO text are parameters of the model; the
  schema's date cast and the handler's `new Date` are two separate readers.
 */
module AssignmentForm {
  import opened Wrappers
  import opened Js
  import opened JsNumber

  // ----- starting values -----

  /** The values the form starts from when none are given. */
  const Defaults: Record := map[
    "title" := Str(""), "description" := Str(""), "instructions" := Str(""),
    "dueDate" := Str(""), "maxPoints" := Str("10")]

  /** `{...defaults, ...initialValues}`: the given values win, the defaults fill the rest. */
  function StartingValues(initialValues: Value): (v: Record)
    ensures forall k :: k in Spread(initialValues) ==> k in v && v[k] == Spread(initialValues)[k]
    ensures forall k :: k in Defaults && k !in Spread(initialValues) ==> k in v && v[k] == Defaults[k]
    ensures forall k :: k in v ==> k in Defaults || k in Spread(initialValues)
  {
    Defaults + Spread(initialValues)
  }

  // ----- the schema -----

  /** Formik hands every empty string to the schema as `undefined`. */
  predicate Absent(v: Value) {
    Nullish(v) || v == Str("")
  }

  /** `s.replace(/\s/g, '')` */
  function StripSpaces(s: string): (r: string)
    ensures |r| <= |s|
    ensures NoSpaceIn(r)
    ensures NoSpaceIn(s) ==> r == s
  {
    if s == [] then []
    else (if IsSpace(s[0]) then [] else [s[0]]) + StripSpaces(s[1..])
  }

  predicate NoSpaceIn(s: string) {
    forall k :: 0 <= k < |s| ==> !IsSpace(s[k])
  }

  /** Yup's number cast: a string loses all its white space and is then read with
      `Number`, an empty remainder being NaN; a number stays as it is; anything else is
      read with `parseFloat`, which gives NaN for booleans and objects. NaN is `None`. */
  function NumberCast(v: Value): (r: Option<real>)
    ensures v.Num? ==> r == Some(v.n)
    ensures v.Str? && StripSpaces(v.s) == "" ==> r.None?
    ensures v.Str? && StripSpaces(v.s) != "" ==> r == StringToNumber(StripSpaces(v.s))
    ensures !v.Num? && !v.Str? ==> r.None?
  {
    match v
    case Num(n) => Some(n)
    case Str(s) =>
      var t := StripSpaces(s);
      if t == "" then None else StringToNumber(t)
    case _ => None
  }

  /** `title`: a string of 5 to 200 characters. */
  predicate TitleValid(v: Value) {
    v.Str? && 5 <= |v.s| <= 200
  }

  /** `description`: a string of at least 10 characters. */
  predicate DescriptionValid(v: Value) {
    v.Str? && |v.s| >= 10
  }

  /** `dueDate`: present, a date, and not before `loadedAt`, the instant the schema was
      built (when the module was loaded). */
  predicate DueDateValid(v: Value, readDate: Value -> Option<int>, loadedAt: int) {
    !Absent(v) && readDate(v).Some? && readDate(v).value >= loadedAt
  }

  /** `maxPoints`: present, a number, and between 1 and 100 inclusive. */
  predicate MaxPointsValid(v: Value) {
    !Absent(v) && NumberCast(v).Some? && 1.0 <= NumberCast(v).value <= 100.0
  }

  /** The whole schema. `instructions` has no rule. */
  predicate SchemaValid(values: Record, readDate: Value -> Option<int>, loadedAt: int) {
    && TitleValid(Field(values, "title"))
    && DescriptionValid(Field(values, "description"))
    && DueDateValid(Field(values, "dueDate"), readDate, loadedAt)
    && MaxPointsValid(Field(values, "maxPoints"))
  }

  // ----- submitting -----

  /** What `handleSubmit` passes to `onSubmit`: the values as entered, except that the due
      date is rewritten as ISO text and `maxPoints` is replaced by `parseInt(maxPoints, 10)`
      (`None` for NaN). */
  datatype Payload = Payload(rest: Record, dueDate: string, maxPoints: Option<int>)

  /** How pressing the submit button ends: the schema refuses the values; the handler
      throws before `onSubmit` is called (`toISOString` of an invalid date) and shows its
      alert; or the payload is handed to `onSubmit`. */
  datatype Outcome<P> = Refused | Alerted | Sent(payload: P)

  /** Whether `k` is `x` with its fraction dropped, rounding toward zero. */
  predicate TruncatesTo(x: real, k: int) {
    if x >= 0.0 then k as real <= x < k as real + 1.0 else k as real - 1.0 < x <= k as real
  }

  /** Whether JavaScript writes the number in plain decimal notation rather than with an
      exponent: zero, or a magnitude from 10^-6 up to but not including 10^21. */
  predicate DecimalNotation(x: real) {
    var m := if x < 0.0 then -x else x;
    x == 0.0 || (1.0 / 1000000.0 <= m < 1000000000000000000000.0)
  }

  /** `parseInt(v, 10)` on a form value: a string is read as text; a number is first written
      as text, so one in decimal notation loses its fraction; anything else is NaN. */
  function ParseIntValue(v: Value): (r: Option<int>)
    ensures v.Str? ==> r == ParseInt(v.s)
    ensures v.Num? && DecimalNotation(v.n) ==> r.Some? && TruncatesTo(v.n, r.value)
    ensures !v.Num? && !v.Str? ==> r.None?
  {
    match v
    case Str(s) => ParseInt(s)
    case Num(n) =>
      if !DecimalNotation(n) then None
      else if n >= 0.0 then Some(n.Floor)
      else Some(-((-n).Floor))
    case _ => None
  }

  /** Formik's submit followed by the handler as written: refused when the schema refuses;
      the alert when `new Date(dueDate)` is not a date; otherwise the payload, whose due date
      is the handler's own reading and whose points are `parseInt`'s. */
  function SubmitAsWritten(values: Record, readDate: Value -> Option<int>, newDate: Value -> Option<int>,
                           iso: int -> string, loadedAt: int): (r: Outcome<Payload>)
    ensures r.Refused? <==> !SchemaValid(values, readDate, loadedAt)
    ensures r.Alerted? <==> SchemaValid(values, readDate, loadedAt) && newDate(Field(values, "dueDate")).None?
    ensures r.Sent? ==>
      && r.payload.rest == values - {"dueDate", "maxPoints"}
      && r.payload.dueDate == iso(newDate(Field(values, "dueDate")).value)
      && r.payload.maxPoints == ParseIntValue(Field(values, "maxPoints"))
  {
    if !SchemaValid(values, readDate, loadedAt) then Refused
    else match newDate(Field(values, "dueDate"))
      case None => Alerted
      case Some(due) => Sent(Payload(values - {"dueDate", "maxPoints"}, iso(due), ParseIntValue(Field(values, "maxPoints"))))
  }

  /** What the handler evidently means to send: the number the schema checked. */
  datatype CheckedPayload = CheckedPayload(rest: Record, dueDate: string, maxPoints: real)

  function Submit(values: Record, readDate: Value -> Option<int>, newDate: Value -> Option<int>,
                  iso: int -> string, loadedAt: int): (r: Outcome<CheckedPayload>)
    ensures r.Refused? <==> !SchemaValid(values, readDate, loadedAt)
    ensures r.Alerted? <==> SchemaValid(values, readDate, loadedAt) && newDate(Field(values, "dueDate")).None?
    ensures r.Sent? ==> r.payload.rest == values - {"dueDate", "maxPoints"}
    ensures r.Sent? ==> r.payload.dueDate == iso(newDate(Field(values, "dueDate")).value)
    ensures r.Sent? ==> 1.0 <= r.payload.maxPoints <= 100.0
    ensures r.Sent? ==> Some(r.payload.maxPoints) == NumberCast(Field(values, "maxPoints"))
  {
    if !SchemaValid(values, readDate, loadedAt) then Refused
    else match newDate(Field(values, "dueDate"))
      case None => Alerted
      case Some(due) => Sent(CheckedPayload(values - {"dueDate", "maxPoints"}, iso(due), NumberCast(Field(values, "maxPoints")).value))
  }

  // ----- properties -----

  /** `instructions` never decides whether the form may be sent. */
  lemma InstructionsUnchecked(values: Record, v: Value, readDate: Value -> Option<int>, loadedAt: int)
    ensures SchemaValid(values["instructions" := v], readDate, loadedAt) == SchemaValid(values, readDate, loadedAt)
  {
    var w := values["instructions" := v];
    assert Field(w, "title") == Field(values, "title");
    assert Field(w, "description") == Field(values, "description");
    assert Field(w, "dueDate") == Field(values, "dueDate");
    assert Field(w, "maxPoints") == Field(values, "maxPoints");
  }

  /** The empty form is refused: its title is blank. */
  lemma DefaultsRefused(readDate: Value -> Option<int>, newDate: Value -> Option<int>, iso: int -> string, loadedAt: int)
    ensures SubmitAsWritten(StartingValues(Undefined), readDate, newDate, iso, loadedAt).Refused?
  {
    assert StartingValues(Undefined) == Defaults;
    assert Field(Defaults, "title") == Str("");
  }

  /** When the handler reads the due date as the schema did, the date sent is one the schema
      checked: not before the instant the schema was built. */
  lemma SentDateWasChecked(values: Record, readDate: Value -> Option<int>, newDate: Value -> Option<int>,
                           iso: int -> string, loadedAt: int)
    requires newDate(Field(values, "dueDate")) == readDate(Field(values, "dueDate"))
    requires SubmitAsWritten(values, readDate, newDate, iso, loadedAt).Sent?
    ensures exists t :: t >= loadedAt && SubmitAsWritten(values, readDate, newDate, iso, loadedAt).payload.dueDate == iso(t)
  {
    var t := readDate(Field(values, "dueDate")).value;
    assert t >= loadedAt;
  }

  /** The due date may be the very instant the schema was built; one unit earlier it may not. */
  lemma DueDateBoundary(v: Value, readDate: Value -> Option<int>, loadedAt: int)
    requires !Absent(v) && readDate(v) == Some(loadedAt)
    ensures DueDateValid(v, readDate, loadedAt)
    ensures !DueDateValid(v, readDate, loadedAt + 1)
  {
  }

  /** The text of a whole number holds no white space. */
  lemma IntTextHasNoSpace(n: int)
    ensures NoSpaceIn(IntText(n))
  {
    var m: nat := if n < 0 then -n else n;
    NatTextDigits(m);
    var t := NatText(m);
    forall k | 0 <= k < |t| ensures !IsSpace(t[k]) {
      DigitIsPlain(t[k]);
    }
    if n < 0 {
      var u := "-" + t;
      assert u == IntText(n);
      forall k | 0 <= k < |u| ensures !IsSpace(u[k]) {
        if k > 0 { assert u[k] == t[k - 1]; }
      }
    }
  }

  /** Text without white space is read by the schema exactly as `Number` reads it. */
  lemma NumberCastOfText(t: string, x: real)
    requires t != "" && NoSpaceIn(t) && StringToNumber(t) == Some(x)
    ensures NumberCast(Str(t)) == Some(x)
  {
  }

  /** The schema reads a string as the text left once every white space character is gone. */
  lemma NumberCastIgnoresSpaces(s: string)
    ensures NumberCast(Str(s)) == NumberCast(Str(StripSpaces(s)))
  {
  }

  /** So `" 1 0 "` is ten to the schema. */
  lemma SpacedTen()
    ensures NumberCast(Str(" 1 0 ")) == Some(10.0)
  {
    assert IsSpace(' ') && !IsSpace('1') && !IsSpace('0');
    assert StripSpaces(" 1 0 ") == "10";
    NumberCastIgnoresSpaces(" 1 0 ");
    TenText();
    NumberCastOfIntText(10);
  }

  /** A number of points with a fraction passes the schema as it is, and `parseInt` sends
      it with the fraction dropped. */
  lemma FractionalPointsTruncated(x: real)
    requires 1.0 <= x <= 100.0
    ensures MaxPointsValid(Num(x))
    ensures ParseIntValue(Num(x)) == Some(x.Floor) && 1 <= x.Floor <= 100
  {
  }

  /** The schema reads the text of a whole number as that number. */
  lemma NumberCastOfIntText(n: int)
    ensures NumberCast(Str(IntText(n))) == Some(n as real)
  {
    var t := IntText(n);
    IntTextHasNoSpace(n);
    assert t != "" by {
      if n >= 0 { NatTextEnds(n); } else { assert t[0] == '-'; }
    }
    StringToNumberRoundTrip(n);
    NumberCastOfText(t, n as real);
  }

  /** `maxPoints` typed as a whole number from 1 to 100 passes the schema as that number. */
  lemma WholeMaxPointsValid(n: int)
    requires 1 <= n <= 100
    ensures MaxPointsValid(Str(IntText(n))) && NumberCast(Str(IntText(n))) == Some(n as real)
  {
    var t := IntText(n);
    NumberCastOfIntText(n);
    assert t != "" by { NatTextEnds(n); }
    assert !Absent(Str(t));
  }

  /** ... and reaches the payload as that number. */
  lemma WholeMaxPointsParsed(n: int)
    ensures ParseIntValue(Str(IntText(n))) == Some(n)
  {
    ParseIntRoundTrip(n);
  }

  /** The default `"10"` is a valid number of points. */
  lemma DefaultMaxPointsValid()
    ensures MaxPointsValid(Defaults["maxPoints"])
  {
    TenText();
    WholeMaxPointsValid(10);
  }

  // ----- the hexadecimal points -----

  lemma HexValue()
    ensures AllDigitsIn("10", 16) && ValueIn("10", 16) == 16
  {
    assert "10"[..1] == "1";
    assert "1"[..0] == "";
  }

  /** `Number("0x10")` is sixteen. */
  lemma HexNumber(t: string)
    requires t == "0x10"
    ensures t != "" && NoSpaceIn(t) && StringToNumber(t) == Some(16.0)
  {
    assert NoSpaceIn(t) by {
      forall k | 0 <= k < |t| ensures !IsSpace(t[k]) {
      }
    }
    TrimNoop(t);
    assert t[2..] == "10";
    HexValue();
    assert NonDecimalLiteral(t) == Some(16.0);
  }

  /** `parseInt("0x10", 10)` reads only the leading `0`. */
  lemma HexParseInt(t: string)
    requires t == "0x10"
    ensures ParseInt(t) == Some(0)
  {
    assert TrimStart(t) == t;
    assert SplitSign(t) == (1.0, t);
    assert LeadingDigits(t) == "0" by {
      assert LeadingDigits(t[1..]) == [];
    }
    assert "0"[..0] == "";
  }

  /** `"0x10"` is sixteen to the schema ... */
  lemma HexMaxPointsValid(t: string)
    requires t == "0x10"
    ensures MaxPointsValid(Str(t)) && NumberCast(Str(t)) == Some(16.0)
  {
    HexNumber(t);
    NumberCastOfText(t, 16.0);
  }

  /** ... and zero to `parseInt(…, 10)`. */
  lemma HexMaxPointsParsed()
    ensures ParseIntValue(Str("0x10")) == Some(0)
  {
    HexParseInt("0x10");
  }

  /** With `maxPoints` `"0x10"` and the other fields valid, the form is accepted and
      sends 0 points, a value the schema itself would have refused; the checked handler
      sends the 16 it validated. */
  lemma HexMaxPointsSendsZero(values: Record, readDate: Value -> Option<int>, newDate: Value -> Option<int>,
                               iso: int -> string, loadedAt: int)
    requires Field(values, "maxPoints") == Str("0x10")
    requires TitleValid(Field(values, "title")) && DescriptionValid(Field(values, "description"))
    requires DueDateValid(Field(values, "dueDate"), readDate, loadedAt)
    requires newDate(Field(values, "dueDate")).Some?
    ensures SubmitAsWritten(values, readDate, newDate, iso, loadedAt).Sent?
    ensures SubmitAsWritten(values, readDate, newDate, iso, loadedAt).payload.maxPoints == Some(0)
    ensures Submit(values, readDate, newDate, iso, loadedAt).Sent?
    ensures Submit(values, readDate, newDate, iso, loadedAt).payload.maxPoints == 16.0
  {
    HexMaxPointsValid("0x10");
    HexMaxPointsParsed();
  }
}

=== FILE: assignment_slice.dfy ===
/**
  The `assignments` slice (src/store/slices/assignmentSlice.js): the student's
  assignments, the teacher's assignments and the submissions, changed by
  append, replace-first-by-`_id`, filter-by-`_id` and reset.
 */
module AssignmentSlice {
  import opened Wrappers
  import opened Js
  import opened IdLists

  datatype AssignmentsState = AssignmentsState(
    assignments: seq<Record>,
    currentAssignment: Value,
    submissions: seq<Record>,
    teacherAssignments: seq<Record>,
    loading: bool,
    error: Value)

  const Initial := AssignmentsState([], Null, [], [], false, Null)

  const IdKey := "_id"

  /** Every action the slice handles, with its payload. */
  datatype Action =
    | FetchAssignmentsStart | FetchAssignmentsSuccess(list: seq<Record>) | FetchAssignmentsFailure(err: Value)
    | FetchTeacherAssignmentsStart | FetchTeacherAssignmentsSuccess(list: seq<Record>) | FetchTeacherAssignmentsFailure(err: Value)
    | CreateAssignmentStart | CreateAssignmentSuccess(item: Record) | CreateAssignmentFailure(err: Value)
    | UpdateAssignmentStart | UpdateAssignmentSuccess(item: Record) | UpdateAssignmentFailure(err: Value)
    | DeleteAssignmentStart | DeleteAssignmentSuccess(id: Value) | DeleteAssignmentFailure(err: Value)
    | SetCurrentAssignment(current: Value) | ClearCurrentAssignment
    | FetchSubmissionsStart | FetchSubmissionsSuccess(list: seq<Record>) | FetchSubmissionsFailure(err: Value)
    | SubmitAssignmentStart | SubmitAssignmentSuccess(item: Record) | SubmitAssignmentFailure(err: Value)
    | GradeSubmissionStart | GradeSubmissionSuccess(item: Record) | GradeSubmissionFailure(err: Value)
    | ClearError
    | ResetAssignments
  {
    predicate IsStart() {
      FetchAssignmentsStart? || FetchTeacherAssignmentsStart? || CreateAssignmentStart? || UpdateAssignmentStart? ||
      DeleteAssignmentStart? || FetchSubmissionsStart? || SubmitAssignmentStart? || GradeSubmissionStart?
    }

    predicate IsFailure() {
      FetchAssignmentsFailure? || FetchTeacherAssignmentsFailure? || CreateAssignmentFailure? || UpdateAssignmentFailure? ||
      DeleteAssignmentFailure? || FetchSubmissionsFailure? || SubmitAssignmentFailure? || GradeSubmissionFailure?
    }
  }

  /** The three collections and the current assignment are untouched. */
  predicate SameCollections(a: AssignmentsState, b: AssignmentsState) {
    a.assignments == b.assignments && a.submissions == b.submissions &&
    a.teacherAssignments == b.teacherAssignments && a.currentAssignment == b.currentAssignment
  }

  /** The body shared by every `*Start` reducer. */
  function Begin(s: AssignmentsState): AssignmentsState {
    s.(loading := true, error := Null)
  }

  /** The body shared by every `*Failure` reducer. */
  function Fail(s: AssignmentsState, err: Value): AssignmentsState {
    s.(loading := false, error := err)
  }

  /** `createAssignmentSuccess`: appends to the teacher's assignments. */
  function CreateSuccess(s: AssignmentsState, item: Record): (r: AssignmentsState)
    ensures |r.teacherAssignments| == |s.teacherAssignments| + 1
    ensures r.teacherAssignments[..|s.teacherAssignments|] == s.teacherAssignments
    ensures r.teacherAssignments[|s.teacherAssignments|] == item
    ensures r.assignments == s.assignments && r.submissions == s.submissions && r.currentAssignment == s.currentAssignment
    ensures !r.loading && r.error == Null
  {
    s.(loading := false, teacherAssignments := s.teacherAssignments + [item], error := Null)
  }

  /** `updateAssignmentSuccess`: the first teacher assignment with the payload's `_id`
      becomes the payload. */
  function UpdateSuccess(s: AssignmentsState, item: Record): (r: AssignmentsState)
    ensures |r.teacherAssignments| == |s.teacherAssignments|
    ensures FindIndex(s.teacherAssignments, IdKey, Field(item, IdKey)) >= 0 ==>
      r.teacherAssignments == s.teacherAssignments[FindIndex(s.teacherAssignments, IdKey, Field(item, IdKey)) := item]
    ensures (forall j :: 0 <= j < |s.teacherAssignments| ==> !Matches(s.teacherAssignments[j], IdKey, Field(item, IdKey))) ==>
      r.teacherAssignments == s.teacherAssignments
    ensures r.assignments == s.assignments && r.submissions == s.submissions && r.currentAssignment == s.currentAssignment
    ensures !r.loading && r.error == Null
  {
    s.(loading := false, teacherAssignments := ReplaceFirst(s.teacherAssignments, IdKey, Field(item, IdKey), item), error := Null)
  }

  /** `deleteAssignmentSuccess`: drops every teacher assignment whose `_id` is the payload. */
  function DeleteSuccess(s: AssignmentsState, id: Value): (r: AssignmentsState)
    ensures forall x :: x in r.teacherAssignments <==> x in s.teacherAssignments && Field(x, IdKey) != id
    ensures r.assignments == s.assignments && r.submissions == s.submissions && r.currentAssignment == s.currentAssignment
    ensures !r.loading && r.error == Null
  {
    s.(loading := false, teacherAssignments := RemoveAll(s.teacherAssignments, IdKey, id), error := Null)
  }

  /** The student's view of an assignment once a submission for it is stored. */
  function MarkSubmitted(a: Record, submission: Record): (r: Record)
    ensures Field(r, "submitted") == Bool(true) && Field(r, "submission") == Obj(submission)
    ensures forall k :: k in a && k != "submitted" && k != "submission" ==> k in r && r[k] == a[k]
  {
    a["submitted" := Bool(true)]["submission" := Obj(submission)]
  }

  /** `submitAssignmentSuccess`: appends the submission and marks the first assignment
      whose `_id` equals the submission's `assignment` as submitted. */
  function SubmitSuccess(s: AssignmentsState, item: Record): (r: AssignmentsState)
    ensures r.submissions == s.submissions + [item]
    ensures |r.assignments| == |s.assignments|
    ensures var i := FindIndex(s.assignments, IdKey, Field(item, "assignment"));
      if i == -1 then r.assignments == s.assignments
      else r.assignments == s.assignments[i := MarkSubmitted(s.assignments[i], item)]
    ensures r.teacherAssignments == s.teacherAssignments && r.currentAssignment == s.currentAssignment
    ensures !r.loading && r.error == Null
  {
    var i := FindIndex(s.assignments, IdKey, Field(item, "assignment"));
    var assignments := if i == -1 then s.assignments else s.assignments[i := MarkSubmitted(s.assignments[i], item)];
    s.(loading := false, submissions := s.submissions + [item], assignments := assignments, error := Null)
  }

  /** `gradeSubmissionSuccess`: the first submission with the payload's `_id` becomes the payload. */
  function GradeSuccess(s: AssignmentsState, item: Record): (r: AssignmentsState)
    ensures |r.submissions| == |s.submissions|
    ensures FindIndex(s.submissions, IdKey, Field(item, IdKey)) >= 0 ==>
      r.submissions == s.submissions[FindIndex(s.submissions, IdKey, Field(item, IdKey)) := item]
    ensures (forall j :: 0 <= j < |s.submissions| ==> !Matches(s.submissions[j], IdKey, Field(item, IdKey))) ==>
      r.submissions == s.submissions
    ensures r.assignments == s.assignments && r.teacherAssignments == s.teacherAssignments
    ensures r.currentAssignment == s.currentAssignment
    ensures !r.loading && r.error == Null
  {
    s.(loading := false, submissions := ReplaceFirst(s.submissions, IdKey, Field(item, IdKey), item), error := Null)
  }

  /** The slice's reducer. Only the three actions about it move the current assignment. */
  function Reduce(s: AssignmentsState, a: Action): (r: AssignmentsState)
    ensures !a.SetCurrentAssignment? && !a.ClearCurrentAssignment? && !a.ResetAssignments? ==>
      r.currentAssignment == s.currentAssignment
    ensures a.ResetAssignments? ==> r == Initial
  {
    match a
    case FetchAssignmentsStart => Begin(s)
    case FetchAssignmentsSuccess(list) => s.(loading := false, assignments := list, error := Null)
    case FetchAssignmentsFailure(err) => Fail(s, err)
    case FetchTeacherAssignmentsStart => Begin(s)
    case FetchTeacherAssignmentsSuccess(list) => s.(loading := false, teacherAssignments := list, error := Null)
    case FetchTeacherAssignmentsFailure(err) => Fail(s, err)
    case CreateAssignmentStart => Begin(s)
    case CreateAssignmentSuccess(item) => CreateSuccess(s, item)
    case CreateAssignmentFailure(err) => Fail(s, err)
    case UpdateAssignmentStart => Begin(s)
    case UpdateAssignmentSuccess(item) => UpdateSuccess(s, item)
    case UpdateAssignmentFailure(err) => Fail(s, err)
    case DeleteAssignmentStart => Begin(s)
    case DeleteAssignmentSuccess(id) => DeleteSuccess(s, id)
    case DeleteAssignmentFailure(err) => Fail(s, err)
    case SetCurrentAssignment(current) => s.(currentAssignment := current)
    case ClearCurrentAssignment => s.(currentAssignment := Null)
    case FetchSubmissionsStart => Begin(s)
    case FetchSubmissionsSuccess(list) => s.(loading := false, submissions := list, error := Null)
    case FetchSubmissionsFailure(err) => Fail(s, err)
    case SubmitAssignmentStart => Begin(s)
    case SubmitAssignmentSuccess(item) => SubmitSuccess(s, item)
    case SubmitAssignmentFailure(err) => Fail(s, err)
    case GradeSubmissionStart => Begin(s)
    case GradeSubmissionSuccess(item) => GradeSuccess(s, item)
    case GradeSubmissionFailure(err) => Fail(s, err)
    case ClearError => s.(error := Null)
    case ResetAssignments =>
      s.(assignments := [], submissions := [], teacherAssignments := [], currentAssignment := Null, loading := false, error := Null)
  }

  /** Every `*Start` reducer raises the loading flag, clears the error and touches no collection. */
  lemma StartReducers(s: AssignmentsState, a: Action)
    requires a.IsStart()
    ensures Reduce(s, a).loading && Reduce(s, a).error == Null
    ensures SameCollections(Reduce(s, a), s)
  {
  }

  /** Every `*Failure` reducer lowers the loading flag, records the payload and touches no collection. */
  lemma FailureReducers(s: AssignmentsState, a: Action)
    requires a.IsFailure()
    ensures !Reduce(s, a).loading && Reduce(s, a).error == a.err
    ensures SameCollections(Reduce(s, a), s)
  {
  }

  /** Both assignment fetch successes replace their own list, clears loading and the error, and leaves
      the other lists and the current assignment alone; fetching the same list again
      changes nothing more. */
  lemma FetchSuccessesReplaceOwnList(s: AssignmentsState, list: seq<Record>)
    ensures Reduce(s, FetchAssignmentsSuccess(list)) == s.(loading := false, assignments := list, error := Null)
    ensures Reduce(s, FetchTeacherAssignmentsSuccess(list)) == s.(loading := false, teacherAssignments := list, error := Null)
    ensures var once := Reduce(s, FetchAssignmentsSuccess(list));
      Reduce(once, FetchAssignmentsSuccess(list)) == once
  {
  }

  /** `fetchSubmissionsSuccess` replaces the submissions, clears loading and the error,
      and leaves the assignment lists and the current assignment alone. */
  lemma FetchSubmissionsReplacesList(s: AssignmentsState, list: seq<Record>)
    ensures Reduce(s, FetchSubmissionsSuccess(list)) == s.(loading := false, submissions := list, error := Null)
  {
  }

  /** `setCurrentAssignment` stores the payload and nothing else, and clearing afterwards
      leaves only the null current assignment behind. */
  lemma SetThenClearCurrent(s: AssignmentsState, current: Value)
    ensures Reduce(s, SetCurrentAssignment(current)) == s.(currentAssignment := current)
    ensures Reduce(Reduce(s, SetCurrentAssignment(current)), ClearCurrentAssignment) == s.(currentAssignment := Null)
  {
  }

  /** `clearError` clears the error and nothing else. */
  lemma ClearErrorOnly(s: AssignmentsState)
    ensures Reduce(s, ClearError) == s.(error := Null)
  {
  }

  /** `resetAssignments` returns to the initial state from anywhere. */
  lemma ResetIsInitial(s: AssignmentsState)
    ensures Reduce(s, ResetAssignments) == Initial
  {
  }

  /** Deleting the same `_id` twice deletes nothing more, and the survivors keep their order. */
  lemma DeleteIdempotent(s: AssignmentsState, id: Value, front: seq<Record>, back: seq<Record>)
    requires s.teacherAssignments == front + back
    ensures DeleteSuccess(DeleteSuccess(s, id), id) == DeleteSuccess(s, id)
    ensures DeleteSuccess(s, id).teacherAssignments == RemoveAll(front, IdKey, id) + RemoveAll(back, IdKey, id)
  {
    RemoveAllIdempotent(s.teacherAssignments, IdKey, id);
    RemoveAllAppend(front, back, IdKey, id);
  }

  /** `updateAssignmentSuccess` replaces exactly the first element carrying the payload's `_id`. */
  lemma UpdateReplacesFirstMatch(s: AssignmentsState, item: Record, i: nat)
    requires i < |s.teacherAssignments| && Matches(s.teacherAssignments[i], IdKey, Field(item, IdKey))
    requires forall j :: 0 <= j < i ==> !Matches(s.teacherAssignments[j], IdKey, Field(item, IdKey))
    ensures UpdateSuccess(s, item).teacherAssignments == s.teacherAssignments[i := item]
  {
    FindIndexUnique(s.teacherAssignments, IdKey, Field(item, IdKey), i);
  }

  /** `gradeSubmissionSuccess` replaces exactly the first submission carrying the payload's `_id`. */
  lemma GradeReplacesFirstMatch(s: AssignmentsState, item: Record, i: nat)
    requires i < |s.submissions| && Matches(s.submissions[i], IdKey, Field(item, IdKey))
    requires forall j :: 0 <= j < i ==> !Matches(s.submissions[j], IdKey, Field(item, IdKey))
    ensures GradeSuccess(s, item).submissions == s.submissions[i := item]
  {
    FindIndexUnique(s.submissions, IdKey, Field(item, IdKey), i);
  }
}

=== FILE: auth_slice.dfy ===
/**
  The `auth` slice (src/store/slices/authSlice.js): the session record and its
  reducers. Each reducer is a function from the state and the action's payload
  to the next state. A reducer that throws leaves the store as it was: the
  draft is discarded and the exception reaches whoever dispatched.
 */
module AuthSlice {
  import opened Wrappers
  import opened Js

  datatype AuthState = AuthState(
    user: Value,
    token: Value,
    isAuthenticated: bool,
    role: Value,
    loading: Value,
    error: Value)

  const Initial := AuthState(Null, Null, false, Null, Bool(false), Null)

  /** What the navigator and screens rely on: a session is open exactly when a user
      is present, and an open session's role is its user's role. */
  predicate SessionConsistent(s: AuthState) {
    && (s.isAuthenticated <==> !Nullish(s.user))
    && (s.isAuthenticated ==> s.role == Prop(s.user, "role"))
  }

  /** `loginStart`: marks the request in flight and clears the last error. */
  function LoginStart(s: AuthState): (r: AuthState)
    ensures r.loading == Bool(true) && r.error == Null
    ensures r.user == s.user && r.token == s.token && r.isAuthenticated == s.isAuthenticated && r.role == s.role
  {
    s.(loading := Bool(true), error := Null)
  }

  /** `loginSuccess`: reads `payload.user`, `payload.token` and `payload.user.role`;
      a payload without a user makes the last read throw. */
  function LoginSuccess(s: AuthState, payload: Value): (r: Result<AuthState, Thrown>)
    ensures r.Failure? <==> Nullish(payload) || Nullish(Prop(payload, "user"))
    ensures r.Success? ==>
      && r.value.isAuthenticated
      && r.value.user == Prop(payload, "user")
      && r.value.token == Prop(payload, "token")
      && r.value.role == Prop(Prop(payload, "user"), "role")
      && r.value.loading == Bool(false)
      && r.value.error == Null
  {
    if Nullish(payload) then Failure(TypeError)
    else
      var user := Prop(payload, "user");
      if Nullish(user) then Failure(TypeError)
      else Success(AuthState(user, Prop(payload, "token"), true, Prop(user, "role"), Bool(false), Null))
  }

  /** `loginFailure`: closes any session and records the error. */
  function LoginFailure(s: AuthState, err: Value): (r: AuthState)
    ensures !r.isAuthenticated && r.user == Null && r.token == Null && r.role == Null
    ensures r.error == err && r.loading == Bool(false)
  {
    AuthState(Null, Null, false, Null, Bool(false), err)
  }

  /** `logout`: clears every field. */
  function Logout(s: AuthState): (r: AuthState)
    ensures r == Initial
  {
    s.(isAuthenticated := false, user := Null, token := Null, role := Null, error := Null, loading := Bool(false))
  }

  /** `updateProfile`: `user = {...user, ...payload}`. Spreading `null` copies nothing,
      so a closed session gains a user object. */
  function UpdateProfile(s: AuthState, payload: Value): (r: AuthState)
    ensures r.user.Obj?
    ensures forall k :: k in Spread(payload) ==> k in r.user.fields && r.user.fields[k] == Spread(payload)[k]
    ensures forall k :: k in Spread(s.user) && k !in Spread(payload) ==> k in r.user.fields && r.user.fields[k] == Spread(s.user)[k]
    ensures forall k :: k in r.user.fields ==> k in Spread(s.user) || k in Spread(payload)
    ensures r.token == s.token && r.isAuthenticated == s.isAuthenticated && r.role == s.role
    ensures r.loading == s.loading && r.error == s.error
  {
    s.(user := Obj(Spread(s.user) + Spread(payload)))
  }

  /** `clearError` */
  function ClearError(s: AuthState): (r: AuthState)
    ensures r.error == Null
    ensures r.user == s.user && r.token == s.token && r.isAuthenticated == s.isAuthenticated
    ensures r.role == s.role && r.loading == s.loading
  {
    s.(error := Null)
  }

  /** `setLoading`: stores the payload as it is. */
  function SetLoading(s: AuthState, payload: Value): (r: AuthState)
    ensures r.loading == payload
    ensures r.user == s.user && r.token == s.token && r.isAuthenticated == s.isAuthenticated
    ensures r.role == s.role && r.error == s.error
  {
    s.(loading := payload)
  }

  /** `refreshToken`: replaces the token only. */
  function RefreshToken(s: AuthState, payload: Value): (r: AuthState)
    ensures r.token == payload
    ensures r.user == s.user && r.isAuthenticated == s.isAuthenticated && r.role == s.role
    ensures r.loading == s.loading && r.error == s.error
  {
    s.(token := payload)
  }

  /** The store after dispatching an action whose reducer may throw: a reducer that
      throws commits nothing, so the store keeps the state it had. */
  function Committed(s: AuthState, r: Result<AuthState, Thrown>): (c: AuthState)
    ensures r.Failure? ==> c == s
    ensures r.Success? ==> c == r.value
  {
    if r.Success? then r.value else s
  }

  // ----- the session invariant -----

  lemma InitialConsistent()
    ensures SessionConsistent(Initial)
  {
  }

  /** Each of the session-lifecycle reducers leaves a consistent session, whatever came before. */
  lemma LifecycleEstablishesConsistency(s: AuthState, payload: Value, err: Value)
    ensures LoginSuccess(s, payload).Success? ==> SessionConsistent(LoginSuccess(s, payload).value)
    ensures SessionConsistent(LoginFailure(s, err))
    ensures SessionConsistent(Logout(s))
  {
  }

  /** The field-level reducers keep a consistent session consistent. */
  lemma FieldReducersPreserveConsistency(s: AuthState, v: Value)
    requires SessionConsistent(s)
    ensures SessionConsistent(LoginStart(s))
    ensures SessionConsistent(ClearError(s))
    ensures SessionConsistent(SetLoading(s, v))
    ensures SessionConsistent(RefreshToken(s, v))
  {
  }

  /** `updateProfile` is the one reducer that breaks the invariant: on a closed session it
      creates a user, and a payload carrying `role` leaves the stored role stale. */
  lemma UpdateProfileBreaksConsistency()
    ensures !SessionConsistent(UpdateProfile(Initial, Obj(map["name" := Str("Ana")])))
    ensures var open := AuthState(Obj(map["role" := Str("student")]), Null, true, Str("student"), Bool(false), Null);
      SessionConsistent(open) && !SessionConsistent(UpdateProfile(open, Obj(map["role" := Str("director")])))
  {
    var patched := UpdateProfile(Initial, Obj(map["name" := Str("Ana")]));
    assert !Nullish(patched.user);
    var open := AuthState(Obj(map["role" := Str("student")]), Null, true, Str("student"), Bool(false), Null);
    var promoted := UpdateProfile(open, Obj(map["role" := Str("director")]));
    assert Prop(promoted.user, "role") == Str("director");
  }

  /** Logging out twice is logging out once. */
  lemma LogoutIdempotent(s: AuthState)
    ensures Logout(Logout(s)) == Logout(s)
  {
  }

  /** A throwing `loginSuccess` changes nothing in the store. */
  lemma ThrowingLoginKeepsState(s: AuthState, payload: Value)
    requires Nullish(Prop(payload, "user"))
    ensures Committed(s, LoginSuccess(s, payload)) == s
  {
  }
}

=== FILE: constants.dfy ===
/** The closed enumerations of src/utils/constants.js: user roles and assignment statuses. */
module Constants {
  import opened Wrappers
  import opened Js

  datatype Role = Student | Teacher | Director

  /** The string the application stores for a role. */
  function RoleName(r: Role): string {
    match r
    case Student => "student"
    case Teacher => "teacher"
    case Director => "director"
  }

  /** The role a stored value names, if any: the value must be exactly one of the role strings. */
  function RoleOf(v: Value): (r: Option<Role>)
    ensures r.Some? ==> v == Str(RoleName(r.value))
    ensures r.None? ==> forall role: Role :: v != Str(RoleName(role))
  {
    if v == Str("student") then Some(Student)
    else if v == Str("teacher") then Some(Teacher)
    else if v == Str("director") then Some(Director)
    else None
  }

  lemma RoleRoundTrip(r: Role)
    ensures RoleOf(Str(RoleName(r))) == Some(r)
  {
  }

  datatype Status = Pending | Submitted | Graded | Late

  /** The string the application stores for a status. */
  function StatusName(st: Status): string {
    match st
    case Pending => "pending"
    case Submitted => "submitted"
    case Graded => "graded"
    case Late => "late"
  }

  /** The status a stored string names, if any. */
  function StatusOf(s: string): (r: Option<Status>)
    ensures r.Some? ==> s == StatusName(r.value)
    ensures r.None? ==> forall st: Status :: s != StatusName(st)
  {
    if s == "pending" then Some(Pending)
    else if s == "submitted" then Some(Submitted)
    else if s == "graded" then Some(Graded)
    else if s == "late" then Some(Late)
    else None
  }

  lemma StatusRoundTrip(st: Status)
    ensures StatusOf(StatusName(st)) == Some(st)
  {
  }

  /** The colour palette entries the status badges use. */
  const ColorPrimary := "#007AFF"
  const ColorSuccess := "#34C759"
  const ColorWarning := "#FF9500"
  const ColorDanger := "#FF3B30"
  const ColorLight := "#8E8E93"
}

=== FILE: demo_login.dfy ===
/**
  The demo credential check of mainapp.js (`AuthService.loginUser`) and the
  sign-in handler that feeds its answer to the `auth` slice (`handleAuth`, login
  branch). Two versions of each are kept side by side: the code as written, and
  the behaviour its authors evidently meant.
 */
module DemoLogin {
  import opened Wrappers
  import opened Js
  import opened Constants
  import opened AuthSlice

  /** The record a demo account resolves to. */
  function DemoUser(id: string, name: string, email: string, role: Role): Record {
    map["id" := Str(id), "name" := Str(name), "email" := Str(email),
        "role" := Str(RoleName(role)), "authProvider" := Str("email")]
  }

  /** The object literal of demo accounts, keyed by e-mail. */
  const DemoUsers: map<string, Record> := map[
    "profesor@demo.com" := DemoUser("1", "Profesor Demo", "profesor@demo.com", Teacher),
    "director@demo.com" := DemoUser("2", "Director Demo", "director@demo.com", Director),
    "estudiante@demo.com" := DemoUser("3", "Estudiante Demo", "estudiante@demo.com", Student)
  ]

  /** The role of each demo account. */
  function DemoRole(email: string): Option<Role> {
    if email == "profesor@demo.com" then Some(Teacher)
    else if email == "director@demo.com" then Some(Director)
    else if email == "estudiante@demo.com" then Some(Student)
    else None
  }

  /** The one password every demo account accepts. */
  const DemoPassword := "123456"

  const InvalidCredentials := "Credenciales inválidas"

  /** The names every object literal inherits from `Object.prototype`. Indexing an
      object literal with one of them yields a function or an object, never `undefined`. */
  const InheritedKeys: set<string> := {
    "constructor", "__proto__", "toString", "toLocaleString", "valueOf", "hasOwnProperty",
    "isPrototypeOf", "propertyIsEnumerable", "__defineGetter__", "__defineSetter__",
    "__lookupGetter__", "__lookupSetter__"
  }

  /** The service's answer: `{success: true, user}` or `{success: false, error}`. */
  datatype LoginResult = LoginOk(user: Value) | LoginRejected(error: string)

  // ----- the credential check -----

  /** `demoUsers[email]` as JavaScript evaluates it. An inherited member is a
      function or `Object.prototype` itself: truthy, and owning none of the fields the
      application reads, so it is modelled as an object without fields. */
  function LookupAsWritten(email: string): (v: Value)
    ensures email in DemoUsers ==> v == Obj(DemoUsers[email])
    ensures email !in DemoUsers ==> (Truthy(v) <==> email in InheritedKeys)
  {
    if email in DemoUsers then Obj(DemoUsers[email])
    else if email in InheritedKeys then Obj(map[])
    else Undefined
  }

  /** `loginUser` as written: a truthy lookup and the demo password succeed. */
  function LoginUserAsWritten(email: string, password: string): (r: LoginResult)
    ensures r.LoginOk? <==> (email in DemoUsers || email in InheritedKeys) && password == DemoPassword
    ensures r.LoginRejected? ==> r.error == InvalidCredentials
  {
    var user := LookupAsWritten(email);
    if Truthy(user) && password == DemoPassword then LoginOk(user) else LoginRejected(InvalidCredentials)
  }

  /** `loginUser` as meant: only the three demo accounts, with the demo password. */
  function LoginUser(email: string, password: string): (r: LoginResult)
    ensures r.LoginOk? <==> email in DemoUsers && password == DemoPassword
    ensures r.LoginOk? ==> r.user == Obj(DemoUsers[email])
    ensures r.LoginRejected? ==> r.error == InvalidCredentials
  {
    if email in DemoUsers && password == DemoPassword then LoginOk(Obj(DemoUsers[email]))
    else LoginRejected(InvalidCredentials)
  }

  /** The user a successful login returns carries the account's own e-mail and role. */
  lemma LoginUserCarriesRole(email: string, password: string)
    requires LoginUser(email, password).LoginOk?
    ensures DemoRole(email).Some?
    ensures RoleOf(Prop(LoginUser(email, password).user, "role")) == DemoRole(email)
    ensures Prop(LoginUser(email, password).user, "email") == Str(email)
  {
    RoleRoundTrip(DemoRole(email).value);
  }

  /** Away from the inherited member names the written lookup and the meant one agree. */
  lemma LookupsAgreeOnOwnKeys(email: string, password: string)
    requires email !in InheritedKeys
    ensures LoginUserAsWritten(email, password) == LoginUser(email, password)
  {
  }

  /** An inherited member name passes the written check with the demo password and is
      refused by the meant one. */
  lemma InheritedNameLogsIn()
    ensures LoginUserAsWritten("constructor", DemoPassword) == LoginOk(Obj(map[]))
    ensures LoginUser("constructor", DemoPassword) == LoginRejected(InvalidCredentials)
  {
  }

  // ----- the sign-in handler -----

  /** `handleAuth` on the login form, as written: blank fields change nothing; otherwise
      `loginStart`, then `loginSuccess` with the service's bare user object, or
      `loginFailure` with the service's error. The reducer reads `payload.user.role`,
      which throws on a bare user; the handler's `catch` then dispatches `loginFailure`
      with the exception's message, `thrownMessage`. */
  function HandleLoginAsWritten(s: AuthState, email: string, password: string, thrownMessage: string): (r: AuthState)
    ensures email == "" || password == "" ==> r == s
    ensures email != "" && password != "" ==> !r.isAuthenticated && r.user == Null && r.role == Null
    ensures email != "" && password != "" && LoginUserAsWritten(email, password).LoginOk? ==> r.error == Str(thrownMessage)
    ensures email != "" && password != "" && LoginUserAsWritten(email, password).LoginRejected? ==>
      r.error == Str(InvalidCredentials)
    ensures email != "" && password != "" ==> r.loading == Bool(false)
  {
    if email == "" || password == "" then s
    else
      var started := LoginStart(s);
      match LoginUserAsWritten(email, password)
      case LoginOk(user) =>
        WrittenUserIsBare(email, password);
        var next := LoginSuccess(started, user);
        if next.Failure? then LoginFailure(started, Str(thrownMessage)) else Committed(started, next)
      case LoginRejected(e) => LoginFailure(started, Str(e))
  }

  /** The object the written lookup hands back is a user, not a `{user}` wrapper. */
  lemma WrittenUserIsBare(email: string, password: string)
    requires LoginUserAsWritten(email, password).LoginOk?
    ensures Nullish(Prop(LoginUserAsWritten(email, password).user, "user"))
  {
    if email in DemoUsers {
      assert "user" !in DemoUsers[email];
    }
  }

  /** The written handler never opens a session, even with a demo account's own
      credentials: the dispatch of `loginSuccess` throws. */
  lemma DemoAccountCannotSignIn(s: AuthState, thrownMessage: string)
    ensures var r := HandleLoginAsWritten(s, "profesor@demo.com", DemoPassword, thrownMessage);
      !r.isAuthenticated && r.error == Str(thrownMessage)
  {
    var user := LookupAsWritten("profesor@demo.com");
    assert Prop(user, "user") == Undefined;
  }

  /** `handleAuth` as meant: the service's user is handed over wrapped as `{user}`, the
      shape `loginSuccess` reads, and the lookup keeps to the demo accounts. */
  function HandleLogin(s: AuthState, email: string, password: string): (r: AuthState)
    ensures email == "" || password == "" ==> r == s
    ensures email != "" && password != "" ==> SessionConsistent(r)
    ensures email != "" && password != "" ==> (r.isAuthenticated <==> LoginUser(email, password).LoginOk?)
    ensures email != "" && password != "" && !r.isAuthenticated ==> r.error == Str(InvalidCredentials)
    ensures email != "" && password != "" ==> r.loading == Bool(false)
  {
    if email == "" || password == "" then s
    else
      var started := LoginStart(s);
      match LoginUser(email, password)
      case LoginOk(user) =>
        var next := LoginSuccess(started, Obj(map["user" := user]));
        if next.Success? then next.value else LoginFailure(started, Str(InvalidCredentials))
      case LoginRejected(e) => LoginFailure(started, Str(e))
  }

  /** After the meant handler, a demo account's session holds that account and its role. */
  lemma DemoAccountSignsIn(s: AuthState, email: string)
    requires email in DemoUsers
    ensures var r := HandleLogin(s, email, DemoPassword);
      && r.isAuthenticated
      && r.user == Obj(DemoUsers[email])
      && RoleOf(r.role) == DemoRole(email)
      && r.error == Null && r.loading == Bool(false)
  {
    LoginUserCarriesRole(email, DemoPassword);
  }
}

=== FILE: grade_screen.dfy ===
/**
  Grading on the teacher's submissions screen
  (src/screens/teacher/GradeSubmissionsScreen.js): the grade dialog's state, the
  check on the typed grade, and the update of the locally held submissions.
  The grading service is awaited but its answer is never inspected, and it
  catches its own errors, so the model has no parameter for it.
 */
module GradeScreen {
  import opened Wrappers
  import opened Js
  import opened JsNumber

  /** The dialog's state: shown or not, the submission it grades, and the two text fields. */
  datatype GradeDialog = GradeDialog(visible: bool, selected: Value, grade: string, feedback: string)

  const Closed := GradeDialog(false, Null, "", "")

  // ----- opening and closing the dialog -----

  /** `value?.toString() || ''`: nothing for `null`/`undefined`, the text of anything
      else. How a number is written is the parameter `numText`. */
  function TextOf(v: Value, numText: real -> string): (t: string)
    ensures Nullish(v) ==> t == ""
    ensures v.Str? ==> t == v.s
  {
    match v
    case Undefined => ""
    case Null => ""
    case Bool(b) => if b then "true" else "false"
    case Num(n) => numText(n)
    case Str(s) => s
    case Obj(_) => "[object Object]"
  }

  /** `openGradeModal(submission)`: selects the submission and starts from its current
      grade and feedback, or from empty fields. */
  function OpenGradeModal(submission: Record, numText: real -> string): (d: GradeDialog)
    ensures d.visible && d.selected == Obj(submission)
    ensures d.grade == TextOf(Field(submission, "grade"), numText)
    ensures Field(submission, "feedback").Str? ==> d.feedback == Field(submission, "feedback").s
    ensures !Field(submission, "feedback").Str? ==> d.feedback == ""
  {
    var feedback := Field(submission, "feedback");
    GradeDialog(true, Obj(submission), TextOf(Field(submission, "grade"), numText), if feedback.Str? then feedback.s else "")
  }

  /** `closeGradeModal()`: hides the dialog and forgets the selection and both fields. */
  function CloseGradeModal(d: GradeDialog): (r: GradeDialog)
    ensures !r.visible && r.selected == Null && r.grade == "" && r.feedback == ""
  {
    d.(visible := false, selected := Null, grade := "", feedback := "")
  }

  /** Whatever was open, closing leaves the same state the screen starts in. */
  lemma CloseForgetsEverything(submission: Record, numText: real -> string, d: GradeDialog)
    ensures CloseGradeModal(OpenGradeModal(submission, numText)) == Closed
    ensures CloseGradeModal(d) == Closed
  {
  }

  /** Opening on a submission whose grade and feedback are strings shows them as they are. */
  lemma OpenShowsStoredText(submission: Record, numText: real -> string, g: string, f: string)
    requires Field(submission, "grade") == Str(g) && Field(submission, "feedback") == Str(f)
    ensures OpenGradeModal(submission, numText).grade == g && OpenGradeModal(submission, numText).feedback == f
  {
  }

  // ----- checking the grade -----

  /** How a relational comparison reads the limit: `ToNumber` of the value, NaN as `None`. */
  function ToNumber(v: Value): Option<real> {
    match v
    case Undefined => None
    case Null => Some(0.0)
    case Bool(b) => Some(if b then 1.0 else 0.0)
    case Num(n) => Some(n)
    case Str(s) => StringToNumber(s)
    case Obj(_) => None
  }

  /** `assignment.maxPoints || 10` */
  function Limit(maxPoints: Value): (l: Value)
    ensures !Truthy(maxPoints) ==> l == Num(10.0)
    ensures Truthy(maxPoints) ==> l == maxPoints
  {
    if Truthy(maxPoints) then maxPoints else Num(10.0)
  }

  /** Why the dialog refuses to send: an empty grade (`Por favor ingresa una calificación`),
      a grade outside 0 and the limit (`La calificación debe estar entre 0 y …`), or no
      selected submission, whose `_id` cannot be read. */
  datatype Refusal = BlankGrade | OutOfRange(limit: Value) | NoSelection

  /** The grade as a number when it passes the check: it reads as a number, is not
      negative, and is not above the limit. A limit that reads as NaN makes the last
      comparison false, so it bounds nothing. */
  function CheckedGrade(grade: string, maxPoints: Value): (r: Result<real, Refusal>)
    ensures r.Failure? && Trim(grade) == "" ==> r.error == BlankGrade
    ensures Trim(grade) == "" ==> r.Failure?
    ensures r.Success? <==>
      && Trim(grade) != ""
      && ParseFloat(grade).Some?
      && ParseFloat(grade).value >= 0.0
      && !(ToNumber(Limit(maxPoints)).Some? && ParseFloat(grade).value > ToNumber(Limit(maxPoints)).value)
    ensures r.Success? ==> Some(r.value) == ParseFloat(grade)
  {
    if Trim(grade) == "" then Failure(BlankGrade)
    else
      match ParseFloat(grade)
      case None => Failure(OutOfRange(Limit(maxPoints)))
      case Some(g) =>
        if g < 0.0 then Failure(OutOfRange(Limit(maxPoints)))
        else match ToNumber(Limit(maxPoints))
          case Some(l) => if g > l then Failure(OutOfRange(Limit(maxPoints))) else Success(g)
          case None => Success(g)
  }

  // ----- sending the grade -----

  /** The submission `sub` after grading with `value`, trimmed `feedback`, at `now`. */
  function Graded(sub: Record, value: real, feedback: string, now: string): (g: Record)
    ensures Field(g, "grade") == Num(value) && Field(g, "status") == Str("graded")
    ensures forall k :: k in sub ==> k in g
  {
    sub["grade" := Num(value)]["feedback" := Str(Trim(feedback))]["gradedAt" := Str(now)]["status" := Str("graded")]
  }

  /** `prev.map(sub => sub._id === id ? {...graded} : sub)` */
  function GradeMatching(subs: seq<Record>, id: Value, value: real, feedback: string, now: string): (r: seq<Record>)
    ensures |r| == |subs|
    ensures forall i :: 0 <= i < |subs| ==>
      r[i] == if Field(subs[i], "_id") == id then Graded(subs[i], value, feedback, now) else subs[i]
  {
    if subs == [] then []
    else
      [if Field(subs[0], "_id") == id then Graded(subs[0], value, feedback, now) else subs[0]]
        + GradeMatching(subs[1..], id, value, feedback, now)
  }

  /** `handleGradeSubmission`: check the typed grade against `assignment.maxPoints`, send
      it, update every local submission with the selected `_id`, and close the dialog. */
  function HandleGradeSubmission(subs: seq<Record>, d: GradeDialog, maxPoints: Value, now: string): (r: Result<(seq<Record>, GradeDialog), Refusal>)
    ensures CheckedGrade(d.grade, maxPoints).Failure? ==> r == Failure(CheckedGrade(d.grade, maxPoints).error)
    ensures CheckedGrade(d.grade, maxPoints).Success? && Nullish(d.selected) ==> r == Failure(NoSelection)
    ensures r.Success? <==> CheckedGrade(d.grade, maxPoints).Success? && !Nullish(d.selected)
    ensures r.Success? ==> r.value.1 == Closed
    ensures r.Success? ==>
      r.value.0 == GradeMatching(subs, Prop(d.selected, "_id"), CheckedGrade(d.grade, maxPoints).value, d.feedback, now)
  {
    match CheckedGrade(d.grade, maxPoints)
    case Failure(e) => Failure(e)
    case Success(value) =>
      if Nullish(d.selected) then Failure(NoSelection)
      else Success((GradeMatching(subs, Prop(d.selected, "_id"), value, d.feedback, now), CloseGradeModal(d)))
  }

  /** A graded submission shows the grade, the trimmed feedback, the time and status
      `graded`, and keeps every other field. */
  lemma GradedFields(sub: Record, value: real, feedback: string, now: string)
    ensures var g := Graded(sub, value, feedback, now);
      && Field(g, "grade") == Num(value)
      && Field(g, "feedback") == Str(Trim(feedback))
      && Field(g, "gradedAt") == Str(now)
      && Field(g, "status") == Str("graded")
      && Field(g, "_id") == Field(sub, "_id")
      && g.Keys == sub.Keys + {"grade", "feedback", "gradedAt", "status"}
      && forall k :: k in sub && k !in {"grade", "feedback", "gradedAt", "status"} ==> g[k] == sub[k]
  {
  }

  /** Grading what is already graded the same way changes nothing. */
  lemma GradedTwice(sub: Record, value: real, feedback: string, now: string)
    ensures Graded(Graded(sub, value, feedback, now), value, feedback, now) == Graded(sub, value, feedback, now)
  {
    var g := Graded(sub, value, feedback, now);
    var gg := Graded(g, value, feedback, now);
    assert gg.Keys == g.Keys;
    assert forall k :: k in g ==> gg[k] == g[k];
  }

  // ----- properties -----

  /** A missing or zero `maxPoints` means a limit of 10. */
  lemma FallbackLimit(maxPoints: Value)
    requires maxPoints == Undefined || maxPoints == Null || maxPoints == Num(0.0) || maxPoints == Str("")
    ensures ToNumber(Limit(maxPoints)) == Some(10.0)
  {
  }

  /** The text of a whole number is not blank. */
  lemma IntTextNotBlank(n: int)
    ensures Trim(IntText(n)) != ""
  {
    var m: nat := if n < 0 then -n else n;
    NatTextEnds(m);
    if n < 0 {
      assert IntText(n)[1] == NatText(m)[0];
    } else {
      assert IntText(n)[0] == NatText(m)[0];
    }
  }

  /** A whole number typed as the grade is checked as that number. */
  lemma WholeGradeRead(g: string, n: int)
    requires g == IntText(n)
    ensures Trim(g) != "" && ParseFloat(g) == Some(n as real)
  {
    IntTextNotBlank(n);
    ParseFloatRoundTrip(n);
  }

  /** A numeric limit is read as itself, or as 10 when it is 0. */
  lemma NumericLimit(limit: real)
    ensures ToNumber(Limit(Num(limit))) == Some(if limit == 0.0 then 10.0 else limit)
  {
  }

  lemma WholeGradeChecked(g: string, x: real, limit: real)
    requires Trim(g) != "" && ParseFloat(g) == Some(x)
    ensures CheckedGrade(g, Num(limit)).Success? <==> 0.0 <= x && (limit == 0.0 ==> x <= 10.0) && (limit != 0.0 ==> x <= limit)
  {
    NumericLimit(limit);
  }

  /** Both ends of the range are accepted: 0, and a whole-number limit itself. */
  lemma BoundsInclusive(limit: int)
    requires limit >= 1
    ensures CheckedGrade(IntText(0), Num(limit as real)).Success?
    ensures CheckedGrade(IntText(limit), Num(limit as real)).Success?
  {
    WholeGradeRead(IntText(0), 0);
    WholeGradeChecked(IntText(0), 0.0, limit as real);
    WholeGradeRead(IntText(limit), limit);
    WholeGradeChecked(IntText(limit), limit as real, limit as real);
  }

  /** One above a whole-number limit, and anything negative, is refused. */
  lemma OutsideRefused(limit: int, below: int)
    requires limit >= 1 && below < 0
    ensures CheckedGrade(IntText(limit + 1), Num(limit as real)).Failure?
    ensures CheckedGrade(IntText(below), Num(limit as real)).Failure?
  {
    WholeGradeRead(IntText(limit + 1), limit + 1);
    WholeGradeChecked(IntText(limit + 1), (limit + 1) as real, limit as real);
    WholeGradeRead(IntText(below), below);
    WholeGradeChecked(IntText(below), below as real, limit as real);
  }

  /** Grading the same submission twice with the same grade changes nothing the second time. */
  lemma {:induction false} GradeMatchingIdempotent(subs: seq<Record>, id: Value, value: real, feedback: string, now: string)
    ensures GradeMatching(GradeMatching(subs, id, value, feedback, now), id, value, feedback, now)
      == GradeMatching(subs, id, value, feedback, now)
  {
    if subs != [] {
      var once := GradeMatching(subs, id, value, feedback, now);
      assert once[1..] == GradeMatching(subs[1..], id, value, feedback, now);
      if Field(subs[0], "_id") == id {
        GradedFields(subs[0], value, feedback, now);
        GradedTwice(subs[0], value, feedback, now);
      }
      GradeMatchingIdempotent(subs[1..], id, value, feedback, now);
    }
  }

  /** A list with no submission under the selected `_id` is left as it was. */
  lemma GradeMatchingAbsent(subs: seq<Record>, id: Value, value: real, feedback: string, now: string)
    requires forall i :: 0 <= i < |subs| ==> Field(subs[i], "_id") != id
    ensures GradeMatching(subs, id, value, feedback, now) == subs
  {
    var r := GradeMatching(subs, id, value, feedback, now);
    assert forall i :: 0 <= i < |subs| ==> r[i] == subs[i];
  }
}

=== FILE: helpers.dfy ===
/**
  The derivation helpers of src/utils/helpers.js. Dates are millisecond
  timestamps; a missing, empty or unparseable date is `None`, which is how the
  source's `!date` guards and NaN comparisons treat it. "Now" is a parameter.
 */
module Helpers {
  import opened Wrappers
  import opened Js
  import opened JsNumber
  import opened Constants

  // ----- dates and status -----

  /** `isOverdue(dueDate)`: whether the instant `now` lies strictly after the due date. */
  function IsOverdue(dueDate: Option<int>, now: int): (overdue: bool)
    ensures dueDate.None? ==> !overdue
    ensures dueDate.Some? ==> (overdue <==> dueDate.value < now)
  {
    match dueDate
    case None => false
    case Some(d) => now > d
  }

  /** Once overdue, an assignment stays overdue as time moves on. */
  lemma OverdueIsMonotone(dueDate: Option<int>, now: int, later: int)
    requires IsOverdue(dueDate, now) && now <= later
    ensures IsOverdue(dueDate, later)
  {
  }

  /** The fields of an assignment the status derivation reads. */
  datatype AssignmentDates = AssignmentDates(dueDate: Option<int>)

  /** The fields of a submission the status derivation reads. */
  datatype SubmissionInfo = SubmissionInfo(grade: Value, submittedAt: Option<int>)

  /** Whether a submission was handed in after the due date; either date missing means no. */
  predicate SubmittedLate(a: AssignmentDates, s: SubmissionInfo) {
    s.submittedAt.Some? && a.dueDate.Some? && s.submittedAt.value > a.dueDate.value
  }

  /** `getAssignmentStatus(assignment, submission)`: a strict priority chain in which
      a grade beats lateness, and lateness of a submission beats the clock. */
  function AssignmentStatus(assignment: Option<AssignmentDates>, submission: Option<SubmissionInfo>, now: int): (st: Status)
    ensures st == Graded <==> assignment.Some? && submission.Some? && !Nullish(submission.value.grade)
    ensures st == Late <==>
      assignment.Some? &&
      ((submission.Some? && Nullish(submission.value.grade) && SubmittedLate(assignment.value, submission.value)) ||
       (submission.None? && IsOverdue(assignment.value.dueDate, now)))
    ensures st == Submitted <==>
      assignment.Some? && submission.Some? && Nullish(submission.value.grade) && !SubmittedLate(assignment.value, submission.value)
    ensures st == Pending <==> assignment.None? || (submission.None? && !IsOverdue(assignment.value.dueDate, now))
  {
    match assignment
    case None => Pending
    case Some(a) =>
      match submission
      case Some(s) =>
        if !Nullish(s.grade) then Graded
        else if SubmittedLate(a, s) then Late
        else Submitted
      case None =>
        if IsOverdue(a.dueDate, now) then Late else Pending
  }

  /** Any grade that is neither `null` nor `undefined`, `0` and `''` included, wins over every date. */
  lemma GradeWinsOverDates(due: Option<int>, grade: Value, submittedAt: Option<int>, now: int)
    requires !Nullish(grade)
    ensures AssignmentStatus(Some(AssignmentDates(due)), Some(SubmissionInfo(grade, submittedAt)), now) == Graded
  {
  }

  /** `getStatusText(status)`: the Spanish label of a known status, `Desconocido` otherwise. */
  function StatusText(status: string): (text: string)
    ensures StatusOf(status).None? <==> text == "Desconocido"
  {
    match StatusOf(status)
    case Some(Pending) => "Pendiente"
    case Some(Submitted) => "Entregado"
    case Some(Graded) => "Calificado"
    case Some(Late) => "Atrasado"
    case None => "Desconocido"
  }

  /** `getStatusColor(status)`: each known status has its own colour, anything else is grey. */
  function StatusColor(status: string): (color: string)
    ensures StatusOf(status).None? <==> color == ColorLight
  {
    match StatusOf(status)
    case Some(Pending) => ColorWarning
    case Some(Submitted) => ColorPrimary
    case Some(Graded) => ColorSuccess
    case Some(Late) => ColorDanger
    case None => ColorLight
  }

  /** Distinct statuses never share a label or a colour. */
  lemma StatusPresentationInjective(a: Status, b: Status)
    requires a != b
    ensures StatusText(StatusName(a)) != StatusText(StatusName(b))
    ensures StatusColor(StatusName(a)) != StatusColor(StatusName(b))
  {
    StatusRoundTrip(a);
    StatusRoundTrip(b);
  }

  // ----- numbers -----

  /** `calculateCompletionRate(total, completed)`: the percentage `completed/total`
      rounded to the nearest integer (halves up); 0 for a missing or zero total. */
  function CompletionRate(total: Option<int>, completed: int): (rate: int)
    ensures total.None? || total.value == 0 ==> rate == 0
    ensures total.Some? && total.value != 0 ==> RoundsTo(completed as real / total.value as real * 100.0, rate)
  {
    if total.None? || total.value == 0 then 0
    else MathRound(completed as real / total.value as real * 100.0)
  }

  /** A count out of a positive total gives a percentage in 0..100, and all of it gives 100. */
  lemma CompletionRateBounds(total: int, completed: int)
    requires 0 <= completed <= total && total > 0
    ensures 0 <= CompletionRate(Some(total), completed) <= 100
    ensures completed == total ==> CompletionRate(Some(total), completed) == 100
  {
    FractionInUnit(completed as real, total as real);
  }

  /** A part of a positive whole, divided by it, lies in [0, 1]. */
  lemma FractionInUnit(part: real, whole: real)
    requires 0.0 <= part <= whole && whole > 0.0
    ensures 0.0 <= part / whole <= 1.0
    ensures part == whole ==> part / whole == 1.0
  {
    var q := part / whole;
    assert q * whole == part;
    assert (1.0 - q) * whole == whole - part;
  }

  // ----- text -----

  /** The `maxLength` `truncateText` uses when the argument is left out. */
  const DefaultMaxLength := 100

  /** The limit in force: the one given, or the default when the argument is `undefined`. */
  function LengthLimit(maxLength: Option<int>): int {
    if maxLength.Some? then maxLength.value else DefaultMaxLength
  }

  /** `truncateText(text, maxLength)`: texts up to the limit come back as they are, longer
      ones are cut to the limit's number of characters followed by `...`. */
  function TruncateText(text: Option<string>, maxLength: Option<int>): (r: string)
    ensures text.None? || text.value == "" ==> r == ""
    ensures text.Some? && |text.value| <= LengthLimit(maxLength) ==> r == text.value
    ensures text.Some? && text.value != "" && |text.value| > LengthLimit(maxLength) ==>
      var keep := if LengthLimit(maxLength) < 0 then 0 else LengthLimit(maxLength);
      |r| == keep + 3 && r[..keep] == text.value[..keep] && r[keep..] == "..."
  {
    var limit := LengthLimit(maxLength);
    match text
    case None => ""
    case Some(t) =>
      if t == "" then ""
      else if |t| <= limit then t
      else t[..if limit < 0 then 0 else limit] + "..."
  }

  /** Truncation is a fixed point once the text fits. */
  lemma TruncateShortensOnce(text: string, maxLength: nat)
    requires |text| > maxLength
    ensures |TruncateText(Some(text), Some(maxLength))| == maxLength + 3
    ensures TruncateText(Some(TruncateText(Some(text), Some(maxLength))), Some(maxLength + 3)) == TruncateText(Some(text), Some(maxLength))
  {
  }

  /** Left out, the limit is 100: a longer text keeps its first 100 characters. */
  lemma DefaultLimitIsHundred(text: string)
    requires |text| > 100
    ensures TruncateText(Some(text), None) == text[..100] + "..."
  {
  }

  /** `validatePassword(password)`: present and at least six characters long. */
  function ValidatePassword(password: Option<string>): (ok: bool)
    ensures ok <==> password.Some? && |password.value| >= 6
  {
    match password
    case None => false
    case Some(p) => p != "" && |p| >= 6
  }

  /** Lower- and upper-casing of ASCII letters. */
  function UpperAscii(c: char): char {
    if 'a' <= c <= 'z' then (c as int - 32) as char else c
  }

  function LowerAscii(c: char): char {
    if 'A' <= c <= 'Z' then (c as int + 32) as char else c
  }

  /** `capitalizeFirst(str)`: the first character upper-cased and the rest lower-cased. */
  function CapitalizeFirst(str: Option<string>): (r: string)
    ensures str.None? ==> r == ""
    ensures str.Some? ==> |r| == |str.value|
    ensures str.Some? && r != "" ==>
      r[0] == UpperAscii(str.value[0]) && forall k :: 1 <= k < |r| ==> r[k] == LowerAscii(str.value[k])
  {
    match str
    case None => ""
    case Some(s) =>
      if s == "" then ""
      else [UpperAscii(s[0])] + seq(|s| - 1, k requires 0 <= k < |s| - 1 => LowerAscii(s[k + 1]))
  }

  /** Capitalising twice changes nothing more. */
  lemma CapitalizeFirstIdempotent(s: string)
    ensures CapitalizeFirst(Some(CapitalizeFirst(Some(s)))) == CapitalizeFirst(Some(s))
  {
    var once := CapitalizeFirst(Some(s));
    var twice := CapitalizeFirst(Some(once));
    if s != "" {
      assert |twice| == |once|;
      forall k | 0 <= k < |once| ensures twice[k] == once[k] {
      }
    }
  }

  // ----- e-mail -----

  predicate NoSpace(s: string) {
    forall k :: 0 <= k < |s| ==> !IsSpace(s[k])
  }

  /** The first position of `c` in `s`, or -1. */
  function IndexOf(s: string, c: char): (i: int)
    ensures -1 <= i < |s|
    ensures i >= 0 ==> s[i] == c && c !in s[..i]
    ensures i == -1 ==> c !in s
  {
    if s == [] then -1
    else if s[0] == c then 0
    else
      var k := IndexOf(s[1..], c);
      if k == -1 then -1 else k + 1
  }

  /** A position holding `c` with no `c` before it is what `indexOf` finds. */
  lemma {:induction false} IndexOfAt(s: string, c: char, k: nat)
    requires k < |s| && s[k] == c && c !in s[..k]
    ensures IndexOf(s, c) == k
  {
    if k > 0 {
      assert s[0] in s[..k];
      assert s[1..][k - 1] == c;
      assert s[1..][..k - 1] == s[..k][1..];
      IndexOfAt(s[1..], c, k - 1);
    }
  }

  /** `@` at `i` and `.` at `j` split `s` into the three runs the e-mail pattern demands. */
  predicate EmailSplit(s: string, i: int, j: int) {
    && 0 < i && i + 1 < j && j + 1 < |s|
    && s[i] == '@' && s[j] == '.'
    && NoSpace(s)
    && forall k :: 0 <= k < |s| && s[k] == '@' ==> k == i
  }

  /** The language of `/^[^\s@]+@[^\s@]+\.[^\s@]+$/`. */
  ghost predicate MatchesEmailPattern(s: string) {
    exists i, j :: EmailSplit(s, i, j)
  }

  /** `validateEmail(email)`: exactly one `@`, no white space, a non-empty local part,
      and a domain with a `.` that has text on both sides. */
  function ValidateEmail(email: Option<string>): (ok: bool)
    ensures ok <==> email.Some? && MatchesEmailPattern(email.value)
  {
    match email
    case None => false
    case Some(s) =>
      var i := IndexOf(s, '@');
      var ok := s != "" && NoSpace(s) && i > 0 && i + 4 <= |s| && '@' !in s[i + 1..] && '.' in s[i + 2..|s| - 1];
      EmailCheckMatches(s, i, ok);
      ok
  }

  lemma EmailCheckMatches(s: string, i: int, ok: bool)
    requires -1 <= i < |s|
    requires i >= 0 ==> s[i] == '@' && '@' !in s[..i]
    requires i == -1 ==> '@' !in s
    requires ok == (s != "" && NoSpace(s) && i > 0 && i + 4 <= |s| && '@' !in s[i + 1..] && '.' in s[i + 2..|s| - 1])
    ensures ok <==> MatchesEmailPattern(s)
  {
    if ok {
      EmailCheckSound(s, i);
    }
    if MatchesEmailPattern(s) {
      var i0, j0 :| EmailSplit(s, i0, j0);
      assert '@' in s by {
        assert s[i0] == '@';
      }
      assert i == i0;
      var rest := s[i + 1..];
      assert '@' !in rest by {
        forall m | 0 <= m < |rest| ensures rest[m] != '@' {
          assert rest[m] == s[i + 1 + m];
        }
      }
      assert s[i + 2..|s| - 1][j0 - i - 2] == '.';
    }
  }

  lemma EmailCheckSound(s: string, i: int)
    requires 0 < i && i + 4 <= |s| && s[i] == '@' && '@' !in s[..i] && NoSpace(s)
    requires '@' !in s[i + 1..] && '.' in s[i + 2..|s| - 1]
    ensures MatchesEmailPattern(s)
  {
    var d := s[i + 2..|s| - 1];
    var m :| 0 <= m < |d| && d[m] == '.';
    var j := i + 2 + m;
    assert s[j] == '.';
    forall k | 0 <= k < |s| && k != i ensures s[k] != '@' {
      if k < i {
        assert s[k] == s[..i][k];
      } else {
        assert s[k] == s[i + 1..][k - i - 1];
      }
    }
    assert EmailSplit(s, i, j);
  }
}

=== FILE: id_lists.dfy ===
/**
  The array operations the Redux slices apply to lists of plain objects, keyed by
  one field compared with `===`: `findIndex`, assignment at the found index,
  `filter` with `!==`, and `find`.
 */
module IdLists {
  import opened Wrappers
  import opened Js
  import opened Seqs

  /** Whether `r[key] === v`. */
  predicate Matches(r: Record, key: string, v: Value) {
    Field(r, key) == v
  }

  /** `list.findIndex(x => x[key] === v)`: the first matching position, or -1. */
  function FindIndex(list: seq<Record>, key: string, v: Value): (i: int)
    ensures -1 <= i < |list|
    ensures i >= 0 ==> Matches(list[i], key, v)
    ensures i >= 0 ==> forall j :: 0 <= j < i ==> !Matches(list[j], key, v)
    ensures i == -1 ==> forall j :: 0 <= j < |list| ==> !Matches(list[j], key, v)
  {
    if list == [] then -1
    else if Matches(list[0], key, v) then 0
    else
      var k := FindIndex(list[1..], key, v);
      if k == -1 then -1 else k + 1
  }

  /** `i = list.findIndex(x => x[key] === v); if (i !== -1) list[i] = x`:
      only the first element with a matching key is replaced. */
  function ReplaceFirst(list: seq<Record>, key: string, v: Value, x: Record): (r: seq<Record>)
    ensures |r| == |list|
    ensures (forall j :: 0 <= j < |list| ==> !Matches(list[j], key, v)) ==> r == list
    ensures forall j :: 0 <= j < |list| && Matches(list[j], key, v) ==>
      exists i :: 0 <= i <= j && Matches(list[i], key, v) && r == list[i := x]
  {
    var i := FindIndex(list, key, v);
    if i == -1 then list else list[i := x]
  }

  /** `list.filter(x => x[key] !== v)` */
  function RemoveAll(list: seq<Record>, key: string, v: Value): (r: seq<Record>)
    ensures |r| <= |list|
    ensures forall x :: x in r <==> x in list && !Matches(x, key, v)
  {
    if list == [] then []
    else if Matches(list[0], key, v) then RemoveAll(list[1..], key, v)
    else [list[0]] + RemoveAll(list[1..], key, v)
  }

  /** Filtering acts on each part of a list separately, so the survivors keep their order. */
  lemma {:induction false} RemoveAllAppend(a: seq<Record>, b: seq<Record>, key: string, v: Value)
    ensures RemoveAll(a + b, key, v) == RemoveAll(a, key, v) + RemoveAll(b, key, v)
  {
    if a == [] {
      assert a + b == b;
    } else {
      var x, rest := a[0], a[1..];
      assert a == [x] + rest;
      assert a + b == [x] + (rest + b);
      RemoveAllCons(x, rest + b, key, v);
      RemoveAllCons(x, rest, key, v);
      RemoveAllAppend(rest, b, key, v);
      ConcatAssoc(if Matches(x, key, v) then [] else [x], RemoveAll(rest, key, v), RemoveAll(b, key, v));
    }
  }

  lemma RemoveAllCons(x: Record, s: seq<Record>, key: string, v: Value)
    ensures RemoveAll([x] + s, key, v) == (if Matches(x, key, v) then [] else [x]) + RemoveAll(s, key, v)
  {
    assert ([x] + s)[1..] == s;
  }

  /** Removing twice removes nothing more. */
  lemma {:induction false} RemoveAllIdempotent(list: seq<Record>, key: string, v: Value)
    ensures RemoveAll(RemoveAll(list, key, v), key, v) == RemoveAll(list, key, v)
  {
    if list != [] {
      RemoveAllIdempotent(list[1..], key, v);
    }
  }

  /** A list with no matching element comes back unchanged. */
  lemma {:induction false} RemoveAllNoMatch(list: seq<Record>, key: string, v: Value)
    requires forall j :: 0 <= j < |list| ==> !Matches(list[j], key, v)
    ensures RemoveAll(list, key, v) == list
  {
    if list != [] {
      RemoveAllNoMatch(list[1..], key, v);
    }
  }

  /** `list.find(x => x[key] === v)`: the first matching element, `undefined` when none. */
  function FindFirst(list: seq<Record>, key: string, v: Value): (r: Option<Record>)
    ensures r.None? <==> forall j :: 0 <= j < |list| ==> !Matches(list[j], key, v)
    ensures r.Some? ==>
      exists i :: (0 <= i < |list| && r.value == list[i] && Matches(list[i], key, v) &&
                   forall j :: 0 <= j < i ==> !Matches(list[j], key, v))
  {
    var i := FindIndex(list, key, v);
    if i == -1 then None else Some(list[i])
  }

  /** The first match is the only position that is a match with no match before it. */
  lemma FindIndexUnique(list: seq<Record>, key: string, v: Value, k: int)
    requires -1 <= k < |list|
    requires k >= 0 ==> Matches(list[k], key, v) && forall j :: 0 <= j < k ==> !Matches(list[j], key, v)
    requires k == -1 ==> forall j :: 0 <= j < |list| ==> !Matches(list[j], key, v)
    ensures FindIndex(list, key, v) == k
  {
  }

  /** Once the first match is replaced by an element that also matches, searching finds
      that element. */
  lemma ReplacedIsFound(list: seq<Record>, key: string, v: Value, x: Record)
    requires Matches(x, key, v)
    requires exists j :: 0 <= j < |list| && Matches(list[j], key, v)
    ensures FindFirst(ReplaceFirst(list, key, v, x), key, v) == Some(x)
  {
    var i := FindIndex(list, key, v);
    var r := list[i := x];
    assert ReplaceFirst(list, key, v, x) == r;
    forall j | 0 <= j < i ensures !Matches(r[j], key, v) {
      assert r[j] == list[j];
    }
    FindIndexUnique(r, key, v, i);
  }

  /** Searching a concatenation searches the first part, then the second. */
  lemma FindFirstAppend(a: seq<Record>, b: seq<Record>, key: string, v: Value)
    ensures FindFirst(a + b, key, v) == if FindFirst(a, key, v).Some? then FindFirst(a, key, v) else FindFirst(b, key, v)
  {
    var ia := FindIndex(a, key, v);
    var ib := FindIndex(b, key, v);
    var ab := a + b;
    assert forall j :: 0 <= j < |a| ==> ab[j] == a[j];
    assert forall j :: 0 <= j < |b| ==> ab[|a| + j] == b[j];
    if ia != -1 {
      FindIndexUnique(ab, key, v, ia);
    } else if ib != -1 {
      forall j | 0 <= j < |a| + ib ensures !Matches(ab[j], key, v) {
        if j >= |a| {
          assert ab[j] == b[j - |a|];
        }
      }
      FindIndexUnique(ab, key, v, |a| + ib);
    } else {
      forall j | 0 <= j < |ab| ensures !Matches(ab[j], key, v) {
        if j >= |a| {
          assert ab[j] == b[j - |a|];
        }
      }
      FindIndexUnique(ab, key, v, -1);
    }
  }
}

=== FILE: js.dfy ===
/**
  The fragment of JavaScript's value semantics the application code relies on:
  dynamically typed values, truthiness, property reads, object spread and the
  white space that `String.prototype.trim` removes.
 */
module Js {

  /** A JavaScript value. Objects are plain records of named fields; arrays and
      functions never flow through the modelled code as values. */
  datatype Value =
    | Undefined
    | Null
    | Bool(b: bool)
    | Num(n: real)
    | Str(s: string)
    | Obj(fields: map<string, Value>)

  /** A plain object: the field names it owns and their values. */
  type Record = map<string, Value>

  /** The exception a property read on `null`/`undefined` raises. */
  datatype Thrown = TypeError

  predicate Nullish(v: Value) {
    v.Undefined? || v.Null?
  }

  /** `!!v` */
  predicate Truthy(v: Value) {
    match v
    case Undefined => false
    case Null => false
    case Bool(b) => b
    case Num(n) => n != 0.0
    case Str(s) => s != ""
    case Obj(_) => true
  }

  /** `r.key` on a plain object: `undefined` when the object does not own `key`. */
  function Field(r: Record, key: string): (v: Value)
    ensures key !in r ==> v == Undefined
    ensures key in r ==> v == r[key]
  {
    if key in r then r[key] else Undefined
  }

  /** `v.key` on a value that is not `null`/`undefined`: booleans, numbers and
      strings own none of the fields the application reads. */
  function Prop(v: Value, key: string): Value {
    if v.Obj? then Field(v.fields, key) else Undefined
  }

  /** The fields `{...v}` copies: an object's own fields, nothing for `null`,
      `undefined`, booleans and numbers. The indexed characters a string would give are
      not modelled: the application spreads objects only. */
  function Spread(v: Value): Record {
    if v.Obj? then v.fields else map[]
  }

  /** The characters `\s` matches and `trim` removes: WhiteSpace and LineTerminator. */
  const SpaceChars: set<char> := {
    ' ', '\t', '\n', '\r', '\U{000B}', '\U{000C}', '\U{00A0}', '\U{1680}',
    '\U{2000}', '\U{2001}', '\U{2002}', '\U{2003}', '\U{2004}', '\U{2005}',
    '\U{2006}', '\U{2007}', '\U{2008}', '\U{2009}', '\U{200A}',
    '\U{2028}', '\U{2029}', '\U{202F}', '\U{205F}', '\U{3000}', '\U{FEFF}'
  }

  predicate IsSpace(c: char) {
    c in SpaceChars
  }

  predicate AllSpace(s: string) {
    forall i :: 0 <= i < |s| ==> IsSpace(s[i])
  }

  /** `s.trimStart()`: drops the leading white space and nothing else. */
  function TrimStart(s: string): (r: string)
    ensures |r| <= |s| && r == s[|s| - |r|..]
    ensures forall i :: 0 <= i < |s| - |r| ==> IsSpace(s[i])
    ensures r == [] || !IsSpace(r[0])
  {
    s[LeadingSpaces(s)..]
  }

  /** How many white-space characters `s` starts with. */
  function LeadingSpaces(s: string): (n: nat)
    ensures n <= |s|
    ensures forall i :: 0 <= i < n ==> IsSpace(s[i])
    ensures n == |s| || !IsSpace(s[n])
  {
    if s != [] && IsSpace(s[0]) then
      var n := LeadingSpaces(s[1..]);
      assert forall i :: 0 < i < n + 1 ==> s[i] == s[1..][i - 1];
      n + 1
    else 0
  }

  /** How many white-space characters `s` ends with. */
  function TrailingSpaces(s: string): (n: nat)
    ensures n <= |s|
    ensures forall i :: |s| - n <= i < |s| ==> IsSpace(s[i])
    ensures n == |s| || !IsSpace(s[|s| - n - 1])
  {
    if s != [] && IsSpace(s[|s| - 1]) then TrailingSpaces(s[..|s| - 1]) + 1 else 0
  }

  /** `s.trim()`: what is left once the leading white space (`LeadingSpaces`) and the
      white space at the end are dropped. */
  function Trim(s: string): (r: string)
    ensures |r| <= |s| - LeadingSpaces(s)
    ensures forall k :: 0 <= k < |r| ==> r[k] == s[LeadingSpaces(s) + k]
    ensures forall k :: LeadingSpaces(s) + |r| <= k < |s| ==> IsSpace(s[k])
    ensures r == [] || (!IsSpace(r[0]) && !IsSpace(r[|r| - 1]))
    ensures r == [] <==> AllSpace(s)
  {
    var i := LeadingSpaces(s);
    if i == |s| then []
    else
      var n := TrailingSpaces(s);
      assert !IsSpace(s[i]);
      s[i..|s| - n]
  }
}

=== FILE: js_number.dfy ===
/**
  JavaScript's conversions from text to numbers, as the application uses them:
  `Number(s)` (also Yup's number cast), `parseFloat(s)`, `parseInt(s, 10)`,
  and `Math.round`. Numbers are exact rationals; not-a-number is `None`.
 */
module JsNumber {
  import opened Wrappers
  import opened Js

  // ----- digits -----

  predicate IsDigit(c: char) {
    '0' <= c <= '9'
  }

  /** The value of `c` as a digit of `base` (2, 8, 10 or 16), or -1 when it is none. */
  function DigitIn(c: char, base: nat): (d: int)
    ensures -1 <= d < base
  {
    var v :=
      if '0' <= c <= '9' then c as int - '0' as int
      else if 'a' <= c <= 'f' then c as int - 'a' as int + 10
      else if 'A' <= c <= 'F' then c as int - 'A' as int + 10
      else -1;
    if 0 <= v < base then v else -1
  }

  predicate AllDigitsIn(s: string, base: nat) {
    forall i :: 0 <= i < |s| ==> DigitIn(s[i], base) >= 0
  }

  /** The number a string of `base` digits denotes, most significant first. */
  function ValueIn(s: string, base: nat): nat
    requires AllDigitsIn(s, base)
  {
    if s == [] then 0
    else
      var init := s[..|s| - 1];
      assert AllDigitsIn(init, base) by {
        forall i | 0 <= i < |init| ensures DigitIn(init[i], base) >= 0 {
          assert init[i] == s[i];
        }
      }
      ValueIn(init, base) * base + DigitIn(s[|s| - 1], base)
  }

  function Pow10(n: nat): (p: nat)
    ensures p >= 1
  {
    if n == 0 then 1 else 10 * Pow10(n - 1)
  }

  /** `x * 10^e` */
  function Scale(x: real, e: int): real {
    if e >= 0 then x * Pow10(e) as real else x / Pow10(-e) as real
  }

  /** The value of the digits after a decimal point. */
  function Fraction(b: string): real
    requires AllDigitsIn(b, 10)
  {
    ValueIn(b, 10) as real / Pow10(|b|) as real
  }

  /** The longest prefix of `s` made of decimal digits. */
  function LeadingDigits(s: string): (d: string)
    ensures |d| <= |s| && d == s[..|d|]
    ensures AllDigitsIn(d, 10)
    ensures |d| < |s| ==> !IsDigit(s[|d|])
  {
    s[..DigitRun(s)]
  }

  /** How many decimal digits `s` starts with. */
  function DigitRun(s: string): (n: nat)
    ensures n <= |s|
    ensures forall i :: 0 <= i < n ==> IsDigit(s[i])
    ensures n == |s| || !IsDigit(s[n])
  {
    if s != [] && IsDigit(s[0]) then
      var n := DigitRun(s[1..]);
      assert forall i :: 0 < i < n + 1 ==> s[i] == s[1..][i - 1];
      n + 1
    else 0
  }

  // ----- decimal literals -----

  /** A literal read from the front of a string: its value and how many characters it took. */
  datatype Scan = Scan(value: real, length: nat)

  /** An exponent part read from the front of a string: the power of ten and its length. */
  datatype Exponent = Exponent(power: int, length: nat)

  /** An exponent part `e7`, `E+2`, `e-3` at the front of `s`. */
  function ExponentPrefix(s: string): (r: Option<Exponent>)
    ensures r.Some? ==> 2 <= r.value.length <= |s|
  {
    if |s| >= 2 && (s[0] == 'e' || s[0] == 'E') then
      var k := if s[1] == '+' || s[1] == '-' then 2 else 1;
      var d := LeadingDigits(s[k..]);
      if d == [] then None
      else Some(Exponent(if s[1] == '-' then -(ValueIn(d, 10) as int) else ValueIn(d, 10), k + |d|))
    else None
  }

  /** The longest prefix of `s` that is an unsigned decimal literal
      (`12`, `12.`, `12.5`, `.5`, each optionally followed by an exponent part). */
  function UnsignedDecimalPrefix(s: string): (r: Option<Scan>)
    ensures r.Some? ==> 1 <= r.value.length <= |s|
  {
    var a := LeadingDigits(s);
    var hasDot := |a| < |s| && s[|a|] == '.';
    var b := if hasDot then LeadingDigits(s[|a| + 1..]) else [];
    if a == [] && b == [] then None
    else
      var m := |a| + (if hasDot then 1 + |b| else 0);
      var mantissa := ValueIn(a, 10) as real + Fraction(b);
      match ExponentPrefix(s[m..])
      case None => Some(Scan(mantissa, m))
      case Some(ex) => Some(Scan(Scale(mantissa, ex.power), m + ex.length))
  }

  /** Splits an optional leading `+` or `-` off `s`: the sign factor and the rest. */
  function SplitSign(s: string): (r: (real, string))
    ensures r.0 == 1.0 || r.0 == -1.0
    ensures r.1 == s || (|s| >= 1 && r.1 == s[1..])
  {
    if s != [] && s[0] == '-' then (-1.0, s[1..])
    else if s != [] && s[0] == '+' then (1.0, s[1..])
    else (1.0, s)
  }

  /** `0x1F`, `0o17`, `0b101`: a non-decimal integer literal spanning all of `t`. */
  function NonDecimalLiteral(t: string): Option<real> {
    if |t| >= 3 && t[0] == '0' then
      var base := if t[1] in {'x', 'X'} then 16 else if t[1] in {'o', 'O'} then 8 else if t[1] in {'b', 'B'} then 2 else 0;
      if base != 0 && AllDigitsIn(t[2..], base) then Some(ValueIn(t[2..], base) as real) else None
    else None
  }

  /** `Number(s)`: the whole string, white space around it aside, must be a numeric
      literal; a blank string is 0. */
  function StringToNumber(s: string): Option<real> {
    var t := Trim(s);
    if t == [] then Some(0.0)
    else if NonDecimalLiteral(t).Some? then NonDecimalLiteral(t)
    else SignedDecimal(t)
  }

  /** A decimal literal with an optional sign spanning all of `t`. */
  function SignedDecimal(t: string): Option<real> {
    var split := SplitSign(t);
    match UnsignedDecimalPrefix(split.1)
    case Some(sc) => if sc.length == |split.1| then Some(if split.0 < 0.0 then -sc.value else sc.value) else None
    case None => None
  }

  /** `parseFloat(s)`: the longest decimal literal after leading white space; trailing
      text is ignored. */
  function ParseFloat(s: string): Option<real> {
    SignedDecimalPrefix(TrimStart(s))
  }

  /** The value of the decimal literal, with an optional sign, at the front of `t`. */
  function SignedDecimalPrefix(t: string): Option<real> {
    var split := SplitSign(t);
    match UnsignedDecimalPrefix(split.1)
    case Some(sc) => Some(if split.0 < 0.0 then -sc.value else sc.value)
    case None => None
  }

  /** `parseInt(s, 10)`: the decimal digits after leading white space and an optional sign. */
  function ParseInt(s: string): Option<int> {
    var (sign, rest) := SplitSign(TrimStart(s));
    var d := LeadingDigits(rest);
    if d == [] then None
    else if sign < 0.0 then Some(-(ValueIn(d, 10) as int)) else Some(ValueIn(d, 10))
  }

  /** Whether `r` is what `Math.round` makes of `x`: the nearest integer, halves rounded up. */
  predicate RoundsTo(x: real, r: int) {
    r as real - 0.5 <= x < r as real + 0.5
  }

  /** `Math.round(x)` */
  function MathRound(x: real): (r: int)
    ensures RoundsTo(x, r)
  {
    (x + 0.5).Floor
  }

  // ----- canonical integer text -----

  lemma TenText()
    ensures IntText(10) == "10"
  {
    assert NatText(10) == NatText(1) + [DigitChar(0)];
  }

  function DigitChar(d: nat): (c: char)
    requires d < 10
    ensures IsDigit(c) && DigitIn(c, 10) == d
  {
    ('0' as int + d) as char
  }

  /** The decimal text of a natural number, without leading zeros. */
  function NatText(n: nat): string {
    if n < 10 then [DigitChar(n)] else NatText(n / 10) + [DigitChar(n % 10)]
  }

  /** The decimal text JavaScript writes for an integer. */
  function IntText(n: int): string {
    if n < 0 then "-" + NatText(-n) else NatText(n)
  }

  lemma {:induction false} NatTextDigits(n: nat)
    ensures NatText(n) != [] && AllDigitsIn(NatText(n), 10) && ValueIn(NatText(n), 10) == n
  {
    if n >= 10 {
      NatTextDigits(n / 10);
      var t := NatText(n);
      assert t[..|t| - 1] == NatText(n / 10);
    }
  }

  lemma LeadingDigitsAll(s: string)
    requires forall i :: 0 <= i < |s| ==> IsDigit(s[i])
    ensures LeadingDigits(s) == s
  {
  }

  lemma TrimStartNoop(s: string)
    requires s == [] || !IsSpace(s[0])
    ensures TrimStart(s) == s
  {
  }

  lemma TrimNoop(s: string)
    requires s != [] && !IsSpace(s[0]) && !IsSpace(s[|s| - 1])
    ensures Trim(s) == s
  {
    assert LeadingSpaces(s) == 0;
  }

  /** The text of a natural number read by each parser. */
  lemma NatTextParsed(n: nat)
    ensures LeadingDigits(NatText(n)) == NatText(n)
    ensures UnsignedDecimalPrefix(NatText(n)) == Some(Scan(n as real, |NatText(n)|))
  {
    var t := NatText(n);
    NatTextDigits(n);
    forall i | 0 <= i < |t| ensures IsDigit(t[i]) {
      assert DigitIn(t[i], 10) >= 0;
    }
    DigitsScan(t);
  }

  /** A run of decimal digits is read whole, as the number it denotes. */
  lemma DigitsScan(s: string)
    requires s != [] && forall i :: 0 <= i < |s| ==> IsDigit(s[i])
    ensures AllDigitsIn(s, 10) && LeadingDigits(s) == s
    ensures UnsignedDecimalPrefix(s) == Some(Scan(ValueIn(s, 10) as real, |s|))
  {
    LeadingDigitsAll(s);
    assert AllDigitsIn(s, 10);
    WholeDigitsScan(s);
  }

  lemma WholeDigitsScan(s: string)
    requires s != [] && AllDigitsIn(s, 10) && LeadingDigits(s) == s
    ensures UnsignedDecimalPrefix(s) == Some(Scan(ValueIn(s, 10) as real, |s|))
  {
    NoFraction();
    assert s[|s|..] == [];
    assert ExponentPrefix([]) == None;
  }

  lemma NoFraction()
    ensures Fraction([]) == 0.0
  {
    assert ValueIn([], 10) == 0 && Pow10(0) == 1;
  }

  lemma DigitIsPlain(c: char)
    requires DigitIn(c, 10) >= 0
    ensures IsDigit(c) && !IsSpace(c) && c != '-' && c != '+' && c != 'x' && c != 'X'
    ensures c != 'o' && c != 'O' && c != 'b' && c != 'B'
  {
  }

  lemma NatTextEnds(m: nat)
    ensures NatText(m) != []
    ensures IsDigit(NatText(m)[0]) && !IsSpace(NatText(m)[0]) && NatText(m)[0] != '-' && NatText(m)[0] != '+'
    ensures !IsSpace(NatText(m)[|NatText(m)| - 1])
  {
    NatTextDigits(m);
    var t := NatText(m);
    DigitIsPlain(t[0]);
    DigitIsPlain(t[|t| - 1]);
  }

  /** The text of an integer splits into its sign and the text of its magnitude. */
  lemma SplitSignIntText(n: int)
    ensures TrimStart(IntText(n)) == IntText(n)
    ensures SplitSign(IntText(n)) == (if n < 0 then -1.0 else 1.0, NatText(if n < 0 then -n else n))
  {
    var m: nat := if n < 0 then -n else n;
    NatTextEnds(m);
    var t := NatText(m);
    if n < 0 {
      var u := "-" + t;
      assert u == IntText(n);
      assert u[1..] == t;
      assert !IsSpace(u[0]);
      assert TrimStart(u) == u;
    } else {
      assert IntText(n) == t;
      assert TrimStart(t) == t;
    }
  }

  /** `parseInt` reads back the text of every integer. */
  lemma ParseIntRoundTrip(n: int)
    ensures ParseInt(IntText(n)) == Some(n)
  {
    var m: nat := if n < 0 then -n else n;
    SplitSignIntText(n);
    NatTextParsed(m);
    NatTextDigits(m);
  }

  /** `parseFloat` reads back the text of every integer. */
  lemma ParseFloatRoundTrip(n: int)
    ensures ParseFloat(IntText(n)) == Some(n as real)
  {
    var m: nat := if n < 0 then -n else n;
    var t, u := IntText(n), NatText(m);
    var sign, v := if n < 0 then -1.0 else 1.0, m as real;
    SplitSignIntText(n);
    assert SplitSign(TrimStart(t)) == (sign, u);
    NatTextParsed(m);
    assert UnsignedDecimalPrefix(u) == Some(Scan(v, |u|));
    ParseFloatOf(t, sign, u, v);
    assert (if sign < 0.0 then -v else v) == n as real;
  }

  /** `parseFloat` reads the sign and the unsigned literal after leading white space. */
  lemma ParseFloatOf(t: string, sign: real, rest: string, v: real)
    requires SplitSign(TrimStart(t)) == (sign, rest)
    requires UnsignedDecimalPrefix(rest) == Some(Scan(v, |rest|))
    ensures ParseFloat(t) == Some(if sign < 0.0 then -v else v)
  {
    SignedDecimalPrefixOf(TrimStart(t), sign, rest, v);
  }

  lemma SignedDecimalPrefixOf(t: string, sign: real, rest: string, v: real)
    requires SplitSign(t) == (sign, rest)
    requires UnsignedDecimalPrefix(rest) == Some(Scan(v, |rest|))
    ensures SignedDecimalPrefix(t) == Some(if sign < 0.0 then -v else v)
  {
  }

  /** `Number` reads back the text of every integer. */
  lemma StringToNumberRoundTrip(n: int)
    ensures StringToNumber(IntText(n)) == Some(n as real)
  {
    var m: nat := if n < 0 then -n else n;
    var t, u := IntText(n), NatText(m);
    var sign, v := if n < 0 then -1.0 else 1.0, m as real;
    SplitSignIntText(n);
    assert SplitSign(t) == (sign, u);
    NatTextParsed(m);
    assert UnsignedDecimalPrefix(u) == Some(Scan(v, |u|));
    IntTextIsDecimal(n);
    DecimalNumber(t, sign, u, v);
    assert (if sign < 0.0 then -v else v) == n as real;
  }

  /** The text of an integer has no white space around it and is no non-decimal literal. */
  lemma IntTextIsDecimal(n: int)
    ensures IntText(n) != [] && Trim(IntText(n)) == IntText(n) && NonDecimalLiteral(IntText(n)) == None
  {
    IntTextTrimmed(n);
    IntTextNotNonDecimal(n);
  }

  lemma IntTextTrimmed(n: int)
    ensures IntText(n) != [] && Trim(IntText(n)) == IntText(n)
  {
    var m: nat := if n < 0 then -n else n;
    var t, u := IntText(n), NatText(m);
    NatTextEnds(m);
    if n < 0 {
      assert t == "-" + u;
      assert t[0] == '-' && t[|t| - 1] == u[|u| - 1];
    } else {
      assert t == u;
    }
    TrimNoop(t);
  }

  lemma IntTextNotNonDecimal(n: int)
    ensures NonDecimalLiteral(IntText(n)) == None
  {
    var m: nat := if n < 0 then -n else n;
    var t, u := IntText(n), NatText(m);
    if n < 0 {
      assert t == "-" + u;
      assert t[0] == '-';
    } else {
      assert t == u;
      if |u| >= 3 && u[0] == '0' {
        NatTextDigits(m);
        DigitIsPlain(u[1]);
      }
    }
  }

  /** A string that is already trimmed, is no non-decimal literal, and whose unsigned
      part is read whole, is read by `Number` as that value with its sign. */
  lemma DecimalNumber(t: string, sign: real, rest: string, v: real)
    requires t != [] && Trim(t) == t && NonDecimalLiteral(t) == None
    requires SplitSign(t) == (sign, rest)
    requires UnsignedDecimalPrefix(rest) == Some(Scan(v, |rest|))
    ensures StringToNumber(t) == Some(if sign < 0.0 then -v else v)
  {
    SignedDecimalOf(t, sign, rest, v);
    assert StringToNumber(t) == SignedDecimal(t);
  }

  lemma SignedDecimalOf(t: string, sign: real, rest: string, v: real)
    requires SplitSign(t) == (sign, rest)
    requires UnsignedDecimalPrefix(rest) == Some(Scan(v, |rest|))
    ensures SignedDecimal(t) == Some(if sign < 0.0 then -v else v)
  {
  }
}

=== FILE: local_store.dfy ===
/**
  The assignment store that mainapp.js keeps in component state: a list of
  assignments, each carrying its own list of submissions, changed by the
  create, submit and grade handlers, and summarised by `updateStats`.
 */
module LocalStore {
  import opened Wrappers
  import opened Js
  import opened JsNumber
  import opened Constants
  import opened Helpers
  import opened Seqs

  datatype Submission = Submission(
    studentId: Value,
    studentName: Value,
    comments: string,
    submittedAt: string,
    grade: string,
    feedback: string,
    status: string)

  datatype Assignment = Assignment(
    id: string,
    title: string,
    subject: string,
    description: string,
    dueDate: string,
    submissions: seq<Submission>)

  /** What the create modal collects. */
  datatype AssignmentDraft = AssignmentDraft(title: string, subject: string, description: string, dueDate: string)

  /** What the submission modal collects. */
  datatype SubmissionDraft = SubmissionDraft(assignmentId: string, comments: string)

  /** What the grades modal collects. */
  datatype Grading = Grading(grade: string, feedback: string)

  const SubmittedText := StatusName(Submitted)
  const GradedText := StatusName(Graded)

  // ----- the three handlers -----

  /** `handleCreateAssignment`: appends the draft under a fresh id, with no submissions. */
  function CreateAssignment(list: seq<Assignment>, d: AssignmentDraft, newId: string): (r: seq<Assignment>)
    ensures |r| == |list| + 1 && r[..|list|] == list
    ensures r[|list|].id == newId && r[|list|].submissions == []
    ensures r[|list|].title == d.title && r[|list|].subject == d.subject
    ensures r[|list|].description == d.description && r[|list|].dueDate == d.dueDate
  {
    list + [Assignment(newId, d.title, d.subject, d.description, d.dueDate, [])]
  }

  /** The submission `handleSubmitAssignment` builds; `today` is the ISO date of the instant. */
  function NewSubmission(user: Value, d: SubmissionDraft, today: string): Submission {
    Submission(Prop(user, "email"), Prop(user, "name"), d.comments, today, "", "", SubmittedText)
  }

  /** Appends `sub` to every assignment whose id is `id`. */
  function AppendSubmission(list: seq<Assignment>, id: string, sub: Submission): (r: seq<Assignment>)
    ensures |r| == |list|
    ensures forall i :: 0 <= i < |list| ==>
      r[i] == if list[i].id == id then list[i].(submissions := list[i].submissions + [sub]) else list[i]
  {
    if list == [] then []
    else
      var a := list[0];
      [if a.id == id then a.(submissions := a.submissions + [sub]) else a] + AppendSubmission(list[1..], id, sub)
  }

  /** `handleSubmitAssignment`: reading `user.email` throws when no user is signed in. */
  function SubmitAssignment(list: seq<Assignment>, user: Value, d: SubmissionDraft, today: string): (r: Result<seq<Assignment>, Thrown>)
    ensures r.Failure? <==> Nullish(user)
    ensures r.Success? ==> r.value == AppendSubmission(list, d.assignmentId, NewSubmission(user, d, today))
  {
    if Nullish(user) then Failure(TypeError)
    else Success(AppendSubmission(list, d.assignmentId, NewSubmission(user, d, today)))
  }

  /** The grading applied to one submission of a matching assignment. */
  function GradeOne(sub: Submission, studentId: Value, g: Grading): (r: Submission)
    ensures sub.studentId == studentId ==> r.grade == g.grade && r.feedback == g.feedback && r.status == GradedText
    ensures sub.studentId != studentId ==> r == sub
    ensures r.studentId == sub.studentId && r.studentName == sub.studentName
    ensures r.comments == sub.comments && r.submittedAt == sub.submittedAt
  {
    if sub.studentId == studentId then sub.(grade := g.grade, feedback := g.feedback, status := GradedText) else sub
  }

  function GradeAll(subs: seq<Submission>, studentId: Value, g: Grading): (r: seq<Submission>)
    ensures |r| == |subs|
    ensures forall j :: 0 <= j < |subs| ==> r[j] == GradeOne(subs[j], studentId, g)
  {
    if subs == [] then [] else [GradeOne(subs[0], studentId, g)] + GradeAll(subs[1..], studentId, g)
  }

  /** `handleGradeAssignment`: in every assignment with the id, every submission of the
      student takes the grade and the feedback and becomes `graded`. */
  function GradeAssignment(list: seq<Assignment>, assignmentId: string, studentId: Value, g: Grading): (r: seq<Assignment>)
    ensures |r| == |list|
    ensures forall i :: 0 <= i < |list| ==>
      r[i] == if list[i].id == assignmentId then list[i].(submissions := GradeAll(list[i].submissions, studentId, g)) else list[i]
  {
    if list == [] then []
    else
      var a := list[0];
      [if a.id == assignmentId then a.(submissions := GradeAll(a.submissions, studentId, g)) else a]
        + GradeAssignment(list[1..], assignmentId, studentId, g)
  }

  // ----- the modal guards in front of the handlers -----

  /** `AssignmentModal.handleSubmit`: title and subject are required. */
  function AssignmentModalSubmit(list: seq<Assignment>, d: AssignmentDraft, newId: string): (r: Result<seq<Assignment>, string>)
    ensures r.Failure? <==> d.title == "" || d.subject == ""
    ensures r.Success? ==> r.value == CreateAssignment(list, d, newId)
  {
    if d.title == "" || d.subject == "" then Failure("Por favor completa título y materia")
    else Success(CreateAssignment(list, d, newId))
  }

  /** `SubmissionModal.handleSubmit`: an assignment must be chosen. */
  function SubmissionModalSubmit(list: seq<Assignment>, user: Value, d: SubmissionDraft, today: string): (r: Result<Result<seq<Assignment>, Thrown>, string>)
    ensures r.Failure? <==> d.assignmentId == ""
    ensures r.Success? ==> r.value == SubmitAssignment(list, user, d, today)
  {
    if d.assignmentId == "" then Failure("Por favor selecciona una tarea")
    else Success(SubmitAssignment(list, user, d, today))
  }

  /** `GradesModal.handleGradeSubmit`: a grade is required; any non-empty text passes. */
  function GradesModalSubmit(list: seq<Assignment>, assignmentId: string, studentId: Value, g: Grading): (r: Result<seq<Assignment>, string>)
    ensures r.Failure? <==> g.grade == ""
    ensures r.Success? ==> r.value == GradeAssignment(list, assignmentId, studentId, g)
  {
    if g.grade == "" then Failure("Por favor ingresa una calificación")
    else Success(GradeAssignment(list, assignmentId, studentId, g))
  }

  // ----- getAssignmentsToGrade -----

  predicate HasSubmitted(a: Assignment) {
    exists j :: 0 <= j < |a.submissions| && a.submissions[j].status == SubmittedText
  }

  /** `getAssignmentsToGrade`: the assignments with a submission still waiting, in order. */
  function AssignmentsToGrade(list: seq<Assignment>): (r: seq<Assignment>)
    ensures |r| <= |list|
    ensures forall a :: a in r <==> a in list && HasSubmitted(a)
  {
    if list == [] then []
    else if HasSubmitted(list[0]) then [list[0]] + AssignmentsToGrade(list[1..])
    else AssignmentsToGrade(list[1..])
  }

  /** The selection acts on each part of a list separately, so it keeps the order. */
  lemma {:induction false} AssignmentsToGradeAppend(a: seq<Assignment>, b: seq<Assignment>)
    ensures AssignmentsToGrade(a + b) == AssignmentsToGrade(a) + AssignmentsToGrade(b)
  {
    if a == [] {
      assert a + b == b;
    } else {
      var x, rest := a[0], a[1..];
      assert a == [x] + rest;
      assert a + b == [x] + (rest + b);
      AssignmentsToGradeCons(x, rest + b);
      AssignmentsToGradeCons(x, rest);
      AssignmentsToGradeAppend(rest, b);
      ConcatAssoc(if HasSubmitted(x) then [x] else [], AssignmentsToGrade(rest), AssignmentsToGrade(b));
    }
  }

  lemma AssignmentsToGradeCons(x: Assignment, s: seq<Assignment>)
    ensures AssignmentsToGrade([x] + s) == (if HasSubmitted(x) then [x] else []) + AssignmentsToGrade(s)
  {
    assert ([x] + s)[1..] == s;
  }

  // ----- updateStats -----

  /** `assignments.reduce((t, a) => t + a.submissions.length, 0)` */
  function SubmissionCount(list: seq<Assignment>): nat {
    if list == [] then 0 else |list[0].submissions| + SubmissionCount(list[1..])
  }

  /** `subs.filter(s => s.status === st).length` */
  function CountStatus(subs: seq<Submission>, st: string): (n: nat)
    ensures n <= |subs|
    ensures n == 0 <==> forall j :: 0 <= j < |subs| ==> subs[j].status != st
  {
    if subs == [] then 0
    else (if subs[0].status == st then 1 else 0) + CountStatus(subs[1..], st)
  }

  /** The number of graded submissions over all assignments. */
  function GradedCount(list: seq<Assignment>): nat {
    if list == [] then 0 else CountStatus(list[0].submissions, GradedText) + GradedCount(list[1..])
  }

  /** The first two pieces of `grade.split('/')`, when there is a slash to split at: the
      text before the first slash, and the text from there up to the next slash or the end. */
  function SlashParts(grade: string): (r: Option<(string, string)>)
    ensures r.Some? <==> '/' in grade
    ensures r.Some? ==> '/' !in r.value.0 && '/' !in r.value.1
    ensures r.Some? ==> var a, b := r.value.0, r.value.1;
      && |a| + |b| < |grade|
      && grade[..|a|] == a && grade[|a|] == '/' && grade[|a| + 1..|a| + 1 + |b|] == b
      && (|a| + 1 + |b| == |grade| || grade[|a| + 1 + |b|] == '/')
  {
    var i := IndexOf(grade, '/');
    if i == -1 then None
    else
      var rest := grade[i + 1..];
      var j := IndexOf(rest, '/');
      Some((grade[..i], if j == -1 then rest else rest[..j]))
  }

  /** `total > 0 ? obtained / total * 10 : 0`, kept when above zero; a NaN side
      (`None`) fails both comparisons and is never kept. */
  function GradeValue(obtained: Option<real>, total: Option<real>): (v: Option<real>)
    ensures v.Some? <==> obtained.Some? && total.Some? && total.value > 0.0 && obtained.value > 0.0
    ensures v.Some? ==> v.value > 0.0 && v.value * total.value == obtained.value * 10.0
  {
    match (obtained, total)
    case (Some(o), Some(t)) => if t > 0.0 && o / t * 10.0 > 0.0 then Some(o / t * 10.0) else None
    case _ => None
  }

  /** `[obtained, total] = grade.split('/').map(Number)` and the value that would be
      pushed into the averaged list. */
  function NumericGrade(grade: string): (v: Option<real>)
    ensures v.Some? ==> '/' in grade && v.value > 0.0
  {
    match SlashParts(grade)
    case None => None
    case Some((obtained, total)) => GradeValue(StringToNumber(obtained), StringToNumber(total))
  }

  /** A way of reading a grade string: the value it contributes, or `None` when it
      contributes nothing. The store reads grades with `NumericGrade`. */
  type GradeReader = string -> Option<real>

  /** Whether a submission takes part in the average. The source also asks for a
      non-empty grade; an empty grade has no slash, so no reader used here keeps it. */
  predicate CountedBy(sub: Submission, read: GradeReader) {
    sub.status == GradedText && read(sub.grade).Some?
  }

  /** The grades a list of submissions contributes to the average, in order. */
  function GradesBy(subs: seq<Submission>, read: GradeReader): (r: seq<real>)
    ensures |r| <= |subs|
  {
    if subs == [] then [] else KeptBy(subs[0], read) + GradesBy(subs[1..], read)
  }

  /** The grade one submission contributes: its value when it is counted, none otherwise. */
  function KeptBy(sub: Submission, read: GradeReader): (r: seq<real>)
    ensures |r| <= 1
  {
    if CountedBy(sub, read) then [read(sub.grade).value] else []
  }

  predicate Counted(sub: Submission) {
    CountedBy(sub, NumericGrade)
  }

  /** The grades one assignment contributes to the average. */
  function GradesOf(subs: seq<Submission>): (r: seq<real>)
    ensures |r| <= |subs|
  {
    GradesBy(subs, NumericGrade)
  }

  /** `allGrades` */
  function AllGrades(list: seq<Assignment>): (r: seq<real>)
    ensures |r| <= SubmissionCount(list)
  {
    if list == [] then [] else GradesOf(list[0].submissions) + AllGrades(list[1..])
  }

  predicate AllPositive(xs: seq<real>) {
    forall k :: 0 <= k < |xs| ==> xs[k] > 0.0
  }

  function Sum(xs: seq<real>): real {
    if xs == [] then 0.0 else xs[0] + Sum(xs[1..])
  }

  datatype Stats = Stats(
    totalAssignments: nat,
    totalSubmissions: nat,
    submissionRate: int,
    averageGrade: real,
    gradedAssignments: int)

  /** `Math.round(S / (n * 3) * 100)`: the submissions as a percentage of three per
      assignment, to the nearest whole, 0 without assignments; nothing caps it at 100. */
  function SubmissionRate(n: nat, total: nat): (r: int)
    ensures r >= 0
    ensures n == 0 ==> r == 0
    ensures n > 0 ==> RoundsTo(total as real * 100.0 / (3 * n) as real, r)
  {
    if n > 0 then
      var x := total as real / (n * 3) as real * 100.0;
      assert x == total as real * 100.0 / (3 * n) as real;
      MathRound(x)
    else 0
  }

  /** `Math.round(graded / total * 100)`: the graded submissions as a percentage of all of
      them, to the nearest whole, 0 without submissions. */
  function GradedShare(graded: nat, total: nat): (r: int)
    ensures total == 0 ==> r == 0
    ensures total > 0 ==> RoundsTo(graded as real * 100.0 / total as real, r)
    ensures graded <= total ==> 0 <= r <= 100
  {
    if total > 0 then
      var x := ShareOf(graded, total) * 100.0;
      assert x == graded as real * 100.0 / total as real;
      MathRound(x)
    else 0
  }

  /** The mean of the kept grades, 0 when none is kept, rounded to one decimal: a whole
      number of tenths, within half a tenth of the mean. */
  function AverageGrade(grades: seq<real>): (r: real)
    ensures grades == [] ==> r == 0.0
    ensures AllPositive(grades) ==> r >= 0.0
    ensures Tenths(r)
    ensures grades != [] ==> r - 0.05 <= Mean(grades) < r + 0.05
  {
    var average := if |grades| > 0 then Mean(grades) else 0.0;
    SumPositive(grades);
    var k := MathRound(average * 10.0);
    assert k as real / 10.0 * 10.0 == k as real;
    k as real / 10.0
  }

  /** The arithmetic mean of a non-empty list. */
  function Mean(xs: seq<real>): real
    requires xs != []
  {
    Sum(xs) / |xs| as real
  }

  /** Whether `x` is a whole number of tenths. */
  predicate Tenths(x: real) {
    (x * 10.0).Floor as real == x * 10.0
  }

  /** `updateStats`, with exact rational arithmetic in place of binary floating point. */
  function UpdateStats(list: seq<Assignment>): (st: Stats)
    ensures st.totalAssignments == |list| && st.totalSubmissions == SubmissionCount(list)
    ensures list == [] ==> st == Stats(0, 0, 0, 0.0, 0)
    ensures st.submissionRate >= 0
    ensures |list| > 0 ==> RoundsTo(SubmissionCount(list) as real * 100.0 / (3 * |list|) as real, st.submissionRate)
    ensures 0 <= st.gradedAssignments <= 100
    ensures SubmissionCount(list) == 0 ==> st.gradedAssignments == 0
    ensures SubmissionCount(list) > 0 ==>
      RoundsTo(GradedCount(list) as real * 100.0 / SubmissionCount(list) as real, st.gradedAssignments)
    ensures st.averageGrade >= 0.0 && Tenths(st.averageGrade)
    ensures AllGrades(list) == [] ==> st.averageGrade == 0.0
    ensures AllGrades(list) != [] ==> st.averageGrade - 0.05 <= Mean(AllGrades(list)) < st.averageGrade + 0.05
  {
    var total := SubmissionCount(list);
    GradedAtMostTotal(list);
    AllGradesPositive(list);
    Stats(|list|, total, SubmissionRate(|list|, total), AverageGrade(AllGrades(list)), GradedShare(GradedCount(list), total))
  }

  /** `part / whole`, which stays in [0, 1] when the part is at most the whole. */
  function ShareOf(part: nat, whole: nat): (r: real)
    requires whole > 0
    ensures 0.0 <= r && (part <= whole ==> r <= 1.0)
  {
    part as real / whole as real
  }

  /** Every kept grade is above zero, whatever the reader, so long as the reader only
      keeps values above zero. */
  lemma {:induction false} GradesByPositive(subs: seq<Submission>, read: GradeReader)
    requires forall g :: read(g).Some? ==> read(g).value > 0.0
    ensures AllPositive(GradesBy(subs, read))
  {
    if subs != [] {
      GradesByPositive(subs[1..], read);
    }
  }

  lemma {:induction false} AllGradesPositive(list: seq<Assignment>)
    ensures AllPositive(AllGrades(list))
  {
    if list != [] {
      GradesByPositive(list[0].submissions, NumericGrade);
      AllGradesPositive(list[1..]);
    }
  }

  /** A sum of positive terms is not negative, and positive once there is a term. */
  lemma {:induction false} SumPositive(xs: seq<real>)
    ensures AllPositive(xs) ==> Sum(xs) >= 0.0 && (xs != [] ==> Sum(xs) > 0.0)
  {
    if xs != [] {
      SumPositive(xs[1..]);
    }
  }

  lemma {:induction false} GradesByAppend(a: seq<Submission>, b: seq<Submission>, read: GradeReader)
    ensures GradesBy(a + b, read) == GradesBy(a, read) + GradesBy(b, read)
  {
    if a == [] {
      assert a + b == b;
    } else {
      var x, rest := a[0], a[1..];
      assert a == [x] + rest;
      assert a + b == [x] + (rest + b);
      GradesByCons(x, rest + b, read);
      GradesByCons(x, rest, read);
      GradesByAppend(rest, b, read);
      ConcatAssoc(KeptBy(x, read), GradesBy(rest, read), GradesBy(b, read));
    }
  }

  lemma GradesByCons(x: Submission, s: seq<Submission>, read: GradeReader)
    ensures GradesBy([x] + s, read) == KeptBy(x, read) + GradesBy(s, read)
  {
    assert ([x] + s)[1..] == s;
  }

  /** The submission count is zero exactly when no assignment has a submission. */
  lemma {:induction false} NoSubmissionsIffZero(list: seq<Assignment>)
    ensures SubmissionCount(list) == 0 <==> forall i :: 0 <= i < |list| ==> list[i].submissions == []
  {
    if list != [] {
      NoSubmissionsIffZero(list[1..]);
      assert forall i :: 0 < i < |list| ==> list[i] == list[1..][i - 1];
    }
  }

  /** The graded count is zero exactly when no submission of any assignment is graded. */
  lemma {:induction false} NoneGradedIffZero(list: seq<Assignment>)
    ensures GradedCount(list) == 0 <==> forall i, j :: 0 <= i < |list| && 0 <= j < |list[i].submissions| ==>
      list[i].submissions[j].status != GradedText
  {
    if list != [] {
      NoneGradedIffZero(list[1..]);
      assert forall i :: 0 < i < |list| ==> list[i] == list[1..][i - 1];
    }
  }

  /** No more submissions are graded than exist. */
  lemma {:induction false} GradedAtMostTotal(list: seq<Assignment>)
    ensures GradedCount(list) <= SubmissionCount(list)
  {
    if list != [] {
      GradedAtMostTotal(list[1..]);
    }
  }

  // ----- the grade text -----

  lemma NoSlashInNatText(n: nat)
    ensures '/' !in NatText(n)
  {
    NatTextDigits(n);
    var t := NatText(n);
    forall k | 0 <= k < |t| ensures t[k] != '/' {
      assert DigitIn(t[k], 10) >= 0;
    }
  }

  /** A grade with exactly one slash splits into its two sides. */
  lemma SlashPartsOfFraction(a: string, b: string)
    requires '/' !in a && '/' !in b
    ensures SlashParts(a + "/" + b) == Some((a, b))
  {
    var g := a + "/" + b;
    assert g[..|a|] == a;
    IndexOfAt(g, '/', |a|);
    assert g[|a| + 1..] == b;
  }

  /** Once split, a grade is read side by side. */
  lemma NumericGradeOfParts(g: string, a: string, b: string)
    requires SlashParts(g) == Some((a, b))
    ensures NumericGrade(g) == GradeValue(StringToNumber(a), StringToNumber(b))
  {
  }

  /** A grade with one slash between two numbers is read as those numbers. */
  lemma GradeOfTexts(a: string, b: string, x: real, y: real)
    requires '/' !in a && '/' !in b
    requires StringToNumber(a) == Some(x) && StringToNumber(b) == Some(y)
    ensures NumericGrade(a + "/" + b) == GradeValue(Some(x), Some(y))
  {
    SlashPartsOfFraction(a, b);
    NumericGradeOfParts(a + "/" + b, a, b);
  }

  /** The text of a whole number is read back by `Number` and holds no slash. */
  lemma WholeText(s: string, n: nat)
    requires s == IntText(n)
    ensures StringToNumber(s) == Some(n as real) && '/' !in s
  {
    StringToNumberRoundTrip(n);
    NoSlashInNatText(n);
  }

  lemma GradeValueOfWholes(o: nat, t: nat)
    ensures GradeValue(Some(o as real), Some(t as real)) == if o > 0 && t > 0 then Some(o as real / t as real * 10.0) else None
  {
  }

  /** The grade `"o/t"` written with whole numbers is kept exactly when both are positive,
      and then contributes `o / t * 10`. */
  lemma FractionGrade(o: nat, t: nat)
    ensures NumericGrade(IntText(o) + "/" + IntText(t)) ==
      if o > 0 && t > 0 then Some(o as real / t as real * 10.0) else None
  {
    WholeText(IntText(o), o);
    WholeText(IntText(t), t);
    GradeOfTexts(IntText(o), IntText(t), o as real, t as real);
    GradeValueOfWholes(o, t);
  }

  /** `"o/10"` for a single digit `o`. */
  lemma OutOfTen(g: string, d: string, o: nat)
    requires o < 10 && d == IntText(o) && g == d + "/" + "10"
    ensures NumericGrade(g) == if o > 0 then Some(o as real) else None
  {
    TenText();
    WholeText(d, o);
    WholeText("10", 10);
    GradeOfTexts(d, "10", o as real, 10.0);
    GradeValueOfWholes(o, 10);
  }

  /** `"9/10"` contributes exactly 9. */
  lemma NineOfTen()
    ensures NumericGrade("9/10") == Some(9.0)
  {
    OutOfTen("9/10", "9", 9);
  }

  /** `"0/10"` is left out of the average rather than counted as 0. */
  lemma ZeroOfTen()
    ensures NumericGrade("0/10") == None
  {
    OutOfTen("0/10", "0", 0);
  }

  // ----- the handlers against the store's summaries -----

  lemma {:induction false} SubmissionCountAppend(a: seq<Assignment>, b: seq<Assignment>)
    ensures SubmissionCount(a + b) == SubmissionCount(a) + SubmissionCount(b)
    ensures GradedCount(a + b) == GradedCount(a) + GradedCount(b)
    ensures AllGrades(a + b) == AllGrades(a) + AllGrades(b)
  {
    if a == [] {
      assert a + b == b;
    } else {
      var x, rest := a[0], a[1..];
      assert a == [x] + rest;
      assert a + b == [x] + (rest + b);
      FoldsCons(x, rest + b);
      FoldsCons(x, rest);
      SubmissionCountAppend(rest, b);
      ConcatAssoc(GradesOf(x.submissions), AllGrades(rest), AllGrades(b));
    }
  }

  lemma FoldsCons(x: Assignment, s: seq<Assignment>)
    ensures SubmissionCount([x] + s) == |x.submissions| + SubmissionCount(s)
    ensures GradedCount([x] + s) == CountStatus(x.submissions, GradedText) + GradedCount(s)
    ensures AllGrades([x] + s) == GradesOf(x.submissions) + AllGrades(s)
  {
    assert ([x] + s)[1..] == s;
  }

  /** Creating an assignment adds no submission and no grade. */
  lemma CreateKeepsCounts(list: seq<Assignment>, d: AssignmentDraft, newId: string)
    ensures var r := CreateAssignment(list, d, newId);
      && SubmissionCount(r) == SubmissionCount(list)
      && GradedCount(r) == GradedCount(list)
      && AllGrades(r) == AllGrades(list)
      && UpdateStats(r).averageGrade == UpdateStats(list).averageGrade
  {
    var extra := [Assignment(newId, d.title, d.subject, d.description, d.dueDate, [])];
    SubmissionCountAppend(list, extra);
    assert AllGrades(extra) == [];
    assert AllGrades(list) + [] == AllGrades(list);
  }

  /** How many assignments carry the id. */
  function IdCount(list: seq<Assignment>, id: string): (n: nat)
    ensures n <= |list|
    ensures n == 0 <==> forall i :: 0 <= i < |list| ==> list[i].id != id
  {
    if list == [] then 0 else (if list[0].id == id then 1 else 0) + IdCount(list[1..], id)
  }

  /** A submission lands once in every assignment with the id, and nowhere else. */
  lemma {:induction false} SubmitAddsOnePerMatch(list: seq<Assignment>, id: string, sub: Submission)
    ensures SubmissionCount(AppendSubmission(list, id, sub)) == SubmissionCount(list) + IdCount(list, id)
  {
    if list != [] {
      var r := AppendSubmission(list, id, sub);
      assert r[1..] == AppendSubmission(list[1..], id, sub);
      SubmitAddsOnePerMatch(list[1..], id, sub);
    }
  }

  /** An id that no assignment has leaves the store as it was. */
  lemma SubmitUnknownIdIsNoop(list: seq<Assignment>, user: Value, d: SubmissionDraft, today: string)
    requires !Nullish(user)
    requires forall i :: 0 <= i < |list| ==> list[i].id != d.assignmentId
    ensures SubmitAssignment(list, user, d, today) == Success(list)
  {
    var r := AppendSubmission(list, d.assignmentId, NewSubmission(user, d, today));
    assert forall i :: 0 <= i < |list| ==> r[i] == list[i];
    assert r == list;
  }

  /** After a submission its assignment is waiting to be graded. */
  lemma SubmittedIsToGrade(list: seq<Assignment>, user: Value, d: SubmissionDraft, today: string, i: nat)
    requires !Nullish(user) && i < |list| && list[i].id == d.assignmentId
    ensures var r := SubmitAssignment(list, user, d, today).value;
      r[i] in AssignmentsToGrade(r) && r[i].submissions[|list[i].submissions|].status == SubmittedText
  {
    var r := SubmitAssignment(list, user, d, today).value;
    var subs := r[i].submissions;
    assert subs[|subs| - 1].status == SubmittedText;
    assert r[i] in r;
  }

  /** Grading never changes how many submissions there are, and never lowers the graded count. */
  lemma {:induction false} GradeKeepsCounts(list: seq<Assignment>, assignmentId: string, studentId: Value, g: Grading)
    ensures SubmissionCount(GradeAssignment(list, assignmentId, studentId, g)) == SubmissionCount(list)
    ensures GradedCount(GradeAssignment(list, assignmentId, studentId, g)) >= GradedCount(list)
  {
    if list != [] {
      var r := GradeAssignment(list, assignmentId, studentId, g);
      assert r[1..] == GradeAssignment(list[1..], assignmentId, studentId, g);
      GradeKeepsCounts(list[1..], assignmentId, studentId, g);
      GradedNeverDecreases(list[0].submissions, studentId, g);
    }
  }

  lemma {:induction false} GradedNeverDecreases(subs: seq<Submission>, studentId: Value, g: Grading)
    ensures CountStatus(GradeAll(subs, studentId, g), GradedText) >= CountStatus(subs, GradedText)
  {
    if subs != [] {
      var r := GradeAll(subs, studentId, g);
      assert r[1..] == GradeAll(subs[1..], studentId, g);
      GradedNeverDecreases(subs[1..], studentId, g);
    }
  }

  /** Reading back a graded pair gives the grade and feedback as entered, status `graded`,
      and every other field as it was. */
  lemma GradeThenRead(list: seq<Assignment>, assignmentId: string, studentId: Value, g: Grading, i: nat, j: nat)
    requires i < |list| && list[i].id == assignmentId
    requires j < |list[i].submissions| && list[i].submissions[j].studentId == studentId
    ensures var sub := GradeAssignment(list, assignmentId, studentId, g)[i].submissions[j];
      && sub.grade == g.grade && sub.feedback == g.feedback && sub.status == GradedText
      && sub == list[i].submissions[j].(grade := g.grade, feedback := g.feedback, status := GradedText)
  {
  }

  // ----- worked examples -----

  /** The two assignments the app starts with. */
  const Seed := [
    Assignment("1", "Matemáticas - Álgebra Lineal", "Matemáticas", "Resolver problemas de ecuaciones lineales y matrices", "2024-12-30",
      [Submission(Str("estudiante@demo.com"), Str("Estudiante Demo"), "Tuve dificultades con las matrices inversas", "2024-10-25",
                  "8/10", "Buen trabajo, pero revisa el cálculo de matrices inversas", "graded")]),
    Assignment("2", "Historia - Revolución Industrial", "Historia", "Ensayo sobre el impacto de la revolución industrial en la sociedad moderna", "2024-12-15",
      [Submission(Str("estudiante2@demo.com"), Str("Carlos López"), "Enfoqué en los cambios sociales", "2024-10-28",
                  "", "", "submitted")])
  ]

  lemma OneSubmission(sub: Submission)
    ensures GradesOf([sub]) == if Counted(sub) then [NumericGrade(sub.grade).value] else []
  {
    assert [sub][1..] == [];
  }

  lemma OneAssignment(a: Assignment)
    ensures AllGrades([a]) == GradesOf(a.submissions)
    ensures SubmissionCount([a]) == |a.submissions|
    ensures GradedCount([a]) == CountStatus(a.submissions, GradedText)
  {
    assert [a][1..] == [];
    assert GradesOf(a.submissions) + [] == GradesOf(a.submissions);
  }

  lemma TwoAssignments(a: Assignment, b: Assignment)
    ensures AllGrades([a, b]) == GradesOf(a.submissions) + GradesOf(b.submissions)
    ensures SubmissionCount([a, b]) == |a.submissions| + |b.submissions|
    ensures GradedCount([a, b]) == CountStatus(a.submissions, GradedText) + CountStatus(b.submissions, GradedText)
  {
    assert [a, b] == [a] + [b];
    SubmissionCountAppend([a], [b]);
    OneAssignment(a);
    OneAssignment(b);
  }

  /** A graded submission whose grade reads as `v` contributes exactly `v`. */
  lemma GradedAs(sub: Submission, v: real)
    requires sub.status == GradedText && NumericGrade(sub.grade) == Some(v)
    ensures GradesOf([sub]) == [v]
    ensures CountStatus([sub], GradedText) == 1
  {
    OneSubmission(sub);
    assert [sub][1..] == [];
  }

  /** A graded submission whose grade is `"c/10"` for a digit `c` from 1 to 9 contributes
      `v`, that digit's value. */
  lemma GradedOutOfTen(sub: Submission, c: char, v: real)
    requires '1' <= c <= '9' && v == (c as int - '0' as int) as real
    requires sub.grade == [c, '/', '1', '0'] && sub.status == GradedText
    ensures GradesOf([sub]) == [v]
    ensures CountStatus([sub], GradedText) == 1
  {
    var o: nat := c as int - '0' as int;
    assert DigitChar(o) == c;
    assert IntText(o) == [c];
    assert sub.grade == [c] + "/" + "10";
    OutOfTen(sub.grade, [c], o);
    GradedAs(sub, v);
  }

  // Instances of GradedOutOfTen for the grades the worked examples use. They state
  // nothing GradedOutOfTen does not; they are proof helpers only, so that the examples
  // below combine finished facts and stay cheap for the solver.

  lemma GradedEight(sub: Submission)
    requires sub.grade == "8/10" && sub.status == GradedText
    ensures GradesOf([sub]) == [8.0] && CountStatus([sub], GradedText) == 1
  {
    GradedOutOfTen(sub, '8', 8.0);
  }

  lemma GradedNine(sub: Submission)
    requires sub.grade == "9/10" && sub.status == GradedText
    ensures GradesOf([sub]) == [9.0]
  {
    GradedOutOfTen(sub, '9', 9.0);
  }

  lemma GradedSeven(sub: Submission)
    requires sub.grade == "7/10" && sub.status == GradedText
    ensures GradesOf([sub]) == [7.0]
  {
    GradedOutOfTen(sub, '7', 7.0);
  }

  lemma NotYetGraded(sub: Submission)
    requires sub.status == SubmittedText
    ensures GradesOf([sub]) == []
    ensures CountStatus([sub], GradedText) == 0
  {
    assert SubmittedText[0] != GradedText[0];
    OneSubmission(sub);
    assert [sub][1..] == [];
  }

  /** Two assignments shaped like the seed data: one submission graded `"8/10"` and one
      waiting. */
  lemma SeedShapedCounts(a: Assignment, b: Assignment, x: Submission, y: Submission)
    requires a.submissions == [x] && b.submissions == [y]
    requires x.grade == "8/10" && x.status == GradedText && y.status == SubmittedText
    ensures SubmissionCount([a, b]) == 2 && GradedCount([a, b]) == 1
  {
    TwoAssignments(a, b);
    GradedEight(x);
    NotYetGraded(y);
  }

  lemma SeedShapedGrades(a: Assignment, b: Assignment, x: Submission, y: Submission)
    requires a.submissions == [x] && b.submissions == [y]
    requires x.grade == "8/10" && x.status == GradedText && y.status == SubmittedText
    ensures AllGrades([a, b]) == [8.0]
  {
    TwoAssignments(a, b);
    GradedEight(x);
    NotYetGraded(y);
  }

  lemma SeedArithmetic()
    ensures SubmissionRate(2, 2) == 33 && GradedShare(1, 2) == 50 && AverageGrade([8.0]) == 8.0
  {
  }

  /** Two assignments, two submissions, one of them graded with 8. */
  lemma SeedShapedStats(list: seq<Assignment>)
    requires |list| == 2 && SubmissionCount(list) == 2 && GradedCount(list) == 1 && AllGrades(list) == [8.0]
    ensures UpdateStats(list) == Stats(2, 2, 33, 8.0, 50)
  {
    SeedArithmetic();
  }

  /** The summary hard-coded next to the seed data is the one `updateStats` computes from it. */
  lemma SeedStats()
    ensures UpdateStats(Seed) == Stats(2, 2, 33, 8.0, 50)
  {
    assert Seed == [Seed[0], Seed[1]];
    SeedShapedCounts(Seed[0], Seed[1], Seed[0].submissions[0], Seed[1].submissions[0]);
    SeedShapedGrades(Seed[0], Seed[1], Seed[0].submissions[0], Seed[1].submissions[0]);
    SeedShapedStats(Seed);
  }

  lemma ThreeSubmissions(x: Submission, y: Submission, z: Submission)
    ensures GradesOf([x, y, z]) == GradesOf([x]) + GradesOf([y]) + GradesOf([z])
  {
    assert [x, y, z] == [x] + ([y] + [z]);
    GradesByAppend([x], [y] + [z], NumericGrade);
    GradesByAppend([y], [z], NumericGrade);
  }

  /** `"9/10"` and `"7/10"` next to a waiting submission. */
  predicate MixedShape(x: Submission, y: Submission, z: Submission) {
    && x.grade == "9/10" && x.status == GradedText
    && y.grade == "7/10" && y.status == GradedText
    && z.status == SubmittedText
  }

  lemma MixedGrades(x: Submission, y: Submission, z: Submission)
    requires MixedShape(x, y, z)
    ensures GradesOf([x, y, z]) == [9.0, 7.0]
  {
    ThreeSubmissions(x, y, z);
    GradedNine(x);
    GradedSeven(y);
    NotYetGraded(z);
  }

  lemma MixedCount(x: Submission, y: Submission, z: Submission)
    requires MixedShape(x, y, z)
    ensures CountStatus([x, y, z], GradedText) == 2
  {
    assert [x, y, z][1..] == [y, z];
    assert [y, z][1..] == [z];
    NotYetGraded(z);
  }

  lemma MixedTotals(a: Assignment, b: Assignment, x: Submission, y: Submission, z: Submission)
    requires a.submissions == [x, y, z] && b.submissions == [] && MixedShape(x, y, z)
    ensures SubmissionCount([a, b]) == 3 && GradedCount([a, b]) == 2 && AllGrades([a, b]) == [9.0, 7.0]
  {
    TwoAssignments(a, b);
    MixedGrades(x, y, z);
    MixedCount(x, y, z);
    assert GradesOf([]) == [];
  }

  /** Grades `"9/10"` and `"7/10"` average to 8; two of three submissions graded is 67%,
      and three submissions over two assignments is a rate of 50. */
  lemma MixedStats(list: seq<Assignment>)
    requires |list| == 2 && SubmissionCount(list) == 3 && GradedCount(list) == 2 && AllGrades(list) == [9.0, 7.0]
    ensures UpdateStats(list) == Stats(2, 3, 50, 8.0, 67)
  {
    MixedArithmetic();
  }

  lemma MixedArithmetic()
    ensures SubmissionRate(2, 3) == 50 && GradedShare(2, 3) == 67 && AverageGrade([9.0, 7.0]) == 8.0
  {
  }

  /** An assignment with `"9/10"`, `"7/10"` and a waiting submission, next to one
      without submissions. */
  lemma MixedExample(a: Assignment, b: Assignment, x: Submission, y: Submission, z: Submission)
    requires a.submissions == [x, y, z] && b.submissions == [] && MixedShape(x, y, z)
    ensures UpdateStats([a, b]) == Stats(2, 3, 50, 8.0, 67)
  {
    MixedTotals(a, b, x, y, z);
    MixedStats([a, b]);
  }

  /** More submissions than three per assignment push the rate past 100. */
  lemma SubmissionRateUncapped()
    ensures SubmissionRate(1, 4) == 133
  {
  }

  /** One assignment with one submission graded `"8/10"` averages 8. */
  lemma OneGradedGrades(a: Assignment, x: Submission)
    requires a.submissions == [x] && x.grade == "8/10" && x.status == GradedText
    ensures AllGrades([a]) == [8.0]
  {
    OneAssignment(a);
    GradedEight(x);
  }

  /** Create, submit, then grade `"8/10"`: the submission goes from absent to `submitted`
      to `graded`, and 8 is the one grade the average is taken over. */
  lemma CreateSubmitGrade(d: AssignmentDraft, user: Value, sd: SubmissionDraft, today: string, g: Grading)
    requires !Nullish(user) && sd.assignmentId == "a1" && g.grade == "8/10"
    ensures var created := CreateAssignment([], d, "a1");
      var submitted := SubmitAssignment(created, user, sd, today);
      && created[0].submissions == []
      && submitted.Success?
      && submitted.value[0].submissions[0].status == SubmittedText
      && var graded := GradeAssignment(submitted.value, "a1", Prop(user, "email"), g);
         graded[0].submissions[0].status == GradedText && AllGrades(graded) == [8.0]
  {
    var created := CreateAssignment([], d, "a1");
    var submitted := SubmitAssignment(created, user, sd, today).value;
    assert |submitted[0].submissions| == 1;
    var graded := GradeAssignment(submitted, "a1", Prop(user, "email"), g);
    GradeThenRead(submitted, "a1", Prop(user, "email"), g, 0, 0);
    assert graded == [graded[0]] && graded[0].submissions == [graded[0].submissions[0]];
    OneGradedGrades(graded[0], graded[0].submissions[0]);
  }
}

=== FILE: responsive.dfy ===
/**
  The width classes of mainapp.js's `useResponsive` hook, and the modal width the
  create-assignment modal picks from them. Window dimensions are parameters.
 */
module Responsive {

  datatype Layout = Layout(
    width: real,
    height: real,
    isSmallScreen: bool,
    isMediumScreen: bool,
    isLargeScreen: bool,
    isTablet: bool,
    isLandscape: bool)

  /** The breakpoints, in density-independent pixels. */
  const SmallBelow := 375.0
  const LargeFrom := 768.0

  /** `useResponsive()` for the current window. */
  function UseResponsive(width: real, height: real): (l: Layout)
    ensures l.width == width && l.height == height
    ensures l.isSmallScreen || l.isMediumScreen || l.isLargeScreen
    ensures !(l.isSmallScreen && l.isMediumScreen) && !(l.isSmallScreen && l.isLargeScreen) && !(l.isMediumScreen && l.isLargeScreen)
    ensures l.isTablet <==> l.isLargeScreen
  {
    Layout(width, height,
      width < SmallBelow,
      width >= SmallBelow && width < LargeFrom,
      width >= LargeFrom,
      width >= LargeFrom,
      width > height)
  }

  /** The modal's width: small screens nearly full, tablets narrower, the rest in between. */
  function ModalWidth(l: Layout): string {
    if l.isSmallScreen then "95%" else if l.isTablet then "60%" else "85%"
  }

  /** The narrower the window class, the larger the share of it the modal takes. */
  lemma ModalWidthByWindow(width: real, height: real)
    ensures width < SmallBelow ==> ModalWidth(UseResponsive(width, height)) == "95%"
    ensures SmallBelow <= width < LargeFrom ==> ModalWidth(UseResponsive(width, height)) == "85%"
    ensures LargeFrom <= width ==> ModalWidth(UseResponsive(width, height)) == "60%"
  {
  }

  /** Rotating a window that is not square swaps portrait and landscape. */
  lemma RotationFlipsLandscape(width: real, height: real)
    requires width != height
    ensures UseResponsive(width, height).isLandscape != UseResponsive(height, width).isLandscape
  {
  }
}

=== FILE: seqs.dfy ===
/** Facts about sequences that the folds over lists share. */
module Seqs {
  /** Concatenation regroups freely. Stated on its own so that a proof about a fold can
      regroup without unfolding the fold again. */
  lemma ConcatAssoc<T>(h: seq<T>, p: seq<T>, q: seq<T>)
    ensures h + (p + q) == (h + p) + q
  {
  }
}

=== FILE: student_assignments.dfy ===
/**
  The card of one assignment on the student's list
  (src/screens/student/AssignmentsScreen.js, `renderAssignment`): the status it
  shows and whether its submit button is offered. "Now" is a parameter.
 */
module StudentAssignments {
  import opened Wrappers
  import opened Js
  import opened Constants
  import opened Helpers

  /** The fields of a listed assignment the card reads; the due date already parsed. */
  datatype StudentItem = StudentItem(submitted: Value, dueDate: Option<int>)

  /** The status on the card: a hand-in wins over the clock, and otherwise the clock
      decides between late and pending. A card never shows a grade. */
  function CardStatus(item: StudentItem, now: int): (st: Status)
    ensures st == Submitted <==> Truthy(item.submitted)
    ensures st == Late <==> !Truthy(item.submitted) && IsOverdue(item.dueDate, now)
    ensures st == Pending <==> !Truthy(item.submitted) && !IsOverdue(item.dueDate, now)
    ensures st != Graded
  {
    if Truthy(item.submitted) then Submitted
    else if IsOverdue(item.dueDate, now) then Late
    else Pending
  }

  /** `canSubmit`: not yet handed in and not past the due date. */
  predicate CanSubmit(item: StudentItem, now: int) {
    !Truthy(item.submitted) && !IsOverdue(item.dueDate, now)
  }

  /** The submit button is offered exactly on the cards that read "pending". */
  lemma CanSubmitIffPending(item: StudentItem, now: int)
    ensures CanSubmit(item, now) <==> CardStatus(item, now) == Pending
  {
  }

  /** Every status a card shows has its own label and colour. */
  lemma CardPresentationKnown(item: StudentItem, now: int)
    ensures StatusText(StatusName(CardStatus(item, now))) != "Desconocido"
    ensures StatusColor(StatusName(CardStatus(item, now))) != ColorLight
  {
    StatusRoundTrip(CardStatus(item, now));
  }

  /** Before a hand-in, the card agrees with `getAssignmentStatus` for an assignment
      without a submission. */
  lemma CardAgreesWithHelper(item: StudentItem, now: int)
    requires !Truthy(item.submitted)
    ensures CardStatus(item, now) == AssignmentStatus(Some(AssignmentDates(item.dueDate)), None, now)
  {
  }

  /** Once the button is withdrawn it stays withdrawn as time moves on. */
  lemma SubmitWindowCloses(item: StudentItem, now: int, later: int)
    requires !CanSubmit(item, now) && now <= later
    ensures !CanSubmit(item, later)
  {
    if !Truthy(item.submitted) {
      OverdueIsMonotone(item.dueDate, now, later);
    }
  }
}

=== FILE: submission_form.dfy ===
/**
  The submission form (src/components/forms/SubmissionForm.js): the list of
  picked files, the guard on sending, the payload, and the state of the send
  button. The document picker is outside the model; its answer is a parameter.
 */
module SubmissionForm {
  import opened Wrappers
  import opened Js

  /** What the document picker resolved with: its `type` field, and its `output` when
      that is a list (`None` when it is missing, so that spreading it throws). */
  datatype PickResult = PickResult(kind: Value, output: Option<seq<Value>>)

  /** An error no handler of the form catches. */
  datatype Uncaught = SpreadOfMissingOutput

  /** `pickDocument`: a `success` answer appends its files after the ones already picked;
      any other answer leaves the list as it was. The files are spread inside the updater
      handed to `setFiles`, which React runs while rendering, after the handler's `try` has
      ended: a `success` answer without an `output` list therefore throws out of the render
      instead of reaching the handler's alert. */
  function PickAppend(files: seq<Value>, result: PickResult): (r: Result<seq<Value>, Uncaught>)
    ensures r.Failure? <==> result.kind == Str("success") && result.output.None?
    ensures result.kind == Str("success") && result.output.Some? ==> r == Success(files + result.output.value)
    ensures result.kind != Str("success") ==> r == Success(files)
  {
    if result.kind == Str("success") then
      match result.output
      case Some(picked) => Success(files + picked)
      case None => Failure(SpreadOfMissingOutput)
    else Success(files)
  }

  /** `removeFile(index)`: `files.filter((_, i) => i !== index)`. */
  function RemoveFile(files: seq<Value>, index: int): (r: seq<Value>)
    ensures 0 <= index < |files| ==> |r| == |files| - 1
    ensures 0 <= index < |files| ==> forall i :: 0 <= i < |r| ==> r[i] == if i < index then files[i] else files[i + 1]
    ensures !(0 <= index < |files|) ==> r == files
  {
    if 0 <= index < |files| then files[..index] + files[index + 1..] else files
  }

  /** `files.length === 0 && !comment.trim()`: nothing to hand in. */
  predicate NothingToSend(files: seq<Value>, comment: string) {
    |files| == 0 && Trim(comment) == ""
  }

  /** What `handleSubmit` passes to `onSubmit`. */
  datatype SubmissionPayload = SubmissionPayload(assignmentId: Value, comment: string, files: seq<Value>)

  const NothingToSendMessage := "Debes agregar un archivo o un comentario"

  /** `handleSubmit`: refused with an alert when there is nothing to send; otherwise the
      assignment's `_id`, the trimmed comment and the files as picked. The form is only
      ever shown for an assignment, whose title it renders before anything else. */
  function HandleSubmit(assignment: Value, files: seq<Value>, comment: string): (r: Result<SubmissionPayload, string>)
    ensures r.Failure? <==> |files| == 0 && Trim(comment) == ""
    ensures r.Failure? ==> r.error == NothingToSendMessage
    ensures r.Success? ==> r.value.assignmentId == Prop(assignment, "_id")
    ensures r.Success? ==> r.value.files == files && r.value.comment == Trim(comment)
    ensures r.Success? ==> (r.value.files != [] || r.value.comment != "")
  {
    if NothingToSend(files, comment) then Failure(NothingToSendMessage)
    else Success(SubmissionPayload(Prop(assignment, "_id"), Trim(comment), files))
  }

  /** The `disabled` condition of the send button: the markup repeats the handler's test. */
  predicate SendDisabled(files: seq<Value>, comment: string) {
    NothingToSend(files, comment)
  }

  /** The button is disabled exactly when sending would be refused. */
  lemma DisabledIffRefused(assignment: Value, files: seq<Value>, comment: string)
    ensures SendDisabled(files, comment) <==> HandleSubmit(assignment, files, comment).Failure?
  {
  }

  /** A comment of white space only counts as no comment. */
  lemma BlankCommentIsNoComment(assignment: Value, comment: string)
    requires AllSpace(comment)
    ensures HandleSubmit(assignment, [], comment).Failure?
  {
  }

  /** Removing a file just picked gives back the list from before the pick. */
  lemma RemoveUndoesPick(files: seq<Value>, file: Value)
    ensures PickAppend(files, PickResult(Str("success"), Some([file]))).Success?
    ensures RemoveFile(PickAppend(files, PickResult(Str("success"), Some([file]))).value, |files|) == files
  {
    assert (files + [file])[..|files|] == files;
  }

  /** Removing a position that is not in the list changes nothing, however often. */
  lemma RemoveOutOfRangeIsNoop(files: seq<Value>, index: int)
    requires index < 0 || index >= |files|
    ensures RemoveFile(RemoveFile(files, index), index) == files
  {
  }
}

=== FILE: teacher_dashboard.dfy ===
/**
  The figures of the teacher dashboard (src/screens/teacher/TeacherDashboard.js,
  `loadDashboardData`): totals summed over the teacher's assignments, every
  submission gathered in order, and the first five assignments. The request itself
  is outside the model. `getTeacherAssignments` (src/services/assignmentService.js)
  catches every error and resolves with no `assignments`, which `ServiceAnswer`
  states. `calculateAverageGrade` is a parameter and is not part of this model.
 */
module TeacherDashboard {
  import opened Wrappers
  import opened Js

  /** `assignment.stats`: the two counters the dashboard reads; a missing or falsy
      counter is `None`. */
  datatype AssignmentStats = AssignmentStats(totalSubmissions: Option<real>, pendingSubmissions: Option<real>)

  /** The fields of an assignment the dashboard reads. */
  datatype DashAssignment = DashAssignment(stats: Option<AssignmentStats>, submissions: Option<seq<Value>>)

  /** How the `try` of `loadDashboardData` ends: with the service's answer, whose
      `assignments` may be missing, or by throwing an error whose
      `error.response?.data?.message` is `responseMessage`. The service never rejects, so
      only something else inside the `try` throws, such as `calculateAverageGrade`. Such
      an error carries no `response`, so `responseMessage` is then `undefined`. */
  datatype Fetch = Fetched(assignments: Option<seq<DashAssignment>>) | Threw(responseMessage: Value)

  datatype DashStats = DashStats(totalAssignments: nat, totalSubmissions: real, pendingGrading: real, averageGrade: real)

  /** The screen's state: the stat cards, the recent list, the spinner and the alert last shown. */
  datatype Dashboard = Dashboard(stats: DashStats, recent: seq<DashAssignment>, loading: bool, alert: Option<Value>)

  const InitialDashboard := Dashboard(DashStats(0, 0.0, 0.0, 0.0), [], true, None)

  const LoadError := "Error al cargar el dashboard"

  /** How many assignments the recent list shows. */
  const RecentCount := 5

  // ----- the reference definitions -----

  /** `x || 0` on a counter. */
  function OrZero(x: Option<real>): real {
    if x.Some? then x.value else 0.0
  }

  /** `assignment.stats?.totalSubmissions || 0` */
  function SubmissionsOf(a: DashAssignment): real {
    if a.stats.Some? then OrZero(a.stats.value.totalSubmissions) else 0.0
  }

  /** `assignment.stats?.pendingSubmissions || 0` */
  function PendingOf(a: DashAssignment): real {
    if a.stats.Some? then OrZero(a.stats.value.pendingSubmissions) else 0.0
  }

  /** The submissions an assignment contributes: its list, or none when it has no list. */
  function SubmissionListOf(a: DashAssignment): seq<Value> {
    if a.submissions.Some? then a.submissions.value else []
  }

  function TotalSubmissions(list: seq<DashAssignment>): real {
    if list == [] then 0.0 else SubmissionsOf(list[0]) + TotalSubmissions(list[1..])
  }

  function PendingGrading(list: seq<DashAssignment>): real {
    if list == [] then 0.0 else PendingOf(list[0]) + PendingGrading(list[1..])
  }

  function AllSubmissions(list: seq<DashAssignment>): seq<Value> {
    if list == [] then [] else SubmissionListOf(list[0]) + AllSubmissions(list[1..])
  }

  /** `response.assignments || []` */
  function AssignmentsOr(assignments: Option<seq<DashAssignment>>): seq<DashAssignment> {
    if assignments.Some? then assignments.value else []
  }

  /** The alert text: the server's message when it is truthy, the fixed text otherwise. */
  function AlertText(responseMessage: Value): (m: Value)
    ensures Truthy(m)
    ensures Truthy(responseMessage) ==> m == responseMessage
    ensures !Truthy(responseMessage) ==> m == Str(LoadError)
  {
    if Truthy(responseMessage) then responseMessage else Str(LoadError)
  }

  /** What `getTeacherAssignments` resolves with, given how the request ended: the
      response's `assignments` on success, and on any error an object without
      `assignments`. Either way the dashboard sees an answer, never a rejection. */
  function ServiceAnswer(request: Result<Option<seq<DashAssignment>>, Value>): (f: Fetch)
    ensures f.Fetched?
    ensures request.Failure? ==> f.assignments.None?
    ensures request.Success? ==> f.assignments == request.value
  {
    if request.Success? then Fetched(request.value) else Fetched(None)
  }

  /** `assignments.slice(0, 5)`: the start of the list, five long once there are five. */
  function Recent(list: seq<DashAssignment>): (r: seq<DashAssignment>)
    ensures |r| <= RecentCount && |r| <= |list|
    ensures |r| == RecentCount || |r| == |list|
    ensures forall i :: 0 <= i < |r| ==> r[i] == list[i]
  {
    if |list| < RecentCount then list else list[..RecentCount]
  }

  // ----- the fold -----

  lemma {:induction false} TotalsOfAppend(list: seq<DashAssignment>, a: DashAssignment)
    ensures TotalSubmissions(list + [a]) == TotalSubmissions(list) + SubmissionsOf(a)
    ensures PendingGrading(list + [a]) == PendingGrading(list) + PendingOf(a)
    ensures AllSubmissions(list + [a]) == AllSubmissions(list) + SubmissionListOf(a)
  {
    if list != [] {
      assert (list + [a])[1..] == list[1..] + [a];
      TotalsOfAppend(list[1..], a);
    } else {
      assert [a][1..] == [];
    }
  }

  /** `loadDashboardData`: on a response, the `forEach` over the assignments adds up the
      counters and concatenates the submission lists, and the first five assignments
      become the recent list. When something inside the `try` throws, the figures stay
      and an alert is shown. Either way the spinner stops. */
  method LoadDashboardData(prev: Dashboard, fetch: Fetch, average: seq<Value> -> real) returns (next: Dashboard)
    ensures !next.loading
    ensures fetch.Threw? ==> next == prev.(loading := false, alert := Some(AlertText(fetch.responseMessage)))
    ensures fetch.Fetched? ==> var list := AssignmentsOr(fetch.assignments);
      && next.stats.totalAssignments == |list|
      && next.stats.totalSubmissions == TotalSubmissions(list)
      && next.stats.pendingGrading == PendingGrading(list)
      && next.stats.averageGrade == average(AllSubmissions(list))
      && next.recent == Recent(list)
      && next.alert == prev.alert
  {
    if fetch.Threw? {
      return prev.(loading := false, alert := Some(AlertText(fetch.responseMessage)));
    }
    var assignments := AssignmentsOr(fetch.assignments);
    var totalSubmissions := 0.0;
    var pendingGrading := 0.0;
    var allSubmissions: seq<Value> := [];
    var i := 0;
    while i < |assignments|
      invariant 0 <= i <= |assignments|
      invariant totalSubmissions == TotalSubmissions(assignments[..i])
      invariant pendingGrading == PendingGrading(assignments[..i])
      invariant allSubmissions == AllSubmissions(assignments[..i])
    {
      var a := assignments[i];
      TotalsOfAppend(assignments[..i], a);
      assert assignments[..i + 1] == assignments[..i] + [a];
      totalSubmissions := totalSubmissions + SubmissionsOf(a);
      pendingGrading := pendingGrading + PendingOf(a);
      if a.submissions.Some? {
        allSubmissions := allSubmissions + a.submissions.value;
      }
      i := i + 1;
    }
    assert assignments[..i] == assignments;
    var stats := DashStats(|assignments|, totalSubmissions, pendingGrading, average(allSubmissions));
    next := Dashboard(stats, Recent(assignments), false, prev.alert);
  }

  /** A failed request is not an error on this screen: the service resolves, the
      figures become zero, the recent list empties and no alert is shown. */
  method FailedRequestShowsNothing(prev: Dashboard, error: Value, average: seq<Value> -> real) returns (next: Dashboard)
    ensures next.stats == DashStats(0, 0.0, 0.0, average([]))
    ensures next.recent == [] && next.alert == prev.alert && !next.loading
  {
    next := LoadDashboardData(prev, ServiceAnswer(Failure(error)), average);
  }

  // ----- what the figures mean -----

  /** A submission is gathered exactly when some assignment's list holds it. */
  lemma {:induction false} GatheredIffListed(list: seq<DashAssignment>, x: Value)
    ensures x in AllSubmissions(list) <==> exists i :: 0 <= i < |list| && x in SubmissionListOf(list[i])
  {
    if list != [] {
      GatheredIffListed(list[1..], x);
      if x in SubmissionListOf(list[0]) {
        assert 0 <= 0 < |list| && x in SubmissionListOf(list[0]);
      }
      if x in AllSubmissions(list[1..]) {
        var j :| 0 <= j < |list[1..]| && x in SubmissionListOf(list[1..][j]);
        assert x in SubmissionListOf(list[1 + j]);
      }
      if exists i :: 0 <= i < |list| && x in SubmissionListOf(list[i]) {
        var i :| 0 <= i < |list| && x in SubmissionListOf(list[i]);
        if i > 0 {
          assert list[1..][i - 1] == list[i];
        }
      }
    }
  }

  /** Whether every counter an assignment carries is a count: never negative, and its
      pending submissions never more than its submissions. */
  predicate CountersSane(a: DashAssignment) {
    0.0 <= PendingOf(a) <= SubmissionsOf(a)
  }

  /** When each assignment's counters are sane, so are the totals: the pending figure
      is never negative and never exceeds the submissions figure. */
  lemma {:induction false} PendingWithinSubmissions(list: seq<DashAssignment>)
    requires forall i :: 0 <= i < |list| ==> CountersSane(list[i])
    ensures 0.0 <= PendingGrading(list) <= TotalSubmissions(list)
  {
    if list != [] {
      assert CountersSane(list[0]);
      forall i | 0 <= i < |list[1..]|
        ensures CountersSane(list[1..][i])
      {
        assert list[1..][i] == list[i + 1];
      }
      PendingWithinSubmissions(list[1..]);
    }
  }
}

=== FILE: user_slice.dfy ===
/**
  The `users` slice (src/store/slices/userSlice.js): the director's lists of
  teachers and students and the user being inspected, with the selectors that
  search them.
 */
module UserSlice {
  import opened Wrappers
  import opened Js
  import opened IdLists

  datatype UsersState = UsersState(
    teachers: seq<Record>,
    students: seq<Record>,
    currentUser: Value,
    loading: bool,
    error: Value)

  const Initial := UsersState([], [], Null, false, Null)

  const IdKey := "_id"

  /** `state.currentUser && state.currentUser._id === id` */
  predicate IsCurrent(s: UsersState, id: Value) {
    Truthy(s.currentUser) && Prop(s.currentUser, IdKey) == id
  }

  /** `fetchUsersStart`, `updateUserStart`, `deactivateUserStart`. */
  function Begin(s: UsersState): (r: UsersState)
    ensures r.loading && r.error == Null
    ensures r.teachers == s.teachers && r.students == s.students && r.currentUser == s.currentUser
  {
    s.(loading := true, error := Null)
  }

  /** `fetchUsersFailure`, `updateUserFailure`, `deactivateUserFailure`. */
  function Fail(s: UsersState, err: Value): (r: UsersState)
    ensures !r.loading && r.error == err
    ensures r.teachers == s.teachers && r.students == s.students && r.currentUser == s.currentUser
  {
    s.(loading := false, error := err)
  }

  /** `fetchTeachersSuccess`: the payload becomes the list of teachers; the students and
      the current user stay. */
  function FetchTeachersSuccess(s: UsersState, list: seq<Record>): (r: UsersState)
    ensures r.teachers == list && !r.loading && r.error == Null
    ensures r.students == s.students && r.currentUser == s.currentUser
  {
    s.(loading := false, teachers := list, error := Null)
  }

  /** `fetchStudentsSuccess`: the payload becomes the list of students; the teachers and
      the current user stay. */
  function FetchStudentsSuccess(s: UsersState, list: seq<Record>): (r: UsersState)
    ensures r.students == list && !r.loading && r.error == Null
    ensures r.teachers == s.teachers && r.currentUser == s.currentUser
  {
    s.(loading := false, students := list, error := Null)
  }

  /** `setCurrentUser`: only the current user changes. */
  function SetCurrentUser(s: UsersState, user: Value): (r: UsersState)
    ensures r.currentUser == user
    ensures r.teachers == s.teachers && r.students == s.students && r.loading == s.loading && r.error == s.error
  {
    s.(currentUser := user)
  }

  /** `clearCurrentUser`: only the current user changes, to `null`. */
  function ClearCurrentUser(s: UsersState): (r: UsersState)
    ensures r.currentUser == Null
    ensures r.teachers == s.teachers && r.students == s.students && r.loading == s.loading && r.error == s.error
  {
    s.(currentUser := Null)
  }

  /** `clearError`: only the error changes, to `null`. */
  function ClearError(s: UsersState): (r: UsersState)
    ensures r.error == Null
    ensures r.teachers == s.teachers && r.students == s.students && r.loading == s.loading && r.currentUser == s.currentUser
  {
    s.(error := Null)
  }

  /** `updateUserSuccess`: the first teacher and the first student carrying the payload's
      `_id` become the payload, and so does the current user when it carries that `_id`. */
  function UpdateUserSuccess(s: UsersState, u: Record): (r: UsersState)
    ensures |r.teachers| == |s.teachers| && |r.students| == |s.students|
    ensures (forall j :: 0 <= j < |s.teachers| ==> !Matches(s.teachers[j], IdKey, Field(u, IdKey))) ==> r.teachers == s.teachers
    ensures (forall j :: 0 <= j < |s.students| ==> !Matches(s.students[j], IdKey, Field(u, IdKey))) ==> r.students == s.students
    ensures FindIndex(s.teachers, IdKey, Field(u, IdKey)) >= 0 ==>
      r.teachers == s.teachers[FindIndex(s.teachers, IdKey, Field(u, IdKey)) := u]
    ensures FindIndex(s.students, IdKey, Field(u, IdKey)) >= 0 ==>
      r.students == s.students[FindIndex(s.students, IdKey, Field(u, IdKey)) := u]
    ensures r.currentUser == if IsCurrent(s, Field(u, IdKey)) then Obj(u) else s.currentUser
    ensures !r.loading && r.error == Null
  {
    var id := Field(u, IdKey);
    s.(loading := false,
       teachers := ReplaceFirst(s.teachers, IdKey, id, u),
       students := ReplaceFirst(s.students, IdKey, id, u),
       currentUser := if IsCurrent(s, id) then Obj(u) else s.currentUser,
       error := Null)
  }

  /** `deactivateUserSuccess`: every user with the `_id` leaves both lists, and the
      current user is cleared when it is that user. */
  function DeactivateUserSuccess(s: UsersState, id: Value): (r: UsersState)
    ensures forall x :: x in r.teachers <==> x in s.teachers && Field(x, IdKey) != id
    ensures forall x :: x in r.students <==> x in s.students && Field(x, IdKey) != id
    ensures r.teachers == RemoveAll(s.teachers, IdKey, id) && r.students == RemoveAll(s.students, IdKey, id)
    ensures r.currentUser == if IsCurrent(s, id) then Null else s.currentUser
    ensures !r.loading && r.error == Null
  {
    s.(loading := false,
       teachers := RemoveAll(s.teachers, IdKey, id),
       students := RemoveAll(s.students, IdKey, id),
       currentUser := if IsCurrent(s, id) then Null else s.currentUser,
       error := Null)
  }

  /** `addUser`: a user goes to the list named by its role; any other role is ignored. */
  function AddUser(s: UsersState, u: Record): (r: UsersState)
    ensures Field(u, "role") == Str("teacher") ==> r == s.(teachers := s.teachers + [u])
    ensures Field(u, "role") == Str("student") ==> r == s.(students := s.students + [u])
    ensures Field(u, "role") != Str("teacher") && Field(u, "role") != Str("student") ==> r == s
  {
    if Field(u, "role") == Str("teacher") then s.(teachers := s.teachers + [u])
    else if Field(u, "role") == Str("student") then s.(students := s.students + [u])
    else s
  }

  /** `resetUsers` */
  function ResetUsers(s: UsersState): (r: UsersState)
    ensures r == Initial
  {
    s.(teachers := [], students := [], currentUser := Null, loading := false, error := Null)
  }

  /** `selectUserById`: the first teacher, else the first student, with the `_id`. */
  function SelectUserById(s: UsersState, id: Value): (r: Option<Record>)
    ensures r.None? <==>
      (forall j :: 0 <= j < |s.teachers| ==> !Matches(s.teachers[j], IdKey, id)) &&
      (forall j :: 0 <= j < |s.students| ==> !Matches(s.students[j], IdKey, id))
    ensures r.Some? ==> Field(r.value, IdKey) == id && (r.value in s.teachers || r.value in s.students)
  {
    var all := s.teachers + s.students;
    assert forall j :: 0 <= j < |s.teachers| ==> all[j] == s.teachers[j];
    assert forall j :: 0 <= j < |s.students| ==> all[|s.teachers| + j] == s.students[j];
    FindFirst(all, IdKey, id)
  }

  /** `selectUsersByRole` */
  function SelectUsersByRole(s: UsersState, role: Value): (r: seq<Record>)
    ensures role == Str("teacher") ==> r == s.teachers
    ensures role == Str("student") ==> r == s.students
    ensures role != Str("teacher") && role != Str("student") ==> r == []
  {
    if role == Str("teacher") then s.teachers
    else if role == Str("student") then s.students
    else []
  }

  /** A teacher wins over a student with the same `_id`. */
  lemma SelectPrefersTeachers(s: UsersState, id: Value)
    ensures SelectUserById(s, id) ==
      if FindFirst(s.teachers, IdKey, id).Some? then FindFirst(s.teachers, IdKey, id) else FindFirst(s.students, IdKey, id)
  {
    FindFirstAppend(s.teachers, s.students, IdKey, id);
  }

  /** Deactivating filters each list in place: the survivors of two halves of a list are
      the survivors of each half, in order and as often as they were there, and
      deactivating the same `_id` again removes nothing more. */
  lemma DeactivateKeepsOrder(s: UsersState, id: Value, front: seq<Record>, back: seq<Record>)
    requires s.students == front + back
    ensures DeactivateUserSuccess(s, id).students == RemoveAll(front, IdKey, id) + RemoveAll(back, IdKey, id)
    ensures DeactivateUserSuccess(DeactivateUserSuccess(s, id), id).teachers == DeactivateUserSuccess(s, id).teachers
    ensures DeactivateUserSuccess(DeactivateUserSuccess(s, id), id).students == DeactivateUserSuccess(s, id).students
  {
    RemoveAllAppend(front, back, IdKey, id);
    RemoveAllIdempotent(s.teachers, IdKey, id);
    RemoveAllIdempotent(s.students, IdKey, id);
  }

  /** After a deactivation the user can no longer be selected, and is not the current user. */
  lemma DeactivatedIsGone(s: UsersState, id: Value)
    ensures SelectUserById(DeactivateUserSuccess(s, id), id).None?
    ensures !IsCurrent(DeactivateUserSuccess(s, id), id)
  {
    var r := DeactivateUserSuccess(s, id);
    assert forall j :: 0 <= j < |r.teachers| ==> r.teachers[j] in r.teachers;
    assert forall j :: 0 <= j < |r.students| ==> r.students[j] in r.students;
  }

  /** Deactivating someone else leaves the lists and the current user as they were. */
  lemma DeactivateAbsentIsNoop(s: UsersState, id: Value)
    requires forall j :: 0 <= j < |s.teachers| ==> !Matches(s.teachers[j], IdKey, id)
    requires forall j :: 0 <= j < |s.students| ==> !Matches(s.students[j], IdKey, id)
    requires !IsCurrent(s, id)
    ensures DeactivateUserSuccess(s, id) == s.(loading := false, error := Null)
  {
    RemoveAllNoMatch(s.teachers, IdKey, id);
    RemoveAllNoMatch(s.students, IdKey, id);
  }

  /** An update of a listed teacher is what the selector then returns. */
  lemma UpdatedTeacherIsSelected(s: UsersState, u: Record)
    requires exists j :: 0 <= j < |s.teachers| && Matches(s.teachers[j], IdKey, Field(u, IdKey))
    ensures SelectUserById(UpdateUserSuccess(s, u), Field(u, IdKey)) == Some(u)
  {
    var id := Field(u, IdKey);
    var r := UpdateUserSuccess(s, u);
    assert r.teachers == ReplaceFirst(s.teachers, IdKey, id, u);
    ReplacedIsFound(s.teachers, IdKey, id, u);
    SelectPrefersTeachers(r, id);
  }

  /** `updateUserSuccess` puts the payload in place of exactly the first teacher and the
      first student that carry its `_id`; every other entry stays where it was. */
  lemma UpdateReplacesFirstMatches(s: UsersState, u: Record, i: nat, k: nat)
    requires i < |s.teachers| && Matches(s.teachers[i], IdKey, Field(u, IdKey))
    requires forall j :: 0 <= j < i ==> !Matches(s.teachers[j], IdKey, Field(u, IdKey))
    requires k < |s.students| && Matches(s.students[k], IdKey, Field(u, IdKey))
    requires forall j :: 0 <= j < k ==> !Matches(s.students[j], IdKey, Field(u, IdKey))
    ensures UpdateUserSuccess(s, u).teachers == s.teachers[i := u]
    ensures UpdateUserSuccess(s, u).students == s.students[k := u]
  {
    FindIndexUnique(s.teachers, IdKey, Field(u, IdKey), i);
    FindIndexUnique(s.students, IdKey, Field(u, IdKey), k);
  }

  /** An update of a student who is no teacher is what the selector then returns. */
  lemma UpdatedStudentIsSelected(s: UsersState, u: Record)
    requires forall j :: 0 <= j < |s.teachers| ==> !Matches(s.teachers[j], IdKey, Field(u, IdKey))
    requires exists j :: 0 <= j < |s.students| && Matches(s.students[j], IdKey, Field(u, IdKey))
    ensures SelectUserById(UpdateUserSuccess(s, u), Field(u, IdKey)) == Some(u)
  {
    var id := Field(u, IdKey);
    var r := UpdateUserSuccess(s, u);
    assert r.teachers == s.teachers;
    assert r.students == ReplaceFirst(s.students, IdKey, id, u);
    ReplacedIsFound(s.students, IdKey, id, u);
    SelectPrefersTeachers(r, id);
  }

  /** Each fetch replaces its own list and no other: afterwards the role selector returns
      the fetched list for that role and the old list for the other. */
  lemma FetchesReplaceOwnList(s: UsersState, list: seq<Record>)
    ensures SelectUsersByRole(FetchTeachersSuccess(s, list), Str("teacher")) == list
    ensures SelectUsersByRole(FetchTeachersSuccess(s, list), Str("student")) == s.students
    ensures SelectUsersByRole(FetchStudentsSuccess(s, list), Str("student")) == list
    ensures SelectUsersByRole(FetchStudentsSuccess(s, list), Str("teacher")) == s.teachers
  {
  }

  /** Setting then clearing the current user leaves the state as a plain clear would, and
      neither step touches the lists. */
  lemma ClearUndoesSet(s: UsersState, user: Value)
    ensures ClearCurrentUser(SetCurrentUser(s, user)) == ClearCurrentUser(s)
    ensures SetCurrentUser(s, s.currentUser) == s
  {
  }

  /** A user that `addUser` accepts can be selected by its `_id` afterwards. */
  lemma AddedUserIsSelectable(s: UsersState, u: Record)
    requires Field(u, "role") == Str("teacher") || Field(u, "role") == Str("student")
    ensures SelectUserById(AddUser(s, u), Field(u, IdKey)).Some?
  {
    var r := AddUser(s, u);
    if Field(u, "role") == Str("teacher") {
      assert r.teachers[|s.teachers|] == u;
    } else {
      assert r.students[|s.students|] == u;
    }
  }
}

=== FILE: wrappers.dfy ===
/** Failure-compatible wrappers shared by every module of the model. */
module Wrappers {

  /** `undefined`/absent versus a present value. */
  datatype Option<+T> = None | Some(value: T) {
    function GetOr(default: T): T {
      match this
      case Some(v) => v
      case None => default
    }
  }

  /** The outcome of an operation that can be refused or can throw. */
  datatype Result<+R, +E> = Success(value: R) | Failure(error: E)
}
